=== FILE: README.md ===
# funda scraper: a Dafny model of the scrape, diff, enrich and persist pipeline

The scraper crawls the funda.nl search results of a list of municipalities.
It diffs the crawled listings against the listings it saved earlier and
enriches new and relocated listings with coordinates and elevation. It then
writes the saved listings and a GeoJSON feature collection of them, and it
can push the change set to MongoDB as one bulk write.

This project models the decision logic of that pipeline in Dafny and proves
what it promises:

- **Listings.** A listing is a map from field name to a JavaScript-like
  value: `undefined`, `null`, a string, a number (finite or `NaN`) or a
  coordinate object (`Types`).
- **Snapshots.** The id-keyed `Map` the scraper builds is a `Snapshot`. It
  keeps its keys in insertion order, as a JavaScript `Map` iterates
  (`Snapshots`).
- **Reconciliation and bulk write.** The three-way diff, the bulk-write
  operations and their effect on a collection are in `Mongo`.
- **Task queue.** `PromiseQueue` is a state machine. A `Loop` replays any
  interleaving of the promise callbacks (fulfilment, rejection, `finally`)
  against it.
- **Crawl.** The crawl built on the queue is in `Crawl`: the retry policy
  for empty pages, discovery of further pages, and resolution with every
  listing fetched.
- **One page of search results** (`SearchResults`): price and result-count
  parsing, the feature classifier, and pagination.
- **GeoJSON** (`GeoJson`): the listing-to-feature mapping.
- **Address strings and the index-aligned coordinate merges**
  (`Geocoding`, `Utils`).
- **Elevation** (`Elevation`): chunking into groups of 256 and merging the
  answers back by position.
- **Update jobs** (`Update`): `runUpdate` and
  `addMissingCoordinatesToSavedListings` of index.ts.

**Parameters instead of effects.** Network requests, md5, file contents,
the rendering of numbers in template literals, and the enrichment steps
(`getListingDetails` followed by the elevation lookup) are parameters of
the model. A rejected promise or a thrown exception is `Throws`, and
`parseInt`'s `NaN` is `None`.

**Where the import and the definition disagree.** index.ts imports
`getChanges` and `getListingsMapById` from `./utils/listings`, but both are
defined in utils/mongodb.ts. The model uses the utils/mongodb.ts
definitions.

## Model

| member | source | states |
|---|---|---|
| Snapshots.ById | utils/mongodb.ts:49-56 | The map's keys are exactly the ids of the listings. A repeated id keeps the last listing that carries it. |
| Snapshots.PutAll | index.ts:110-112 | Setting listings into a map keeps its keys and adds the listings' ids. A later listing overwrites an earlier one with the same id. Keys not set keep their record, and keys already present keep their position. |
| Snapshots.RemoveAll | index.ts:163-165 | Deleting ids leaves exactly the keys not deleted, each with its record unchanged. |
| Snapshots.Values | index.ts:170 | `[...map.values()]` lists one record per key, in key order. |
| Mongo.GetChanges | utils/mongodb.ts:58-91 | toInsert holds exactly the new ids absent from the stored map. toUpdate holds exactly the ids in both maps whose stored record, stripped of `_id`, `coordinates` and `elevation`, differs from the new one. toDelete holds exactly the stored ids missing from the new map. Every entry is the record of its map, and no id repeats. |
| Mongo.ChangesPartition | utils/mongodb.ts:66-88 | Each new id is inserted, updated or unchanged, and only one of these. Each stored id is deleted, updated or unchanged. Inserted ids are not stored, and deleted ids are not new. |
| Mongo.ChangesCount | utils/mongodb.ts:66-82 | The inserts, updates and unchanged ids add up to the size of the new map. |
| Mongo.GetChangesIgnoresDerived | utils/mongodb.ts:67-73 | Stored records that agree outside `_id`, `coordinates` and `elevation` give the same change set. |
| Mongo.DerivedOnlyDifferenceIsNoUpdate | utils/mongodb.ts:67-78 | A listing that differs from its stored record only in the three derived fields is not updated. |
| Mongo.ChangesFromEmpty | utils/mongodb.ts:58-91 | Against an empty store every listing is an insert, in map order, and nothing is updated or deleted. |
| Mongo.BulkOperations | utils/mongodb.ts:93-132 | One operation per listing, in this order: every `updateOne`, then every `insertOne`, then every `deleteOne`, each group in input order. Updates and deletes are keyed by the listing id. |
| Mongo.UpdateListingsInDb | utils/mongodb.ts:38-43 | No write is issued exactly when the change set is empty. Otherwise the write is exactly the bulk operations of the change set, updates, then inserts, then deletes. |
| Mongo.ApplyOp | utils/mongodb.ts:40-43 | One operation of the bulk write. `$set` writes every listed field and keeps the other stored fields, and an update that matches nothing changes nothing. An insert adds its document, and a delete removes its id. No other document changes. |
| Mongo.BulkWriteAt | utils/mongodb.ts:93-132 | After the bulk write an id is in the collection iff it is in the new map. An inserted id holds the new record. An id in both maps holds the stored record with the new one `$set` over it, or the stored record when unchanged. |
| Mongo.BulkWriteReachesFreshSnapshot | utils/mongodb.ts:93-132 | After the bulk write the collection has exactly the new ids. Every field of a new record has its new value, and stored fields the new record lacks keep their stored value. |
| PromiseQueue.Create | utils/PromiseQueue.ts:14-23 | A new queue holds its tasks in `todo`, runs nothing, and its total is the task count. |
| PromiseQueue.Fill | utils/PromiseQueue.ts:36-62 | The fill loop launches the first waiting tasks, in order, and stops only when a further `runNext()` would fail. It launches something iff `runNext()` held, and never exceeds `count` running tasks. |
| PromiseQueue.FillLaunchesSlots | utils/PromiseQueue.ts:36-62 | The fill loop launches exactly the number of free slots, or the number of waiting tasks if that is smaller. |
| PromiseQueue.Run | utils/PromiseQueue.ts:35-67 | `run()` keeps the invariant (every task is waiting, running or complete, and at most `count` run), moves tasks from `todo` to `running` in FIFO order, and emits `complete` iff nothing waits and nothing runs. |
| PromiseQueue.Add | utils/PromiseQueue.ts:29-33 | `add(tasks)` appends the tasks behind the waiting ones, grows the total by their number, and then runs. |
| PromiseQueue.Resolve | utils/PromiseQueue.ts:44-52 | A fulfilment appends its result, grows `complete` by one, and shrinks `running` by one. |
| PromiseQueue.Step | utils/PromiseQueue.ts:43-61 | Every callback keeps the invariant. A rejection leaves one more task stuck in `running`. While a task is stuck, no callback emits `complete`. A fulfilment appends exactly its result. |
| PromiseQueue.ReplayZombies | utils/PromiseQueue.ts:53-56 | After any run of callbacks, the tasks stuck in `running` are exactly the rejections. |
| PromiseQueue.RejectionBlocksCompletion | utils/PromiseQueue.ts:53-66 | After a rejection, no sequence of later callbacks ever emits `complete` again. |
| PromiseQueue.CompleteMeansAllDone | utils/PromiseQueue.ts:64-66 | When `complete` is emitted, every task ever added has completed and left exactly one result. |
| Crawl.StartTasks | utils/listings.ts:18-25 | The crawl has one first-page search task per municipality, in order. |
| Crawl.OnProgress | utils/listings.ts:39-61 | An empty result counts one more attempt for its URL. It is retried, as a later page, iff fewer than three attempts were counted before. Once three were counted, the result's discovered pages are dropped. |
| Crawl.RetriesPerUrl | utils/listings.ts:39-52 | Over any run of results, the attempt count of a URL grows by its number of empty results. Retries are enqueued for it only until the count reaches three. |
| Crawl.RetriesFromScratch | utils/listings.ts:30-52 | Starting from no counts, a URL with `e` empty results is fetched again min(e, 3) times. |
| Crawl.AllListings | utils/listings.ts:66-68 | The listings of result i fill, in their own order, the stretch that starts after the listings of the results before it. Each stretch starts where the one before ends, so the flattened list has the listings of every result and no other. |
| Crawl.Start | utils/listings.ts:22-28 | The queue starts with min(municipalities, 4) first pages in flight, in municipality order, and nothing is resolved. |
| Crawl.CrawlStep | utils/listings.ts:32-73 | Each callback keeps the crawl consistent. A resolved crawl is idle and holds the flattened results. A failed fetch blocks resolution for good. |
| Crawl.ResolvesWithEveryListing | utils/listings.ts:64-72 | If the crawl resolves, it resolves with the listings of every fetch that resolved, in the order they resolved. |
| Crawl.CrawlResult | utils/listings.ts:11-74 | From the start, a resolved crawl holds exactly the flattened listings of the fetches that resolved. |
| Crawl.FailedFetchNeverResolves | utils/listings.ts:64-72 | After one rejected page fetch (an HTTP error, or an item without a link) the crawl never resolves, because the rejected task never leaves `running`. |
| Crawl.NoMunicipalityNeverResolves | utils/listings.ts:22-33 | With no municipality nothing can happen and the crawl never resolves. The only `complete` is emitted before the listener is attached. |
| SearchResults.NumOf | utils/listings.ts:104-112 | A `parseInt` result is a number, `NaN` exactly when nothing could be read. |
| SearchResults.PriceText | utils/listings.ts:104-112 | The text handed to `parseInt` holds no `.`. |
| SearchResults.Price | utils/listings.ts:104-112 | The price is always a number, either a whole number or `NaN`. A price shown as `€ <digit groups joined by .> k.k.` reads as the number the groups write, because every thousands separator is dropped. A price with no separator reads back as its number. |
| SearchResults.PriceWithSeparator | utils/listings.ts:104-112 | `€ 350.000 k.k.` is read as 350000. |
| SearchResults.DetermineType | utils/listings.ts:119-148 | A text holding `m²` at position 0 sets the living area and at position 1 the plot. Otherwise a text with a digit sets the rooms, else one with a capital letter sets the energy label, else it is unknown. Each case holds in both directions. |
| SearchResults.SurfaceByPosition | utils/listings.ts:119-148 | `<n> m²` is read as the number n: the living area first, the plot second, and the rooms anywhere else. |
| SearchResults.Spread | utils/listings.ts:118-154 | The feature object has a field for exactly the kinds that occur. Each field holds the value of the last feature of its kind. |
| SearchResults.SpreadLastWins | utils/listings.ts:149-153 | A feature that no later feature of the same kind overrides determines its field. |
| SearchResults.ExtractListing | utils/listings.ts:93-171 | A result item becomes a listing keyed by the digest of its link, with the trimmed texts, the parsed price and the features as fields. An item without a link throws. |
| SearchResults.ExtractAllItems | utils/listings.ts:93-171 | A page gives one listing per item, in page order, unless some item has no link. |
| SearchResults.AmountOfSearchPages | utils/listings.ts:175-184 | The page count is the ceiling of the result count over 15, and `NaN` exactly when the count is `NaN`. |
| SearchResults.PagesCoverResults | utils/listings.ts:182-188 | The first page plus the discovered ones hold every result, and one page fewer would not. A count of at most 15 discovers nothing. |
| SearchResults.PageNumbersReadBack | utils/listings.ts:186-188 | Discovered URL i is the search URL followed by `&search_result=` and the page number i + 2, and that number is at most the page count. |
| SearchResults.ResultCount | utils/listings.ts:175-180 | A title that starts with the count in digit groups, followed by a space and more words, yields the number its first two groups write. Only the first separator is removed, and `parseInt` stops at the second. A count with no separator reads back as its number. |
| SearchResults.SeparatedCount | utils/listings.ts:175-180 | `1.234 koopwoningen` is read as 1234. |
| SearchResults.SecondSeparatorCutsCount | utils/listings.ts:175-180 | `1.234.567 koopwoningen` is read as 1234, because the second separator stays and ends the number. |
| SearchResults.PageUrls | utils/listings.ts:182-188 | One URL per page after the first, URL i naming page i + 2. The URL of page n is discovered iff 2 ≤ n ≤ the page count, and nothing is discovered for a `NaN` count. |
| SearchResults.OneHundredFortyResults | utils/listings.ts:173-189 | A search with 140 results discovers pages 2 to 10. |
| SearchResults.FetchSearchResults | utils/listings.ts:76-204 | A page fetch rejects iff the HTTP status is not OK or some item has no link. Otherwise it returns its URL and the page's listings, and pages 2 and up only for a first page. |
| SearchResults.LaterPagesDiscoverNothing | utils/listings.ts:173-189 | A fetch that is not a first page, every retry included, discovers nothing. |
| GeoJson.ToFeature | utils/listings.ts:207-241 | A listing maps to `undefined` iff its postal code line is not a string or its coordinates are missing. Otherwise the feature id and the property id are the listing id, and the geometry is [longitude, latitude]. |
| GeoJson.MapListingsToFeatureCollection | utils/listings.ts:206-248 | The collection holds one entry per listing, in order. |
| GeoJson.FeatureReadsNamedFields | utils/listings.ts:215-237 | Two listings that agree on the fields the feature reads give the same feature. |
| GeoJson.PostalCodeAndCity | utils/listings.ts:209-213 | The postal code is the first two words of the postal code line, and the city is the third word alone. |
| GeoJson.ThreeWordsRoundTrip | utils/listings.ts:209-213 | For a three-word postal code line, postal code and city put back together give the line. |
| Geocoding.PostcodeAndPlace | utils/geocoding.ts:20-22 | With three words or more, postcode and place put back together give the postal code line. With fewer words the place is empty. |
| Geocoding.DutchPostcodeAndPlace | utils/geocoding.ts:20-22 | For "1234 AB Place", the postcode is "1234 AB" and the place keeps all its words. |
| Geocoding.ToAddress | utils/geocoding.ts:18-28 | Building an address throws iff the postal code line is not a string. |
| Geocoding.GeocodeAddresses | utils/geocoding.ts:50-105 | The call rejects iff some request has no readable body. Otherwise it gives one placeholder result per address, at (0, 0). |
| Geocoding.CoordinatesForListings | utils/geocoding.ts:15-48 | One listing per input. Listing i is input i with only its coordinates set to the result at the same index. |
| Geocoding.CoordinatesKeepIds | utils/geocoding.ts:40-45 | Geocoding keeps the ids and every field except the coordinates. |
| Geocoding.FirstWithDigit | utils/geocoding.ts:253 | The position found is that of the first word holding a digit, and none means no word holds one. |
| Geocoding.GetAddressParts | utils/geocoding.ts:248-267 | If a word holds a digit, the street is the words before the first such word and the number is that word and all after it. Otherwise the street is the whole address and the number is empty. |
| Geocoding.AddressPartsRoundTrip | utils/geocoding.ts:248-267 | When both parts are non-empty, street, a space and number give the address. |
| Geocoding.AddressPartsOfStreetAndNumber | utils/geocoding.ts:248-267 | Digit-free street words followed by a number that starts with a digit split back into exactly those two parts. |
| Geocoding.ToQuery | utils/geocoding.ts:140-154 | Building a request throws iff the street line or the postal code line is not a string. |
| Geocoding.CoordinatesForListings2 | utils/geocoding.ts:131-189 | The call rejects iff some request cannot be built or its fetch rejects. Otherwise it returns one listing per input, in order, with only the coordinates set from the answer at the same index. |
| Geocoding.MissingAnswerFallsBack | utils/geocoding.ts:166-186 | An answer without a first result gives the fallback (0, 0) and keeps the listing's id. |
| Text.JsLength | utils/utils.ts:20 | `.length` counts UTF-16 code units: between one and two per character, and equal to the number of characters iff none lies outside the Basic Multilingual Plane. |
| Text.ParseInt | utils/listings.ts:104-112 | JavaScript's `parseInt`: the decimal rendering of a number reads back as that number, and a negative result needs a minus sign as the first character after the white space. |
| Text.ParseIntDigitsThen | utils/listings.ts:104-112 | `parseInt` reads a leading run of decimal digits, leading zeros allowed, as its value when a non-digit follows. The exception is an `x` after a lone `0`, which starts a hexadecimal prefix. |
| Text.GroupsWithoutSeparators | utils/listings.ts:104-112 | Removing every `.` from digit groups leaves the digits of the number the groups write. |
| Utils.CeilDiv | utils/utils.ts:54 | The result is the least whole number of groups of d that cover n. |
| Utils.Chunks | utils/utils.ts:3-9 | The chunks concatenate to the input. Each is non-empty and at most `size` long, all but the last are exactly `size` long, and there are ceil(n / size) of them. |
| Utils.GetChunks | utils/utils.ts:3-9 | The loop computes exactly those chunks. |
| Utils.IsValidAddress | utils/utils.ts:11-30 | An empty street is invalid. The check throws iff the postal code line is not a string, or its first word has length four and there is no second word. It is valid iff there are at least three words, the first has length four and the second length two, and the place is not empty. Lengths are JavaScript lengths in UTF-16 code units. |
| Utils.ValidDutchAddress | utils/utils.ts:11-30 | A street with a postal code line "1234 AB Place" is valid. |
| Utils.AstralPostcodeValid | utils/utils.ts:20 | Two digits from outside the Basic Multilingual Plane have length four, so "\U{1D7CF}\U{1D7D0} AB Plaats" passes the check. |
| Utils.UrlFriendly | utils/utils.ts:37-44 | On ASCII input the staged replacements act on each character alone: a capital becomes its lower-case letter, a space becomes `-`, an apostrophe, `^` or `` ` `` is removed, and every other character stays. |
| Utils.UrlFriendlyClean | utils/utils.ts:37-44 | On ASCII input the result holds no capital letter, no space, no apostrophe and no stripped mark, and a trailing space becomes `-`. |
| Utils.UrlFriendlyIdempotent | utils/utils.ts:37-44 | On ASCII input, making a string URL-friendly twice changes nothing the second time. |
| Utils.NodeArrays | utils/utils.ts:53-68 | There is one array per node, and array i holds the page numbers from i times the per-node share plus one up to the end of its share. |
| Utils.NodeArraysBounded | utils/utils.ts:53-68 | No array is longer than ceil(allIndexes / numberOfNodes). |
| Utils.NodeArraysCover | utils/utils.ts:53-68 | With at least one node, the arrays concatenate to 1..allIndexes. |
| Elevation.Location | utils/elevation.ts:26-33 | A listing's location is `latitude,longitude`. It throws iff the coordinates are `undefined` or `null`. |
| Elevation.Locations | utils/elevation.ts:26-35 | The `locations` string throws iff some listing's location throws. |
| Elevation.LocationsReadBack | utils/elevation.ts:26-35 | When no rendered number holds a bar, splitting `locations` at the bar gives back each listing's location, in chunk order. |
| Elevation.Readable | utils/elevation.ts:49-54 | The results read before the first unreadable one. |
| Elevation.ChunkOutput | utils/elevation.ts:47-59 | An unreadable answer passes the chunk on unchanged. Otherwise result i is listing i of the chunk with its elevation set, up to the first unreadable result, after which the whole chunk follows unchanged. |
| Elevation.FullAnswer | utils/elevation.ts:49-54 | A full answer sets only the elevation of each listing, at its own position. |
| Elevation.PartialAnswerRepeats | utils/elevation.ts:47-59 | An answer that fails part way sends the listings before the failure twice. |
| Elevation.ProcessChunk | utils/elevation.ts:24-59 | One chunk rejects iff its `locations` string throws or the request rejects. |
| Elevation.GetElevation | utils/elevation.ts:7-65 | The listings are cut into chunks of 256. The call rejects iff some chunk does. Otherwise the output is the chunk outputs concatenated in chunk order. |
| Elevation.ElevationKeepsListings | utils/elevation.ts:17-64 | When every answer fits its chunk, the output has one listing per input listing at the same position, differing at most in the elevation. The ids are kept. |
| Elevation.UnreadableKeepsInput | utils/elevation.ts:55-59 | When no answer can be read, the listings come back exactly as given. |
| Update.ChangedFields | index.ts:117-131 | The changed fields are keys of the latest listing. |
| Update.UpdateWithoutChangedFields | index.ts:117-131 | An updated listing with no changed field has a stored field the latest lacks outside the derived ones, carries a derived field, or holds `undefined` under a key the saved record lacks. |
| Update.NeedsGeocoding | index.ts:133-142 | An updated listing is re-enriched iff its postal code line or its street is present and differs from the saved one. |
| Update.Selection | index.ts:133-142 | The selection holds exactly the updated listings that need new coordinates. With distinct ids, they keep the order they had among the updated listings. |
| Update.MergeOne | index.ts:150-153 | Merging one listing keeps the ids in place and changes nothing when no listing has its id. |
| Update.MergeBack | index.ts:150-153 | The first listing with a relocated id is replaced by the last relocated listing with that id, and every other listing stays. |
| Update.MergeBackDistinct | index.ts:150-153 | With distinct ids, a relocated listing replaces the entry with its id, and every other entry stays. |
| Update.UpdatedSnapshot | index.ts:86-165 | The updated map is well formed. The update returns iff enriching the inserts returns and enriching the updates selected against the map with the inserts set also returns. |
| Update.UpdateOutcome | index.ts:100-147 | With an enrichment that keeps ids, the update returns iff enriching the inserts returns and enriching the updates whose address changed against the saved records returns. |
| Update.InsertedRecord | index.ts:100-112 | With an enrichment that keeps ids, a new listing is saved as the last enriched listing with its id. |
| Update.UpdateKeepsLatestIds | index.ts:110-165 | With an enrichment that keeps ids, the saved map ends up with exactly the crawled ids. |
| Update.UnchangedKeepsSaved | index.ts:110-165 | A listing whose record did not change keeps its saved record, coordinates and elevation included. |
| Update.UpdateWithoutAddressChange | index.ts:133-158 | An updated listing whose address did not change is saved exactly as crawled. |
| Update.PriceOnlyUpdateDropsCoordinates | index.ts:133-158 | A listing whose price alone changed loses its saved coordinates. |
| Update.UpdateWithAddressChange | index.ts:133-158 | An updated listing whose address changed is saved as the last listing with its id that the enrichment of the address-changed listings returned. |
| Update.FirstUpdate | index.ts:65-112 | Without a saved file every crawled listing is an insert. The update returns iff both enrichments return, and the saved map is then built from the enriched crawl. |
| Update.RunUpdate | index.ts:64-185 | The listings file holds each id once, and the feature collection is built from exactly those listings. `runUpdate` returns iff the update of the saved map does. The file holds exactly the records of the updated map: read back by id, it gives the updated map. |
| Update.RunUpdateWritesCrawledIds | index.ts:64-176 | With an enrichment that keeps ids, the listings file holds exactly the crawled ids. |
| Update.WithoutCoordinates | index.ts:42-44 | The listings picked are exactly those whose coordinates are falsy. |
| Update.AddMissingCoordinates | index.ts:34-62 | The job rejects iff the enrichment does. Otherwise the file holds each id once, namely the saved ids and the enriched ones. |
| Update.AddMissingCoordinatesKeepsOthers | index.ts:42-53 | With an enrichment that keeps ids, the file keeps its ids. A listing with coordinates keeps its saved record, and one without takes its enriched version. |

## Left out

- HTTP, HTML parsing and JSON bodies are not modelled. A page arrives as the texts the selectors pick out, and an answer arrives as already-read values. Status codes and rejected requests are `Throws`.
- md5 hashing of the link is a function parameter, because only the fact that the id is a function of the link matters.
- Floating point, `parseFloat` and the coordinate scraping of listing pages are not modelled. Coordinates and elevations are opaque values.
- The rendering of a number inside a template literal is a parameter `show` of the elevation model, because JavaScript number formatting is out of scope.
- `getListingDetails` and `fetchSingleListingDetails` (utils/listings.ts:250-301) are not modelled. In `runUpdate` and `addMissingCoordinatesToSavedListings` they are part of the `Enrich` parameter, because they only fetch and scrape. A failed detail fetch there leaves its promise pending forever; the model only sees that the enrichment does not return.
- `getCoordinatesFromNominatim` is pure I/O and is left out. The URL encoding done by `URLSearchParams` is also left out; a request is modelled as its parameters.
- Bottleneck rate limiting, progress bars, logging and file writes are not modelled. File contents are parameters of the update jobs.
- The MongoDB client and connection lifecycle, the express server, and the cron schedule are not modelled. The bulk write is modelled as its effect on an id-keyed collection.
- The order in which promise callbacks run is not fixed by the model. Every interleaving is allowed, and each callback is one atomic step.
- Elevation.GetElevation: the source empties the caller's array while chunking. The model has no shared arrays, so this side effect is not represented.
- Utils.UrlFriendly: only ASCII input is modelled. NFD normalisation and the removal of non-ASCII diacritics need Unicode tables. On ASCII input the marks `^` and `` ` `` count as diacritics and are removed.
- Text.ParseInt: `-0` reads as 0, because the model has no negative zero.
- Strings are sequences of Unicode characters, so lone UTF-16 surrogates cannot occur. The only place where the UTF-16 view matters is a string's `.length`, which `Text.JsLength` counts in code units.
- lodash `isEqual` is modelled as equality of values. Like `isEqual`, it treats `NaN` as equal to `NaN`.
- `getChanges` copies the stored record before deleting fields. The model is pure, so the stored records are never modified.

=== FILE: crawl.dfy ===
/** The crawl of `getAllListingsFromFunda` (utils/listings.ts): a queue of
    four concurrent page fetches seeded with one search per municipality,
    whose `progress` listener retries empty pages and enqueues the further
    pages a first page discovers, and whose `complete` listener resolves the
    crawl with every listing fetched. */
module Crawl {
  import opened Types
  import opened SearchResults
  import opened PromiseQueue
  import opened Utils

  const Concurrency: int := 4
  const MaxRetries: nat := 3

  /** One first-page task per municipality, in order. */
  function StartTasks(municipalities: seq<string>): (r: seq<CrawlTask>)
    ensures |r| == |municipalities|
    ensures forall i :: 0 <= i < |r| ==> r[i] == Fetch(SeedUrl(municipalities[i]), true)
  {
    seq(|municipalities|, i requires 0 <= i < |municipalities| => Fetch(SeedUrl(municipalities[i]), true))
  }

  // ------------------------------------------------- the progress listener

  /** `retriesPerUrlMap.get(url) || 0` */
  function Attempts(retries: map<string, nat>, url: string): nat {
    if url in retries then retries[url] else 0
  }

  /** Later pages are fetched as non-first pages. */
  function Discover(urls: seq<string>): (r: seq<CrawlTask>)
    ensures |r| == |urls|
  {
    seq(|urls|, i requires 0 <= i < |urls| => Fetch(urls[i], false))
  }

  /** What the `progress` listener decides for one result: the updated retry
      counts, the retry task it enqueues if any, and the discovered pages it
      enqueues. */
  datatype Progress = Progress(retries: map<string, nat>, retry: Option<CrawlTask>, discovered: seq<CrawlTask>)

  /** The `progress` listener. A result without listings counts one more
      attempt for its URL; while fewer than three were counted before, the
      URL is fetched again (as a non-first page). Once three were counted the
      listener returns early, so the result's discovered pages are dropped. */
  function OnProgress(retries: map<string, nat>, res: FetchResult): (p: Progress)
    ensures forall u :: (Attempts(p.retries, u) ==
                         Attempts(retries, u) + (if u == res.url && |res.listings| == 0 then 1 else 0))
    ensures p.retry.Some? <==> |res.listings| == 0 && Attempts(retries, res.url) < MaxRetries
    ensures p.retry.Some? ==> p.retry.value == Fetch(res.url, false)
    ensures p.discovered ==
      (if |res.listings| == 0 && Attempts(retries, res.url) >= MaxRetries then [] else Discover(res.urlsToCheck))
  {
    if |res.listings| == 0 then
      var attempt := Attempts(retries, res.url);
      var counted := retries[res.url := attempt + 1];
      if attempt >= MaxRetries then Progress(counted, None, [])
      else Progress(counted, Some(Fetch(res.url, false)), Discover(res.urlsToCheck))
    else Progress(retries, None, Discover(res.urlsToCheck))
  }

  /** The `queue.add` calls the listener makes: the retry, then the
      discovered pages, each only when there is something to add. */
  function Batches(p: Progress): (r: seq<seq<CrawlTask>>)
    ensures forall i :: 0 <= i < |r| ==> |r[i]| > 0
  {
    (if p.retry.Some? then [[p.retry.value]] else []) + (if |p.discovered| > 0 then [p.discovered] else [])
  }

  /** The listener over a run of results: the final retry counts and the
      retry tasks enqueued, in order. */
  function HandleAll(retries: map<string, nat>, rs: seq<FetchResult>): (map<string, nat>, seq<CrawlTask>)
    decreases |rs|
  {
    if rs == [] then (retries, [])
    else
      var p := OnProgress(retries, rs[0]);
      var (final, retried) := HandleAll(p.retries, rs[1..]);
      (final, (if p.retry.Some? then [p.retry.value] else []) + retried)
  }

  /** The results for `url` that came back without listings. */
  function EmptyResults(rs: seq<FetchResult>, url: string): nat {
    if rs == [] then 0
    else (if rs[0].url == url && |rs[0].listings| == 0 then 1 else 0) + EmptyResults(rs[1..], url)
  }

  /** The tasks that fetch `url`. */
  function TasksFor(ts: seq<CrawlTask>, url: string): nat {
    if ts == [] then 0 else (if ts[0].url == url then 1 else 0) + TasksFor(ts[1..], url)
  }

  lemma {:induction false} TasksForAppend(a: seq<CrawlTask>, b: seq<CrawlTask>, url: string)
    ensures TasksFor(a + b, url) == TasksFor(a, url) + TasksFor(b, url)
  {
    if a == [] {
      assert a + b == b;
    } else {
      assert (a + b)[1..] == a[1..] + b;
      TasksForAppend(a[1..], b, url);
    }
  }

  /** Retries are bounded per URL: every empty result is counted, but only
      the first three counted attempts of a URL are retried. From an empty
      map, a URL with `e` empty results is retried `min(e, 3)` times. */
  lemma {:induction false} RetriesPerUrl(retries: map<string, nat>, rs: seq<FetchResult>, url: string)
    ensures Attempts(HandleAll(retries, rs).0, url) == Attempts(retries, url) + EmptyResults(rs, url)
    ensures TasksFor(HandleAll(retries, rs).1, url) ==
      Min(Attempts(retries, url) + EmptyResults(rs, url), MaxRetries) - Min(Attempts(retries, url), MaxRetries)
    decreases |rs|
  {
    if rs != [] {
      var p := OnProgress(retries, rs[0]);
      RetriesPerUrl(p.retries, rs[1..], url);
      var head := if p.retry.Some? then [p.retry.value] else [];
      TasksForAppend(head, HandleAll(p.retries, rs[1..]).1, url);
    }
  }

  /** A URL retried from scratch gets at most three extra fetches. */
  lemma RetriesFromScratch(rs: seq<FetchResult>, url: string)
    ensures TasksFor(HandleAll(map[], rs).1, url) == Min(EmptyResults(rs, url), MaxRetries)
  {
    RetriesPerUrl(map[], rs, url);
  }

  // ------------------------------------------------- the complete listener

  /** The listings of each result, `results.completed.map(r => r.listings)`. */
  function ListingsOf(rs: seq<FetchResult>): (r: seq<seq<Listing>>)
    ensures |r| == |rs| && forall i :: 0 <= i < |rs| ==> r[i] == rs[i].listings
  {
    seq(|rs|, i requires 0 <= i < |rs| => rs[i].listings)
  }

  /** The total number of listings over a run of results. */
  function ListingCount(rs: seq<FetchResult>): nat {
    TotalLength(ListingsOf(rs))
  }

  /** Where the listings of result i start in the flattened list: after
      those of the results before it. */
  function Offset(rs: seq<FetchResult>, i: int): nat
    requires 0 <= i <= |rs|
  {
    ListingCount(rs[..i])
  }

  /** `results.completed.map(r => r.listings).flat()`: the listings of
      result i, in their own order, fill the stretch that starts at
      `Offset(rs, i)`; each stretch starts where the one before ends, and
      together they make up the whole list. */
  function AllListings(rs: seq<FetchResult>): (r: seq<Listing>)
    ensures |r| == Offset(rs, |rs|)
    ensures forall i :: 0 <= i < |rs| ==> Offset(rs, i + 1) == Offset(rs, i) + |rs[i].listings|
    ensures forall i :: 0 <= i < |rs| ==>
      Offset(rs, i) + |rs[i].listings| <= |r| && r[Offset(rs, i)..Offset(rs, i) + |rs[i].listings|] == rs[i].listings
    ensures forall l :: l in r <==> exists i :: 0 <= i < |rs| && l in rs[i].listings
  {
    FlattenShape(rs, Flatten(ListingsOf(rs)));
    Flatten(ListingsOf(rs))
  }

  lemma FlattenShape(rs: seq<FetchResult>, r: seq<Listing>)
    requires r == Flatten(ListingsOf(rs))
    ensures |r| == Offset(rs, |rs|)
    ensures forall i :: 0 <= i < |rs| ==> Offset(rs, i + 1) == Offset(rs, i) + |rs[i].listings|
    ensures forall i :: 0 <= i < |rs| ==>
      Offset(rs, i) + |rs[i].listings| <= |r| && r[Offset(rs, i)..Offset(rs, i) + |rs[i].listings|] == rs[i].listings
    ensures forall l :: l in r <==> exists i :: 0 <= i < |rs| && l in rs[i].listings
  {
    var xss := ListingsOf(rs);
    FlattenLength(xss);
    assert rs[..|rs|] == rs;
    forall l ensures l in r <==> exists i :: 0 <= i < |rs| && l in rs[i].listings {
      FlattenContains(xss, l);
    }
    forall i | 0 <= i < |rs|
      ensures Offset(rs, i + 1) == Offset(rs, i) + |rs[i].listings|
      ensures Offset(rs, i) + |rs[i].listings| <= |r|
      ensures r[Offset(rs, i)..Offset(rs, i) + |rs[i].listings|] == rs[i].listings
    {
      OffsetStep(rs, i);
      assert ListingsOf(rs[..i]) == xss[..i];
      assert ListingsOf(rs[..i + 1]) == xss[..i + 1];
      FlattenLength(xss[..i + 1]);
      assert xss[..i + 1] + xss[i + 1..] == xss;
      FlattenAppend(xss[..i + 1], xss[i + 1..]);
      forall j | 0 <= j < |rs[i].listings| ensures r[Offset(rs, i) + j] == rs[i].listings[j] {
        FlattenAt(xss, i, j);
      }
    }
  }

  /** Result i's listings take up its stretch. */
  lemma OffsetStep(rs: seq<FetchResult>, i: int)
    requires 0 <= i < |rs|
    ensures Offset(rs, i) + |rs[i].listings| == Offset(rs, i + 1)
  {
    var a := ListingsOf(rs[..i]);
    assert ListingsOf(rs[..i + 1]) == a + [rs[i].listings];
    FlattenLength(a);
    FlattenLength(a + [rs[i].listings]);
    FlattenAppend(a, [rs[i].listings]);
    assert Flatten([rs[i].listings]) == rs[i].listings + Flatten<Listing>([]);
  }

  lemma AllListingsAppend(a: seq<FetchResult>, b: seq<FetchResult>)
    ensures AllListings(a + b) == AllListings(a) + AllListings(b)
  {
    assert ListingsOf(a + b) == ListingsOf(a) + ListingsOf(b);
    FlattenAppend(ListingsOf(a), ListingsOf(b));
  }

  // ------------------------------------------------- the crawl itself

  /** The crawl: the queue and its promise chains, the retry counts, and the
      value the crawl's promise resolved with, if it has. */
  datatype CrawlState = CrawlState(loop: Loop<CrawlTask, FetchResult>, retries: map<string, nat>, resolved: Option<seq<Listing>>)

  /** A page fetch resolving with its result, a page fetch rejecting (an
      HTTP error or a result item without a link), or a pending `finally`. */
  datatype CrawlEvent = Fetched(result: FetchResult) | FetchFailed | Settled

  /** Once resolved, the crawl is idle and holds exactly the listings it
      resolved with. */
  ghost predicate Consistent(c: CrawlState) {
    && c.loop.Valid()
    && (c.resolved.Some? ==>
          && c.loop.q.todo == [] && c.loop.q.running == [] && c.loop.inFlight == 0
          && c.resolved.value == AllListings(c.loop.q.results))
  }

  /** `new PromiseQueue([], 4)`, `queue.add(tasks)` and `queue.run()`. Any
      `complete` these emit happens before the listeners are attached. */
  function Start(municipalities: seq<string>): (c: CrawlState)
    ensures Consistent(c) && c.resolved.None? && c.loop.completes == 0
    ensures c.loop.q.results == [] && c.loop.settling == 0
    ensures c.loop.inFlight == Min(|municipalities|, Concurrency)
    ensures c.loop.q.running == StartTasks(municipalities)[..c.loop.inFlight]
  {
    var q0: Queue<CrawlTask, FetchResult> := Create([], Concurrency);
    var o1 := Add(q0, StartTasks(municipalities));
    var o2 := Run(o1.queue);
    FillLaunchesSlots(o1.queue.(todo := [] + StartTasks(municipalities), total := |StartTasks(municipalities)|));
    assert [] + StartTasks(municipalities) == StartTasks(municipalities);
    assert o2.started == [];
    CrawlState(Loop(o2.queue, |o1.started| + |o2.started|, 0, 0), map[], None)
  }

  /** With no municipality nothing is launched, and the only `complete`
      emissions happen before anyone listens. */
  lemma NothingToCrawl()
    ensures Add(Create<CrawlTask, FetchResult>([], Concurrency), StartTasks([])).completeEmitted
    ensures Start([]).loop.inFlight == 0 && Start([]).loop.settling == 0
  {
  }

  /** The queue callback a crawl event is. */
  function ToQueueEvent(c: CrawlState, e: CrawlEvent): Event<CrawlTask, FetchResult> {
    match e
    case Fetched(res) => Fulfil(res, Batches(OnProgress(c.retries, res)))
    case FetchFailed => Reject
    case Settled => Finally
  }

  /** One crawl event: the queue steps, the listener updates the retry
      counts, and the first `complete` the listener sees resolves the crawl
      with the flattened results. */
  function CrawlStep(c: CrawlState, e: CrawlEvent): (r: Option<CrawlState>)
    requires Consistent(c)
    ensures r.Some? ==> Consistent(r.value)
    ensures r.Some? ==> r.value.loop.Zombies() >= c.loop.Zombies()
    ensures r.Some? && e.FetchFailed? ==> r.value.loop.Zombies() > 0
    ensures r.Some? && c.loop.Zombies() > 0 ==> r.value.resolved == c.resolved
    ensures r.Some? && c.resolved.Some? ==> r.value.resolved == c.resolved
    ensures r.Some? ==>
              r.value.loop.q.results == c.loop.q.results + (if e.Fetched? then [e.result] else [])
  {
    match Step(c.loop, ToQueueEvent(c, e))
    case None => None
    case Some(l) =>
      var retries := if e.Fetched? then OnProgress(c.retries, e.result).retries else c.retries;
      var resolved := if c.resolved.None? && l.completes > c.loop.completes then Some(AllListings(l.q.results)) else c.resolved;
      Some(CrawlState(l, retries, resolved))
  }

  function CrawlReplay(c: CrawlState, es: seq<CrawlEvent>): (r: Option<CrawlState>)
    requires Consistent(c)
    ensures r.Some? ==> Consistent(r.value)
    decreases |es|
  {
    if es == [] then Some(c)
    else
      match CrawlStep(c, es[0])
      case None => None
      case Some(c1) => CrawlReplay(c1, es[1..])
  }

  /** The results of the fetches that resolved, in order. */
  function Fulfilled(es: seq<CrawlEvent>): seq<FetchResult> {
    if es == [] then [] else (if es[0].Fetched? then [es[0].result] else []) + Fulfilled(es[1..])
  }

  /** The queue records the result of every fetch that resolved, in the
      order they resolved. */
  lemma {:induction false} ReplayResults(c: CrawlState, es: seq<CrawlEvent>)
    requires Consistent(c) && CrawlReplay(c, es).Some?
    ensures CrawlReplay(c, es).value.loop.q.results == c.loop.q.results + Fulfilled(es)
    decreases |es|
  {
    if es != [] {
      var c1 := CrawlStep(c, es[0]).value;
      ReplayResults(c1, es[1..]);
      AppendAssoc(c.loop.q.results, if es[0].Fetched? then [es[0].result] else [], Fulfilled(es[1..]));
    }
  }

  /** The crawl resolves, if at all, with the listings of every fetch that
      resolved, in the order they resolved. */
  lemma ResolvesWithEveryListing(c: CrawlState, es: seq<CrawlEvent>)
    requires Consistent(c) && CrawlReplay(c, es).Some?
    ensures CrawlReplay(c, es).value.resolved.Some? ==>
      CrawlReplay(c, es).value.resolved.value == AllListings(c.loop.q.results + Fulfilled(es))
  {
    ReplayResults(c, es);
  }

  /** From the start, the crawl resolves with the flattened results of the
      fetches that resolved. */
  lemma CrawlResult(municipalities: seq<string>, es: seq<CrawlEvent>)
    requires CrawlReplay(Start(municipalities), es).Some?
    requires CrawlReplay(Start(municipalities), es).value.resolved.Some?
    ensures CrawlReplay(Start(municipalities), es).value.resolved.value == AllListings(Fulfilled(es))
  {
    ResolvesWithEveryListing(Start(municipalities), es);
    assert [] + Fulfilled(es) == Fulfilled(es);
  }

  lemma {:induction false} StaysUnresolved(c: CrawlState, es: seq<CrawlEvent>)
    requires Consistent(c) && c.loop.Zombies() > 0 && c.resolved.None? && CrawlReplay(c, es).Some?
    ensures CrawlReplay(c, es).value.resolved.None?
    decreases |es|
  {
    if es != [] {
      StaysUnresolved(CrawlStep(c, es[0]).value, es[1..]);
    }
  }

  lemma {:induction false} CrawlReplaySplit(c: CrawlState, a: seq<CrawlEvent>, b: seq<CrawlEvent>)
    requires Consistent(c) && CrawlReplay(c, a + b).Some?
    ensures CrawlReplay(c, a).Some?
    ensures CrawlReplay(c, a + b) == CrawlReplay(CrawlReplay(c, a).value, b)
    decreases |a|
  {
    if a == [] {
      assert a + b == b;
    } else {
      assert (a + b)[0] == a[0] && (a + b)[1..] == a[1..] + b;
      CrawlReplaySplit(CrawlStep(c, a[0]).value, a[1..], b);
    }
  }

  /** One failed page fetch and the crawl never resolves: the rejected task
      is never shifted out of `running`, so `complete` is never emitted. */
  lemma FailedFetchNeverResolves(municipalities: seq<string>, before: seq<CrawlEvent>, after: seq<CrawlEvent>)
    requires CrawlReplay(Start(municipalities), before + [FetchFailed] + after).Some?
    requires CrawlReplay(Start(municipalities), before).Some? ==>
      CrawlReplay(Start(municipalities), before).value.resolved.None?
    ensures CrawlReplay(Start(municipalities), before + [FetchFailed] + after).value.resolved.None?
  {
    var s := Start(municipalities);
    assert before + [FetchFailed] + after == before + ([FetchFailed] + after);
    CrawlReplaySplit(s, before, [FetchFailed] + after);
    var m := CrawlReplay(s, before).value;
    assert ([FetchFailed] + after)[0] == FetchFailed && ([FetchFailed] + after)[1..] == after;
    var m1 := CrawlStep(m, FetchFailed).value;
    StaysUnresolved(m1, after);
  }

  /** With no municipality the crawl never resolves: nothing is in flight,
      so no event can happen, and the `complete` emitted while starting was
      emitted before the listener was attached. */
  lemma NoMunicipalityNeverResolves(es: seq<CrawlEvent>)
    ensures CrawlReplay(Start([]), es).Some? <==> es == []
    ensures CrawlReplay(Start([]), es).Some? ==> CrawlReplay(Start([]), es).value.resolved.None?
  {
    if es != [] {
      assert CrawlStep(Start([]), es[0]).None?;
    }
  }
}

=== FILE: elevation.dfy ===
/** `getElevationForListingsWithCoordinates` (utils/elevation.ts): listings
    are sent to the elevation service in chunks of 256 as one `locations`
    string per chunk, and each answer is zipped back onto its chunk by
    position; a chunk whose answer cannot be read is passed on unchanged.
    The service is a parameter, and so is the rendering of a value inside a
    template literal (number formatting is not modelled). */
module Elevation {
  import opened Types
  import opened Text
  import opened Utils

  const ChunkSize: int := 256

  /** `${latitude},${longitude}` of one listing. Destructuring `undefined`
      or `null` coordinates throws; any other value that is not a
      coordinate object yields two `undefined`s. */
  function Location(l: Listing, show: Value -> string): (r: Outcome<string>)
    ensures r.Throws? <==> Get(l, "coordinates").Undefined? || Get(l, "coordinates").Null?
    ensures Get(l, "coordinates").Point? ==>
      r == Returned(show(Num(Get(l, "coordinates").latitude)) + "," + show(Num(Get(l, "coordinates").longitude)))
  {
    match Get(l, "coordinates")
    case Undefined => Throws
    case Null => Throws
    case Point(latitude, longitude) => Returned(show(Num(latitude)) + "," + show(Num(longitude)))
    case _ => Returned(show(Undefined) + "," + show(Undefined))
  }

  /** The `locations` parameter of one chunk: the locations joined by `|`. */
  function Locations(chunk: seq<Listing>, show: Value -> string): (r: Outcome<string>)
    ensures r.Throws? <==> exists i :: 0 <= i < |chunk| && Location(chunk[i], show).Throws?
  {
    match TryMap(chunk, (l: Listing) => Location(l, show))
    case Throws => Throws
    case Returned(pieces) => Returned(Join(pieces, '|'))
  }

  /** When no rendered value holds a `|`, the service can cut the string
      back into one location per listing, in chunk order. */
  lemma LocationsReadBack(chunk: seq<Listing>, show: Value -> string)
    requires |chunk| > 0 && Locations(chunk, show).Returned?
    requires forall v :: '|' !in show(v)
    ensures |Split(Locations(chunk, show).value, '|')| == |chunk|
    ensures forall i :: 0 <= i < |chunk| ==>
      Returned(Split(Locations(chunk, show).value, '|')[i]) == Location(chunk[i], show)
  {
    var pieces := TryMap(chunk, (l: Listing) => Location(l, show)).value;
    forall i | 0 <= i < |pieces| ensures '|' !in pieces[i] {
      var l := chunk[i];
      assert Location(l, show).Returned?;
      match Get(l, "coordinates")
      case Point(latitude, longitude) =>
        NoBarJoined(show(Num(latitude)), show(Num(longitude)));
      case _ =>
        NoBarJoined(show(Undefined), show(Undefined));
    }
    SplitJoin(pieces, '|');
  }

  lemma NoBarJoined(a: string, b: string)
    requires '|' !in a && '|' !in b
    ensures '|' !in a + "," + b
  {
  }

  // ---------------------------------------------------------- answers

  /** What reading one answer gives: `Unreadable` when `res.json()` throws
      or the body has no `results` array; otherwise one entry per result,
      `None` for a result whose `elevation` cannot be read. */
  datatype Response = Unreadable | Results(results: seq<Option<Value>>)

  /** `{ ...chunk[index], elevation }`; past the end of the chunk the spread
      of `undefined` adds nothing. */
  function Elevated(chunk: seq<Listing>, index: nat, elevation: Value): Listing {
    With(if index < |chunk| then chunk[index] else map[], "elevation", elevation)
  }

  /** How many results the `forEach` reads before one fails. */
  function Readable(results: seq<Option<Value>>): (k: nat)
    ensures k <= |results|
    ensures forall j :: 0 <= j < k ==> results[j].Some?
    ensures k < |results| ==> results[k].None?
    decreases |results|
  {
    if results == [] || results[0].None? then 0 else 1 + Readable(results[1..])
  }

  /** What one chunk contributes to the output: the listings the `forEach`
      pushed, then, when it stopped on an unreadable result or the answer
      was unreadable, the whole chunk pushed by the `catch`. */
  function ChunkOutput(chunk: seq<Listing>, response: Response): (r: seq<Listing>)
    ensures response.Unreadable? ==> r == chunk
    ensures response.Results? ==>
      var k := Readable(response.results);
      && |r| == k + (if k < |response.results| then |chunk| else 0)
      && (forall i :: 0 <= i < k ==> r[i] == Elevated(chunk, i, response.results[i].value))
      && (k < |response.results| ==> r[k..] == chunk)
  {
    match response
    case Unreadable => chunk
    case Results(results) =>
      var k := Readable(results);
      var pushed := seq(k, i requires 0 <= i < k => Elevated(chunk, i, results[i].value));
      if k < |results| then
        assert (pushed + chunk)[k..] == chunk;
        pushed + chunk
      else pushed
  }

  /** A full answer sets the elevation of each listing of the chunk, at its
      own position, and changes nothing else. */
  lemma FullAnswer(chunk: seq<Listing>, results: seq<Option<Value>>)
    requires |results| == |chunk| && forall j :: 0 <= j < |results| ==> results[j].Some?
    ensures |ChunkOutput(chunk, Results(results))| == |chunk|
    ensures forall i :: 0 <= i < |chunk| ==>
      ChunkOutput(chunk, Results(results))[i] == With(chunk[i], "elevation", results[i].value)
  {
    ReadableAll(results);
  }

  lemma {:induction false} ReadableAll(results: seq<Option<Value>>)
    requires forall j :: 0 <= j < |results| ==> results[j].Some?
    ensures Readable(results) == |results|
    decreases |results|
  {
    if results != [] {
      ReadableAll(results[1..]);
    }
  }

  /** An answer that fails part way sends the listings before the failure
      twice: once with an elevation and once, unchanged, with the chunk. */
  lemma PartialAnswerRepeats(a: Listing, b: Listing, e: Value)
    ensures ChunkOutput([a, b], Results([Some(e), None])) == [With(a, "elevation", e), a, b]
  {
    assert Readable([Some(e), None]) == 1 by {
      assert [Some(e), None][1..] == [None];
    }
  }

  // ------------------------------------------------------- all chunks

  /** One turn of the chunk loop: build `locations`, ask the service, read
      the answer. `fetch` yields `Throws` when the request rejects, which
      the source does not catch. */
  function ProcessChunk(chunk: seq<Listing>, show: Value -> string, fetch: string -> Outcome<Response>): (r: Outcome<seq<Listing>>)
    ensures r.Throws? <==> Locations(chunk, show).Throws? || fetch(Locations(chunk, show).value).Throws?
  {
    match Locations(chunk, show)
    case Throws => Throws
    case Returned(locations) =>
      match fetch(locations)
      case Throws => Throws
      case Returned(response) => Returned(ChunkOutput(chunk, response))
  }

  /** `getElevationForListingsWithCoordinates(listings)`: the chunk outputs
      in chunk order. (The source empties the caller's array while
      chunking; the model has no shared arrays.) */
  function GetElevation(listings: seq<Listing>, show: Value -> string, fetch: string -> Outcome<Response>): (r: Outcome<seq<Listing>>)
    ensures var chunks := Chunks(listings, ChunkSize);
      && (r.Throws? <==> exists i :: 0 <= i < |chunks| && ProcessChunk(chunks[i], show, fetch).Throws?)
      && (r.Returned? ==> exists outs: seq<seq<Listing>> ::
            && |outs| == |chunks|
            && (forall i :: 0 <= i < |chunks| ==> Returned(outs[i]) == ProcessChunk(chunks[i], show, fetch))
            && r.value == Flatten(outs))
  {
    var chunks := Chunks(listings, ChunkSize);
    match TryMap(chunks, (c: seq<Listing>) => ProcessChunk(c, show, fetch))
    case Throws => Throws
    case Returned(outs) => Returned(Flatten(outs))
  }

  /** Two runs of listings that agree position by position on every field
      but `elevation`. */
  ghost predicate SameButElevation(a: seq<Listing>, b: seq<Listing>) {
    && |a| == |b|
    && forall i, k :: 0 <= i < |a| && k != "elevation" ==> Get(a[i], k) == Get(b[i], k)
  }

  lemma {:induction false} SameButElevationFlatten(outs: seq<seq<Listing>>, chunks: seq<seq<Listing>>)
    requires |outs| == |chunks|
    requires forall i :: 0 <= i < |outs| ==> SameButElevation(outs[i], chunks[i])
    ensures SameButElevation(Flatten(outs), Flatten(chunks))
    decreases |outs|
  {
    if outs != [] {
      SameButElevationFlatten(outs[1..], chunks[1..]);
      var a, b := outs[0], chunks[0];
      var fa, fb := Flatten(outs[1..]), Flatten(chunks[1..]);
      forall i, k | 0 <= i < |a + fa| && k != "elevation" ensures Get((a + fa)[i], k) == Get((b + fb)[i], k) {
        if i >= |a| {
          assert (a + fa)[i] == fa[i - |a|] && (b + fb)[i] == fb[i - |a|];
        } else {
          assert (a + fa)[i] == a[i] && (b + fb)[i] == b[i];
        }
      }
    }
  }

  /** An answer that is unreadable, or reads one elevation per listing of
      its chunk. */
  predicate Fits(chunk: seq<Listing>, response: Response) {
    response.Unreadable? || (|response.results| == |chunk| && forall j :: 0 <= j < |response.results| ==> response.results[j].Some?)
  }

  lemma FitsSameButElevation(chunk: seq<Listing>, response: Response)
    requires Fits(chunk, response)
    ensures SameButElevation(ChunkOutput(chunk, response), chunk)
  {
    if response.Results? {
      FullAnswer(chunk, response.results);
    }
  }

  /** When every answer fits its chunk, the output has one listing per
      input listing, at the same position, differing at most in
      `elevation`; in particular the ids are kept. */
  lemma ElevationKeepsListings(listings: seq<Listing>, show: Value -> string, fetch: string -> Outcome<Response>)
    requires GetElevation(listings, show, fetch).Returned?
    requires forall c: seq<Listing> :: Locations(c, show).Returned? && fetch(Locations(c, show).value).Returned? ==>
      Fits(c, fetch(Locations(c, show).value).value)
    ensures SameButElevation(GetElevation(listings, show, fetch).value, listings)
    ensures Ids(GetElevation(listings, show, fetch).value) == Ids(listings)
  {
    var chunks := Chunks(listings, ChunkSize);
    var outs :| && |outs| == |chunks|
                && (forall i :: 0 <= i < |chunks| ==> Returned(outs[i]) == ProcessChunk(chunks[i], show, fetch))
                && GetElevation(listings, show, fetch).value == Flatten(outs);
    forall i | 0 <= i < |outs| ensures SameButElevation(outs[i], chunks[i]) {
      var c := chunks[i];
      assert ProcessChunk(c, show, fetch).Returned?;
      FitsSameButElevation(c, fetch(Locations(c, show).value).value);
    }
    SameButElevationFlatten(outs, chunks);
    var r := GetElevation(listings, show, fetch).value;
    assert forall i :: 0 <= i < |r| ==> IdOf(r[i]) == IdOf(listings[i]);
  }

  /** When no answer can be read, the listings come back exactly as given. */
  lemma UnreadableKeepsInput(listings: seq<Listing>, show: Value -> string, fetch: string -> Outcome<Response>)
    requires GetElevation(listings, show, fetch).Returned?
    requires forall locations :: fetch(locations).Returned? ==> fetch(locations).value.Unreadable?
    ensures GetElevation(listings, show, fetch).value == listings
  {
    var chunks := Chunks(listings, ChunkSize);
    var outs :| && |outs| == |chunks|
                && (forall i :: 0 <= i < |chunks| ==> Returned(outs[i]) == ProcessChunk(chunks[i], show, fetch))
                && GetElevation(listings, show, fetch).value == Flatten(outs);
    assert outs == chunks;
  }
}

=== FILE: geocoding.dfy ===
/** The address handling of utils/geocoding.ts: the postcode and place taken
    from a postal code line, the street and house number taken from a street
    line, and the two ways coordinates are merged back into listings by
    position. The geocoding services themselves are parameters. */
module Geocoding {
  import opened Types
  import opened Text

  // ------------------------------------------------------ postcode, place

  /** The postcode is the first two words of the postal code line (the
      second `undefined` when missing) and the place every later word,
      joined by spaces. With three words or more, postcode and place put
      back together are the postal code line; with fewer the place is
      empty. */
  function PostcodeAndPlace(postalCodeCity: string): (r: (string, string))
    ensures |Split(postalCodeCity, ' ')| >= 3 ==> r.0 + " " + r.1 == postalCodeCity
    ensures |Split(postalCodeCity, ' ')| < 3 ==> r.1 == ""
  {
    var parts := Split(postalCodeCity, ' ');
    var r := (parts[0] + " " + Interpolated(parts, 1), if |parts| > 2 then Join(parts[2..], ' ') else "");
    assert |parts| >= 3 ==> r.0 + " " + r.1 == postalCodeCity by {
      if |parts| >= 3 {
        var head := parts[..2];
        assert head + parts[2..] == parts;
        JoinAppend(head, parts[2..], ' ');
        assert head[1..] == [parts[1]];
        assert Join(head, ' ') == parts[0] + [' '] + parts[1];
      }
    }
    r
  }

  /** A Dutch postal code line "1234 AB Place": the place keeps all its
      words ("Den Haag" stays whole). */
  lemma DutchPostcodeAndPlace(code: string, letters: string, place: string)
    requires ' ' !in code && ' ' !in letters
    ensures PostcodeAndPlace(code + " " + letters + " " + place) == (code + " " + letters, place)
  {
    SplitAtSeparator(letters, place, ' ');
    assert code + " " + letters + " " + place == code + [' '] + (letters + [' '] + place);
    SplitAtSeparator(code, letters + [' '] + place, ' ');
    var parts := Split(code + " " + letters + " " + place, ' ');
    assert parts == [code, letters] + Split(place, ' ');
    assert parts[2..] == Split(place, ' ');
  }

  // ----------------------------------------- getCoordinatesForListings

  /** The `Address` sent to the forward geocoder. */
  datatype Address = Address(addressLine1: Value, postcode: string, place: string)

  /** The address of a listing; `Throws` when the postal code line is not a
      string and so has no `split`. */
  function ToAddress(l: Listing): (r: Outcome<Address>)
    ensures r.Throws? <==> !Get(l, "postalCodeCity").Text?
  {
    match Get(l, "postalCodeCity")
    case Text(s) =>
      var (postcode, place) := PostcodeAndPlace(s);
      Returned(Address(Get(l, "streetName"), postcode, place))
    case _ => Throws
  }

  /** One geocoding result. */
  datatype GeocodeResult = GeocodeResult(name: string, address: string, coordinates: Value, success: bool)

  /** The point (0, 0). */
  const Origin: Value := Point(Finite(0.0), Finite(0.0))

  /** The result `geocodeAddresses` records for every address, whatever the
      service answered. */
  const Placeholder: GeocodeResult := GeocodeResult("", "", Origin, true)

  /** `geocodeAddresses(addresses)`. `answered(a)` says whether the request
      for `a` came back with a readable body; when one did not, the call
      rejects. */
  function GeocodeAddresses(addresses: seq<Address>, answered: Address -> bool): (r: Outcome<seq<GeocodeResult>>)
    ensures r.Throws? <==> exists i :: 0 <= i < |addresses| && !answered(addresses[i])
    ensures r.Returned? ==> |r.value| == |addresses|
    ensures r.Returned? ==> forall i :: 0 <= i < |addresses| ==> r.value[i] == Placeholder
  {
    TryMap(addresses, (a: Address) => if answered(a) then Returned(Placeholder) else Throws)
  }

  /** `getCoordinatesForListings(listings)`: listing `i` gets the coordinates
      of geocoding result `i` and keeps every other field. */
  function CoordinatesForListings(listings: seq<Listing>, answered: Address -> bool): (r: Outcome<seq<Listing>>)
    ensures r.Throws? <==>
              exists i :: 0 <= i < |listings| && (ToAddress(listings[i]).Throws? || !answered(ToAddress(listings[i]).value))
    ensures r.Returned? ==> |r.value| == |listings|
    ensures r.Returned? ==> forall i :: 0 <= i < |listings| ==>
      r.value[i] == With(listings[i], "coordinates", Origin)
  {
    match TryMap(listings, ToAddress)
    case Throws => Throws
    case Returned(addresses) =>
      match GeocodeAddresses(addresses, answered)
      case Throws =>
        var i :| 0 <= i < |addresses| && !answered(addresses[i]);
        assert ToAddress(listings[i]).value == addresses[i];
        Throws
      case Returned(results) =>
        Returned(seq(|listings|, i requires 0 <= i < |listings| => With(listings[i], "coordinates", results[i].coordinates)))
  }

  /** Geocoding touches nothing but the coordinates, so the ids, and with
      them the snapshot keys, are kept. */
  lemma CoordinatesKeepIds(listings: seq<Listing>, answered: Address -> bool)
    requires CoordinatesForListings(listings, answered).Returned?
    ensures Ids(CoordinatesForListings(listings, answered).value) == Ids(listings)
    ensures forall i, k :: 0 <= i < |listings| && k != "coordinates" ==>
      Get(CoordinatesForListings(listings, answered).value[i], k) == Get(listings[i], k)
  {
  }

  // ---------------------------------------------------- getAddressParts

  /** The position of the first word holding a digit, `find` with `/\d+/`. */
  function FirstWithDigit(parts: seq<string>): (r: Option<nat>)
    ensures r.Some? ==> r.value < |parts| && HasDigit(parts[r.value])
    ensures r.Some? ==> forall j :: 0 <= j < r.value ==> !HasDigit(parts[j])
    ensures r.None? ==> forall j :: 0 <= j < |parts| ==> !HasDigit(parts[j])
    decreases |parts|
  {
    if parts == [] then None
    else if HasDigit(parts[0]) then Some(0)
    else match FirstWithDigit(parts[1..])
      case None => None
      case Some(i) => Some(i + 1)
  }

  datatype AddressParts = AddressParts(street: string, number: string)

  /** `getAddressParts(address)`: the street is every word before the house
      number, the house number is the first word holding a digit and every
      word after it. Without such a word the whole line is the street. */
  function GetAddressParts(address: string): (r: AddressParts)
    ensures var parts := Split(address, ' ');
      match FirstWithDigit(parts)
      case None => r == AddressParts(address, "")
      case Some(i) => r == AddressParts(Join(parts[..i], ' '), Join(parts[i..], ' '))
  {
    var parts := Split(address, ' ');
    match FirstWithDigit(parts)
    case None => AddressParts(Join(parts, ' '), "")
    case Some(i) =>
      var at := PositionOf(parts, parts[i]);
      assert at == i;
      AddressParts(Join(parts[..at], ' '), Join(parts[at..], ' '))
  }

  /** When both parts are non-empty, street and number put back together
      are the street line. */
  lemma AddressPartsRoundTrip(address: string)
    requires GetAddressParts(address).street != "" && GetAddressParts(address).number != ""
    ensures GetAddressParts(address).street + " " + GetAddressParts(address).number == address
  {
    var parts := Split(address, ' ');
    var i := FirstWithDigit(parts).value;
    assert i > 0;
    assert parts[..i] + parts[i..] == parts;
    JoinAppend(parts[..i], parts[i..], ' ');
  }

  /** A house number in a later word splits off exactly at that word:
      "Lange Voorhout 38 A" gives "Lange Voorhout" and "38 A". */
  lemma AddressPartsOfStreetAndNumber(street: seq<string>, number: seq<string>)
    requires |street| >= 1 && |number| >= 1 && HasDigit(number[0])
    requires forall j :: 0 <= j < |street| ==> !HasDigit(street[j]) && ' ' !in street[j]
    requires forall j :: 0 <= j < |number| ==> ' ' !in number[j]
    ensures GetAddressParts(Join(street + number, ' ')) == AddressParts(Join(street, ' '), Join(number, ' '))
  {
    var parts := street + number;
    SpaceFreeAppend(street, number);
    SplitJoin(parts, ' ');
    FirstDigitAfterStreet(street, number);
    assert parts[..|street|] == street && parts[|street|..] == number;
  }

  lemma SpaceFreeAppend(a: seq<string>, b: seq<string>)
    requires forall j :: 0 <= j < |a| ==> ' ' !in a[j]
    requires forall j :: 0 <= j < |b| ==> ' ' !in b[j]
    ensures forall j :: 0 <= j < |a + b| ==> ' ' !in (a + b)[j]
  {
    forall j | 0 <= j < |a + b| ensures ' ' !in (a + b)[j] {
      if j >= |a| { assert (a + b)[j] == b[j - |a|]; }
    }
  }

  lemma FirstDigitAfterStreet(street: seq<string>, number: seq<string>)
    requires |number| >= 1 && HasDigit(number[0])
    requires forall j :: 0 <= j < |street| ==> !HasDigit(street[j])
    ensures FirstWithDigit(street + number) == Some(|street|)
  {
    var parts := street + number;
    assert parts[|street|] == number[0];
    assert forall j :: 0 <= j < |street| ==> parts[j] == street[j];
  }

  // ---------------------------------------- getCoordinatesForListings2

  /** The search parameters of one Nominatim request (country and format
      are fixed). */
  datatype Query = Query(street: Value, postalcode: string, city: string)

  /** A place Nominatim found, its `lat` and `lon` already read as numbers
      by `parseFloat`. */
  datatype Place = Place(latitude: Number, longitude: Number)

  /** The request of one listing; `Throws` when the street line or the
      postal code line is not a string (`getAddressParts` and `split` need
      strings). The house number split is computed and not used. */
  function ToQuery(l: Listing): (r: Outcome<Query>)
    ensures r.Throws? <==> !Get(l, "streetName").Text? || !Get(l, "postalCodeCity").Text?
  {
    match (Get(l, "streetName"), Get(l, "postalCodeCity"))
    case (Text(_), Text(s)) =>
      var (postcode, place) := PostcodeAndPlace(s);
      Returned(Query(Get(l, "streetName"), postcode, place))
    case _ => Throws
  }

  /** The coordinates merged for one answer: the place found, or (0, 0)
      when there was no first result to read `lat` from. */
  function Located(answer: Option<Place>): Value {
    match answer
    case None => Origin
    case Some(p) => Point(p.latitude, p.longitude)
  }

  /** `getCoordinatesForListings2(listings)`. `lookup(q)` is what fetching
      the request yields: `Throws` when it rejects, `None` when the answer
      has no first result. */
  function CoordinatesForListings2(listings: seq<Listing>, lookup: Query -> Outcome<Option<Place>>): (r: Outcome<seq<Listing>>)
    ensures r.Throws? <==>
              exists i :: 0 <= i < |listings| && (ToQuery(listings[i]).Throws? || lookup(ToQuery(listings[i]).value).Throws?)
    ensures r.Returned? ==> |r.value| == |listings|
    ensures r.Returned? ==> forall i :: 0 <= i < |listings| ==>
      r.value[i] == With(listings[i], "coordinates", Located(lookup(ToQuery(listings[i]).value).value))
  {
    match TryMap(listings, ToQuery)
    case Throws => Throws
    case Returned(queries) =>
      match TryMap(queries, lookup)
      case Throws =>
        var i :| 0 <= i < |queries| && lookup(queries[i]).Throws?;
        assert ToQuery(listings[i]).value == queries[i];
        Throws
      case Returned(answers) =>
        Returned(seq(|listings|, i requires 0 <= i < |listings| => With(listings[i], "coordinates", Located(answers[i]))))
  }

  /** A request without a first result falls back to (0, 0). */
  lemma MissingAnswerFallsBack(listings: seq<Listing>, lookup: Query -> Outcome<Option<Place>>, i: int)
    requires CoordinatesForListings2(listings, lookup).Returned?
    requires 0 <= i < |listings| && lookup(ToQuery(listings[i]).value) == Returned(None)
    ensures Get(CoordinatesForListings2(listings, lookup).value[i], "coordinates") == Origin
    ensures IdOf(CoordinatesForListings2(listings, lookup).value[i]) == IdOf(listings[i])
  {
  }
}

=== FILE: geojson.dfy ===
/** `mapListingsToFeatureCollection` (utils/listings.ts): every saved listing
    becomes a GeoJSON `Feature` with a `Point` geometry, or `undefined` when
    building it throws. */
module GeoJson {
  import opened Types
  import opened Text

  /** The `properties` object of a feature. */
  datatype Properties = Properties(
    id: Value,
    price: Value,
    postalCode: string,
    city: Value,
    streetName: Value,
    surface: Value,
    land: Value,
    rooms: Value,
    energyLabel: Value,
    link: Value,
    elevation: Value)

  /** A feature of type `Feature` whose geometry is a `Point` at
      `coordinates`, a position in the order of section 3.1.1 of RFC 7946:
      longitude, then latitude. */
  datatype Feature = Feature(id: Value, coordinates: seq<Value>, properties: Properties)

  /** A `FeatureCollection`; `None` is an `undefined` entry. */
  datatype FeatureCollection = FeatureCollection(features: seq<Option<Feature>>)

  /** `parts[i]` as a value: `undefined` past the end. */
  function Element(parts: seq<string>, i: nat): Value {
    if i < |parts| then Text(parts[i]) else Undefined
  }

  /** `coordinates.longitude` (or `.latitude`): a property read that throws
      on `undefined` and `null` and yields `undefined` on a value that is not
      a coordinate object. */
  function Coordinate(coordinates: Value, longitude: bool): (r: Outcome<Value>)
    ensures r.Throws? <==> coordinates.Undefined? || coordinates.Null?
  {
    match coordinates
    case Undefined => Throws
    case Null => Throws
    case Point(latitude, lon) => Returned(Num(if longitude then lon else latitude))
    case _ => Returned(Undefined)
  }

  /** The feature of one listing. The postal code is the first two words
      of the postal code line and the city only its third word; `None` where
      the source's `try` block throws: a postal code line that is not a
      string has no `split`, and missing coordinates have no `longitude`. */
  function ToFeature(l: Listing): (r: Option<Feature>)
    ensures r.None? <==>
      !Get(l, "postalCodeCity").Text? || Get(l, "coordinates").Undefined? || Get(l, "coordinates").Null?
    ensures r.Some? ==> r.value.id == IdOf(l) && r.value.properties.id == IdOf(l)
    ensures r.Some? && Get(l, "coordinates").Point? ==>
      r.value.coordinates == [Num(Get(l, "coordinates").longitude), Num(Get(l, "coordinates").latitude)]
    ensures r.Some? && !Get(l, "coordinates").Point? ==> r.value.coordinates == [Undefined, Undefined]
  {
    var postalCodeCity := Get(l, "postalCodeCity");
    if !postalCodeCity.Text? then None
    else
      var parts := Split(postalCodeCity.s, ' ');
      var postalCode := parts[0] + " " + Interpolated(parts, 1);
      var city := Element(parts, 2);
      match (Coordinate(Get(l, "coordinates"), true), Coordinate(Get(l, "coordinates"), false))
      case (Returned(longitude), Returned(latitude)) =>
        Some(Feature(IdOf(l), [longitude, latitude], Properties(
          IdOf(l), Get(l, "priceSale"), postalCode, city, Get(l, "streetName"),
          Get(l, "woonoppervlakte"), Get(l, "perceel"), Get(l, "kamers"),
          Get(l, "energielabel"), Get(l, "link"), Get(l, "elevation"))))
      case _ => None
  }

  /** `mapListingsToFeatureCollection(listings)`: one entry per listing, in
      order. */
  function MapListingsToFeatureCollection(ls: seq<Listing>): (r: FeatureCollection)
    ensures |r.features| == |ls|
    ensures forall i :: 0 <= i < |ls| ==> r.features[i] == ToFeature(ls[i])
  {
    FeatureCollection(seq(|ls|, i requires 0 <= i < |ls| => ToFeature(ls[i])))
  }

  /** The listing fields a feature reads. */
  const FeatureFields: set<string> := {"id", "postalCodeCity", "coordinates", "priceSale", "streetName",
    "woonoppervlakte", "perceel", "kamers", "energielabel", "link", "elevation"}

  /** The same listing fields, whatever else the listing holds: the feature
      reads only the fields it names. */
  lemma FeatureReadsNamedFields(a: Listing, b: Listing)
    requires forall k :: k in FeatureFields ==> Get(a, k) == Get(b, k)
    ensures ToFeature(a) == ToFeature(b)
  {
    assert Get(a, "id") == Get(b, "id");
    assert Get(a, "postalCodeCity") == Get(b, "postalCodeCity");
    assert Get(a, "coordinates") == Get(b, "coordinates");
    assert Get(a, "priceSale") == Get(b, "priceSale");
    assert Get(a, "streetName") == Get(b, "streetName");
    assert Get(a, "woonoppervlakte") == Get(b, "woonoppervlakte");
    assert Get(a, "perceel") == Get(b, "perceel");
    assert Get(a, "kamers") == Get(b, "kamers");
    assert Get(a, "energielabel") == Get(b, "energielabel");
    assert Get(a, "link") == Get(b, "link");
    assert Get(a, "elevation") == Get(b, "elevation");
  }

  /** For a postal code line made of space-free words, the postal code is
      the first two words (the second `undefined` when missing) and the city
      is the third word alone: "1234 AB Den Haag" gives the city "Den". */
  lemma PostalCodeAndCity(l: Listing, words: seq<string>)
    requires |words| >= 1 && forall i :: 0 <= i < |words| ==> ' ' !in words[i]
    requires Get(l, "postalCodeCity") == Text(Join(words, ' '))
    requires Get(l, "coordinates").Point?
    ensures ToFeature(l).Some?
    ensures ToFeature(l).value.properties.postalCode == words[0] + " " + Interpolated(words, 1)
    ensures ToFeature(l).value.properties.city == Element(words, 2)
  {
    SplitJoin(words, ' ');
  }

  /** With exactly three words, postal code and city put back together are
      the postal code line. */
  lemma ThreeWordsRoundTrip(l: Listing, code: string, letters: string, city: string)
    requires ' ' !in code && ' ' !in letters && ' ' !in city
    requires Get(l, "postalCodeCity") == Text(code + " " + letters + " " + city)
    requires Get(l, "coordinates").Point?
    ensures ToFeature(l).Some?
    ensures ToFeature(l).value.properties.city == Text(city)
    ensures ToFeature(l).value.properties.postalCode + " " + city == Get(l, "postalCodeCity").s
  {
    var words := [code, letters, city];
    assert Join(words, ' ') == code + " " + letters + " " + city by {
      assert words[1..] == [letters, city] && words[1..][1..] == [city];
      assert Join(words[1..], ' ') == letters + [' '] + city;
      assert Join(words, ' ') == code + [' '] + (letters + [' '] + city);
    }
    PostalCodeAndCity(l, words);
  }
}

=== FILE: mongodb.dfy ===
/** Reconciliation of the freshly crawled snapshot against the stored one, and the bulk
    write that persists the change set (utils/mongodb.ts). */
module Mongo {
  import opened Types
  import opened Snapshots

  /** `DbUpdate` (types/types.ts): what to update, insert and delete. */
  datatype ChangeSet = ChangeSet(toUpdate: seq<Listing>, toInsert: seq<Listing>, toDelete: seq<Listing>)

  /** Every record is stored under its own id. */
  ghost predicate Keyed(m: map<Value, Listing>) {
    forall k :: k in m ==> IdOf(m[k]) == k
  }

  /** A stored record that, once its derived fields are deleted, deep-equals
      the latest one. */
  predicate Differs(stored: Listing, latest: Listing) {
    Strip(stored) != latest
  }

  /** In key order, the records of `m` whose key `other` lacks. */
  function Absent(ks: seq<Value>, m: map<Value, Listing>, other: map<Value, Listing>): (r: seq<Listing>)
    requires forall k :: k in ks ==> k in m
    requires Keyed(m)
    ensures forall k :: k in Ids(r) <==> k in ks && k !in other
    ensures forall x :: x in r ==> IdOf(x) in m && m[IdOf(x)] == x
    ensures Distinct(ks) ==> Distinct(Ids(r))
  {
    if ks == [] then []
    else
      var rest := Absent(ks[1..], m, other);
      assert Distinct(ks) ==> ks[0] !in ks[1..] && Distinct(ks[1..]);
      assert forall k :: k in ks <==> k == ks[0] || k in ks[1..];
      if ks[0] !in other then
        assert Ids([m[ks[0]]]) == [ks[0]];
        IdsAppend([m[ks[0]]], rest);
        [m[ks[0]]] + rest
      else rest
  }

  /** In key order, the records of `latest` whose key is also stored and whose
      stored record, stripped of derived fields, is not deep-equal to it. */
  function Changed(ks: seq<Value>, latest: map<Value, Listing>, stored: map<Value, Listing>): (r: seq<Listing>)
    requires forall k :: k in ks ==> k in latest
    requires Keyed(latest)
    ensures forall k :: k in Ids(r) <==> k in ks && k in stored && Differs(stored[k], latest[k])
    ensures forall x :: x in r ==> IdOf(x) in latest && latest[IdOf(x)] == x
    ensures Distinct(ks) ==> Distinct(Ids(r))
  {
    if ks == [] then []
    else
      var rest := Changed(ks[1..], latest, stored);
      var k := ks[0];
      assert Distinct(ks) ==> k !in ks[1..] && Distinct(ks[1..]);
      assert forall j :: j in ks <==> j == k || j in ks[1..];
      if k in stored && Differs(stored[k], latest[k]) then
        assert Ids([latest[k]]) == [k];
        IdsAppend([latest[k]], rest);
        [latest[k]] + rest
      else rest
  }

  /** `getChanges(localListingsById, dbListingsById)`: a three-way diff of the
      latest snapshot against the stored one. */
  function GetChanges(latest: Snapshot, stored: Snapshot): (r: ChangeSet)
    requires latest.Valid() && stored.Valid()
    ensures forall k :: k in Ids(r.toInsert) <==> k in latest.byId && k !in stored.byId
    ensures forall k :: k in Ids(r.toUpdate) <==>
      k in latest.byId && k in stored.byId && Differs(stored.byId[k], latest.byId[k])
    ensures forall k :: k in Ids(r.toDelete) <==> k in stored.byId && k !in latest.byId
    ensures forall x :: x in r.toInsert ==> IdOf(x) in latest.byId && latest.byId[IdOf(x)] == x
    ensures forall x :: x in r.toUpdate ==> IdOf(x) in latest.byId && latest.byId[IdOf(x)] == x
    // deleted records are the stored ones, untouched by the stripping
    ensures forall x :: x in r.toDelete ==> IdOf(x) in stored.byId && stored.byId[IdOf(x)] == x
    ensures Distinct(Ids(r.toUpdate)) && Distinct(Ids(r.toInsert)) && Distinct(Ids(r.toDelete))
  {
    ChangeSet(
      Changed(latest.order, latest.byId, stored.byId),
      Absent(latest.order, latest.byId, stored.byId),
      Absent(stored.order, stored.byId, latest.byId))
  }

  /** A latest id that is stored and whose record did not change. */
  predicate Unchanged(latest: Snapshot, stored: Snapshot, k: Value) {
    k in latest.byId && k in stored.byId && !Differs(stored.byId[k], latest.byId[k])
  }

  /** Every latest id is exactly one of inserted, updated or unchanged, and the
      inserted and deleted ids avoid the other snapshot. */
  lemma ChangesPartition(latest: Snapshot, stored: Snapshot, k: Value)
    requires latest.Valid() && stored.Valid()
    ensures var c := GetChanges(latest, stored);
      && (k in latest.byId <==>
           (k in Ids(c.toInsert) || k in Ids(c.toUpdate) || Unchanged(latest, stored, k)))
      && !(k in Ids(c.toInsert) && k in Ids(c.toUpdate))
      && !(k in Ids(c.toInsert) && Unchanged(latest, stored, k))
      && !(k in Ids(c.toUpdate) && Unchanged(latest, stored, k))
      && (k in Ids(c.toInsert) ==> k !in stored.byId)
      && (k in Ids(c.toDelete) ==> k !in latest.byId)
      && (k in stored.byId <==>
           (k in Ids(c.toDelete) || k in Ids(c.toUpdate) || Unchanged(latest, stored, k)))
  {
  }

  /** A distinct sequence has as many elements as its set. */
  lemma {:induction false} DistinctCard<T>(s: seq<T>)
    requires Distinct(s)
    ensures |set x | x in s| == |s|
  {
    if s != [] {
      DistinctCard(s[1..]);
      assert s[0] !in s[1..];
      assert (set x | x in s) == (set x | x in s[1..]) + {s[0]};
    }
  }

  /** Three pairwise disjoint sets covering `all` count it. */
  lemma PartitionCard<T>(all: set<T>, a: set<T>, b: set<T>, c: set<T>)
    requires forall x :: x in all <==> x in a || x in b || x in c
    requires forall x :: x in a ==> x !in b && x !in c
    requires forall x :: x in b ==> x !in c
    ensures |all| == |a| + |b| + |c|
  {
    assert all == a + b + c;
    assert a !! b && (a + b) !! c;
  }

  /** Counting the partition: inserted, updated and unchanged ids together
      number exactly the fresh ids. */
  lemma ChangesCount(latest: Snapshot, stored: Snapshot)
    requires latest.Valid() && stored.Valid()
    ensures var c := GetChanges(latest, stored);
      |c.toInsert| + |c.toUpdate| + |set k | k in latest.byId && Unchanged(latest, stored, k)|
        == |latest.byId|
  {
    var c := GetChanges(latest, stored);
    var ins := set k | k in Ids(c.toInsert);
    var upd := set k | k in Ids(c.toUpdate);
    var same := set k | k in latest.byId && Unchanged(latest, stored, k);
    DistinctCard(Ids(c.toInsert));
    DistinctCard(Ids(c.toUpdate));
    forall k ensures (k in latest.byId.Keys <==> k in ins || k in upd || k in same)
      && (k in ins ==> k !in upd && k !in same) && (k in upd ==> k !in same)
    {
      ChangesPartition(latest, stored, k);
    }
    PartitionCard(latest.byId.Keys, ins, upd, same);
  }

  /** `Absent` looks only at which keys the other map has. */
  lemma {:induction false} AbsentKeysOnly(ks: seq<Value>, m: map<Value, Listing>, o1: map<Value, Listing>, o2: map<Value, Listing>)
    requires forall k :: k in ks ==> k in m
    requires Keyed(m)
    requires o1.Keys == o2.Keys
    ensures Absent(ks, m, o1) == Absent(ks, m, o2)
  {
    if ks != [] {
      AbsentKeysOnly(ks[1..], m, o1, o2);
    }
  }

  /** Two stored maps that agree once derived fields are deleted classify
      every latest record the same way. */
  lemma {:induction false} ChangedIgnoresDerived(ks: seq<Value>, latest: map<Value, Listing>, s1: map<Value, Listing>, s2: map<Value, Listing>)
    requires forall k :: k in ks ==> k in latest
    requires Keyed(latest)
    requires s1.Keys == s2.Keys
    requires forall k :: k in s1 ==> Strip(s1[k]) == Strip(s2[k])
    ensures Changed(ks, latest, s1) == Changed(ks, latest, s2)
  {
    if ks != [] {
      ChangedIgnoresDerived(ks[1..], latest, s1, s2);
    }
  }

  /** Reconciliation is insensitive to `_id`, `coordinates` and `elevation`
      of the stored records: stored snapshots that differ only there give
      the same inserts and updates, and deletes with the same ids. */
  lemma GetChangesIgnoresDerived(latest: Snapshot, s1: Snapshot, s2: Snapshot)
    requires latest.Valid() && s1.Valid() && s2.Valid()
    requires s1.order == s2.order && s1.byId.Keys == s2.byId.Keys
    requires forall k :: k in s1.byId ==> Strip(s1.byId[k]) == Strip(s2.byId[k])
    ensures GetChanges(latest, s1).toUpdate == GetChanges(latest, s2).toUpdate
    ensures GetChanges(latest, s1).toInsert == GetChanges(latest, s2).toInsert
    ensures Ids(GetChanges(latest, s1).toDelete) == Ids(GetChanges(latest, s2).toDelete)
  {
    ChangedIgnoresDerived(latest.order, latest.byId, s1.byId, s2.byId);
    AbsentKeysOnly(latest.order, latest.byId, s1.byId, s2.byId);
    AbsentIds(s1.order, s1.byId, s2.byId, latest.byId);
  }

  lemma AbsentIds(ks: seq<Value>, m1: map<Value, Listing>, m2: map<Value, Listing>, other: map<Value, Listing>)
    requires forall k :: k in ks ==> k in m1 && k in m2
    requires Keyed(m1) && Keyed(m2)
    ensures Ids(Absent(ks, m1, other)) == Ids(Absent(ks, m2, other))
  {
    AbsentIdsAre(ks, m1, other);
    AbsentIdsAre(ks, m2, other);
  }

  /** The keys of `ks` that `other` lacks, in order. */
  function KeysNotIn(ks: seq<Value>, other: map<Value, Listing>): seq<Value> {
    if ks == [] then []
    else if ks[0] !in other then [ks[0]] + KeysNotIn(ks[1..], other)
    else KeysNotIn(ks[1..], other)
  }

  lemma {:induction false} AbsentIdsAre(ks: seq<Value>, m: map<Value, Listing>, other: map<Value, Listing>)
    requires forall k :: k in ks ==> k in m
    requires Keyed(m)
    ensures Ids(Absent(ks, m, other)) == KeysNotIn(ks, other)
  {
    if ks != [] {
      assert forall k :: k in ks[1..] ==> k in ks;
      AbsentIdsAre(ks[1..], m, other);
      var r := Absent(ks[1..], m, other);
      if ks[0] !in other {
        assert Absent(ks, m, other) == [m[ks[0]]] + r;
        IdsAppend([m[ks[0]]], r);
        assert Ids([m[ks[0]]]) == [ks[0]];
      } else {
        assert Absent(ks, m, other) == r;
      }
    }
  }

  /** A latest record that matches the stored one on every field outside
      `_id`, `coordinates` and `elevation` is never an update. */
  lemma DerivedOnlyDifferenceIsNoUpdate(latest: Snapshot, stored: Snapshot, k: Value)
    requires latest.Valid() && stored.Valid()
    requires k in latest.byId && k in stored.byId
    requires latest.byId[k].Keys !! DerivedFields
    requires forall f :: f !in DerivedFields ==>
      (f in latest.byId[k] <==> f in stored.byId[k]) && Get(latest.byId[k], f) == Get(stored.byId[k], f)
    ensures k !in Ids(GetChanges(latest, stored).toUpdate)
  {
    var s := Strip(stored.byId[k]);
    var n := latest.byId[k];
    assert s.Keys == n.Keys;
    assert forall f :: f in s ==> s[f] == Get(stored.byId[k], f);
    assert s == n;
  }

  /** In key order, the records of `m` at the keys `ks`. */
  function At(ks: seq<Value>, m: map<Value, Listing>): (r: seq<Listing>)
    requires forall k :: k in ks ==> k in m
    ensures |r| == |ks| && forall i :: 0 <= i < |ks| ==> r[i] == m[ks[i]]
  {
    seq(|ks|, i requires 0 <= i < |ks| => m[ks[i]])
  }

  lemma {:induction false} AbsentFromNothing(ks: seq<Value>, m: map<Value, Listing>)
    requires forall k :: k in ks ==> k in m
    requires Keyed(m)
    ensures Absent(ks, m, map[]) == At(ks, m)
  {
    if ks != [] {
      AbsentFromNothing(ks[1..], m);
      AbsentCons(ks, m);
      AtCons(ks, m);
    }
  }

  lemma AbsentCons(ks: seq<Value>, m: map<Value, Listing>)
    requires ks != [] && (forall k :: k in ks ==> k in m) && Keyed(m)
    ensures Absent(ks, m, map[]) == [m[ks[0]]] + Absent(ks[1..], m, map[])
  {
  }

  lemma AtCons(ks: seq<Value>, m: map<Value, Listing>)
    requires ks != [] && forall k :: k in ks ==> k in m
    ensures At(ks, m) == [m[ks[0]]] + At(ks[1..], m)
  {
    assert forall i :: 0 <= i < |ks| ==> At(ks, m)[i] == ([m[ks[0]]] + At(ks[1..], m))[i];
  }

  lemma {:induction false} ChangedAgainstNothing(ks: seq<Value>, m: map<Value, Listing>)
    requires forall k :: k in ks ==> k in m
    requires Keyed(m)
    ensures Changed(ks, m, map[]) == []
  {
    if ks != [] {
      ChangedAgainstNothing(ks[1..], m);
    }
  }

  /** Against an empty stored snapshot (no saved file yet) every latest record
      is an insert, in snapshot order, and nothing is updated or deleted. */
  lemma ChangesFromEmpty(latest: Snapshot)
    requires latest.Valid()
    ensures GetChanges(latest, Empty()) == ChangeSet([], Values(latest), [])
  {
    AbsentFromNothing(latest.order, latest.byId);
    ChangedAgainstNothing(latest.order, latest.byId);
  }

  // ------------------------------------------------------------ bulk write

  /** The MongoDB bulk-write operations `getBulkOperations` emits. */
  datatype BulkOp =
    | UpdateOne(filterId: Value, fields: Listing)
    | InsertOne(document: Listing)
    | DeleteOne(filterId: Value)

  function UpdateOps(ls: seq<Listing>): (r: seq<BulkOp>)
    ensures |r| == |ls|
  {
    seq(|ls|, i requires 0 <= i < |ls| => UpdateOne(IdOf(ls[i]), ls[i]))
  }

  function InsertOps(ls: seq<Listing>): (r: seq<BulkOp>)
    ensures |r| == |ls|
  {
    seq(|ls|, i requires 0 <= i < |ls| => InsertOne(ls[i]))
  }

  function DeleteOps(ls: seq<Listing>): (r: seq<BulkOp>)
    ensures |r| == |ls|
  {
    seq(|ls|, i requires 0 <= i < |ls| => DeleteOne(IdOf(ls[i])))
  }

  /** `getBulkOperations(toUpdate, toInsert, toDelete)`: one operation per
      listing, all updates, then all inserts, then all deletes, each group in
      input order; updates and deletes filter on `listing.id` and an update
      `$set`s the whole listing. */
  function BulkOperations(toUpdate: seq<Listing>, toInsert: seq<Listing>, toDelete: seq<Listing>): (r: seq<BulkOp>)
    ensures |r| == |toUpdate| + |toInsert| + |toDelete|
    ensures forall i :: 0 <= i < |toUpdate| ==> r[i] == UpdateOne(IdOf(toUpdate[i]), toUpdate[i])
    ensures forall i :: 0 <= i < |toInsert| ==> r[|toUpdate| + i] == InsertOne(toInsert[i])
    ensures forall i :: 0 <= i < |toDelete| ==>
      r[|toUpdate| + |toInsert| + i] == DeleteOne(IdOf(toDelete[i]))
  {
    UpdateOps(toUpdate) + InsertOps(toInsert) + DeleteOps(toDelete)
  }

  /** The write `updateListingsInDb` issues: none at all for an empty change
      set, otherwise the bulk operations. */
  function UpdateListingsInDb(c: ChangeSet): (r: Option<seq<BulkOp>>)
    ensures r.None? <==> c.toUpdate == [] && c.toInsert == [] && c.toDelete == []
    ensures r.Some? ==> |r.value| == |c.toUpdate| + |c.toInsert| + |c.toDelete| > 0
    ensures r.Some? ==> r.value == BulkOperations(c.toUpdate, c.toInsert, c.toDelete)
  {
    var ops := BulkOperations(c.toUpdate, c.toInsert, c.toDelete);
    if |ops| > 0 then Some(ops) else None
  }

  // ------------------------------------------- effect of the bulk write

  /** The stored collection, one document per id. */
  type Collection = map<Value, Listing>

  /** The id an operation touches. */
  function Target(op: BulkOp): Value {
    if op.InsertOne? then IdOf(op.document) else op.filterId
  }

  /** One operation against the collection: `$set` writes every listed
      field and keeps the other stored fields; a filter that matches
      nothing is a no-op; an insert adds its document; a delete removes
      the matching document. No other document changes. */
  function ApplyOp(db: Collection, op: BulkOp): (r: Collection)
    ensures op.UpdateOne? ==> r.Keys == db.Keys
    ensures op.UpdateOne? && op.filterId in db ==>
      && (forall f :: f in r[op.filterId] <==> f in db[op.filterId] || f in op.fields)
      && (forall f :: f in op.fields ==> r[op.filterId][f] == op.fields[f])
      && (forall f :: f in db[op.filterId] && f !in op.fields ==> r[op.filterId][f] == db[op.filterId][f])
    ensures op.InsertOne? ==> r.Keys == db.Keys + {IdOf(op.document)} && r[IdOf(op.document)] == op.document
    ensures op.DeleteOne? ==> r.Keys == db.Keys - {op.filterId}
    ensures forall k :: k in r && k != Target(op) ==> k in db && r[k] == db[k]
  {
    match op
    case UpdateOne(id, doc) => if id in db then db[id := db[id] + doc] else db
    case InsertOne(doc) => db[IdOf(doc) := doc]
    case DeleteOne(id) => db - {id}
  }

  function ApplyAll(db: Collection, ops: seq<BulkOp>): Collection
    decreases |ops|
  {
    if ops == [] then db else ApplyAll(ApplyOp(db, ops[0]), ops[1..])
  }

  lemma {:induction false} ApplyAllAppend(db: Collection, a: seq<BulkOp>, b: seq<BulkOp>)
    ensures ApplyAll(db, a + b) == ApplyAll(ApplyAll(db, a), b)
    decreases |a|
  {
    if a == [] {
      assert a + b == b;
    } else {
      assert (a + b)[0] == a[0];
      assert (a + b)[1..] == a[1..] + b;
      ApplyAllAppend(ApplyOp(db, a[0]), a[1..], b);
    }
  }

  lemma {:induction false} ApplyUpdates(db: Collection, u: seq<Listing>)
    requires Distinct(Ids(u))
    ensures ApplyAll(db, UpdateOps(u)).Keys == db.Keys
    ensures forall i :: 0 <= i < |u| && IdOf(u[i]) in db ==>
      ApplyAll(db, UpdateOps(u))[IdOf(u[i])] == db[IdOf(u[i])] + u[i]
    ensures forall k :: k in db && k !in Ids(u) ==> ApplyAll(db, UpdateOps(u))[k] == db[k]
    decreases |u|
  {
    if u != [] {
      var db1 := ApplyOp(db, UpdateOps(u)[0]);
      assert UpdateOps(u)[1..] == UpdateOps(u[1..]);
      assert Ids(u)[1..] == Ids(u[1..]);
      ApplyUpdates(db1, u[1..]);
      forall i | 0 < i < |u| ensures IdOf(u[i]) != IdOf(u[0]) {
        assert Ids(u)[i] != Ids(u)[0];
      }
      forall i | 0 <= i < |u| && IdOf(u[i]) in db
        ensures ApplyAll(db, UpdateOps(u))[IdOf(u[i])] == db[IdOf(u[i])] + u[i]
      {
        if i > 0 {
          assert u[1..][i - 1] == u[i];
        }
      }
    }
  }

  lemma {:induction false} ApplyInserts(db: Collection, ins: seq<Listing>)
    requires Distinct(Ids(ins))
    ensures forall k :: k in ApplyAll(db, InsertOps(ins)) <==> k in db || k in Ids(ins)
    ensures forall i :: 0 <= i < |ins| ==>
      IdOf(ins[i]) in ApplyAll(db, InsertOps(ins)) && ApplyAll(db, InsertOps(ins))[IdOf(ins[i])] == ins[i]
    ensures forall k :: k in db && k !in Ids(ins) ==> ApplyAll(db, InsertOps(ins))[k] == db[k]
    decreases |ins|
  {
    if ins != [] {
      var db1 := ApplyOp(db, InsertOps(ins)[0]);
      assert InsertOps(ins)[1..] == InsertOps(ins[1..]);
      assert Ids(ins)[1..] == Ids(ins[1..]);
      ApplyInserts(db1, ins[1..]);
      forall i | 0 < i < |ins| ensures IdOf(ins[i]) != IdOf(ins[0]) {
        assert Ids(ins)[i] != Ids(ins)[0];
      }
      forall i | 0 <= i < |ins|
        ensures IdOf(ins[i]) in ApplyAll(db, InsertOps(ins)) && ApplyAll(db, InsertOps(ins))[IdOf(ins[i])] == ins[i]
      {
        if i > 0 {
          assert ins[1..][i - 1] == ins[i];
        }
      }
      forall k | k in ApplyAll(db, InsertOps(ins))
        ensures k in db || k in Ids(ins)
      {
        if k !in db && k !in Ids(ins[1..]) {
          assert k == IdOf(ins[0]) == Ids(ins)[0];
        }
      }
    }
  }

  lemma {:induction false} ApplyDeletes(db: Collection, del: seq<Listing>)
    ensures forall k :: k in ApplyAll(db, DeleteOps(del)) <==> k in db && k !in Ids(del)
    ensures forall k :: k in ApplyAll(db, DeleteOps(del)) ==> ApplyAll(db, DeleteOps(del))[k] == db[k]
    decreases |del|
  {
    if del != [] {
      assert DeleteOps(del)[1..] == DeleteOps(del[1..]);
      assert Ids(del) == [IdOf(del[0])] + Ids(del[1..]);
      ApplyDeletes(ApplyOp(db, DeleteOps(del)[0]), del[1..]);
    }
  }

  /** The stored collection after the bulk write of `getChanges`. */
  function AfterBulkWrite(latest: Snapshot, stored: Snapshot): Collection
    requires latest.Valid() && stored.Valid()
  {
    var c := GetChanges(latest, stored);
    ApplyAll(stored.byId, BulkOperations(c.toUpdate, c.toInsert, c.toDelete))
  }

  lemma AfterBulkWriteByPhase(latest: Snapshot, stored: Snapshot)
    requires latest.Valid() && stored.Valid()
    ensures var c := GetChanges(latest, stored);
      AfterBulkWrite(latest, stored) ==
        ApplyAll(ApplyAll(ApplyAll(stored.byId, UpdateOps(c.toUpdate)), InsertOps(c.toInsert)), DeleteOps(c.toDelete))
  {
    var c := GetChanges(latest, stored);
    var u, i, d := UpdateOps(c.toUpdate), InsertOps(c.toInsert), DeleteOps(c.toDelete);
    assert BulkOperations(c.toUpdate, c.toInsert, c.toDelete) == (u + i) + d;
    ApplyAllAppend(stored.byId, u + i, d);
    ApplyAllAppend(stored.byId, u, i);
  }

  /** Per id, the collection after the write holds: the fresh record for an
      insert, the stored record with the fresh fields `$set` over it for an
      update, the stored record for an unchanged id; deleted ids are gone. */
  lemma BulkWriteAt(latest: Snapshot, stored: Snapshot, k: Value)
    requires latest.Valid() && stored.Valid()
    ensures var db := AfterBulkWrite(latest, stored);
      && (k in db <==> k in latest.byId)
      && (k in latest.byId && k !in stored.byId ==> db[k] == latest.byId[k])
      && (k in latest.byId && k in stored.byId ==> (db[k] == stored.byId[k] + latest.byId[k] || (Unchanged(latest, stored, k) && db[k] == stored.byId[k])))
  {
    var c := GetChanges(latest, stored);
    var db1 := ApplyAll(stored.byId, UpdateOps(c.toUpdate));
    var db2 := ApplyAll(db1, InsertOps(c.toInsert));
    AfterBulkWriteByPhase(latest, stored);
    ApplyUpdates(stored.byId, c.toUpdate);
    ApplyInserts(db1, c.toInsert);
    ApplyDeletes(db2, c.toDelete);
    ChangesPartition(latest, stored, k);
    if k in Ids(c.toInsert) {
      var i :| 0 <= i < |c.toInsert| && Ids(c.toInsert)[i] == k;
      assert c.toInsert[i] in c.toInsert;
    } else if k in Ids(c.toUpdate) {
      var i :| 0 <= i < |c.toUpdate| && Ids(c.toUpdate)[i] == k;
      assert c.toUpdate[i] in c.toUpdate;
    }
  }

  /** Applying the bulk write of `getChanges(latest, stored)` to the stored
      collection leaves exactly the fresh ids, every fresh field with its
      fresh value, and the stored derived fields a fresh record does not
      carry (an update `$set`s fields, it does not remove any). */
  lemma BulkWriteReachesFreshSnapshot(latest: Snapshot, stored: Snapshot)
    requires latest.Valid() && stored.Valid()
    ensures var db := AfterBulkWrite(latest, stored);
      && db.Keys == latest.byId.Keys
      && (forall k, f :: k in latest.byId && f in latest.byId[k] ==>
            f in db[k] && db[k][f] == latest.byId[k][f])
      && (forall k, f :: k in latest.byId && k in stored.byId && f in stored.byId[k] && f !in latest.byId[k]
            ==> f in db[k] && db[k][f] == stored.byId[k][f])
  {
    BulkWriteKeys(latest, stored);
    BulkWriteFreshFields(latest, stored);
    BulkWriteKeepsDerived(latest, stored);
  }

  lemma BulkWriteKeys(latest: Snapshot, stored: Snapshot)
    requires latest.Valid() && stored.Valid()
    ensures AfterBulkWrite(latest, stored).Keys == latest.byId.Keys
  {
    var db := AfterBulkWrite(latest, stored);
    forall k | k in db || k in latest.byId
      ensures k in db <==> k in latest.byId
    {
      BulkWriteAt(latest, stored, k);
    }
  }

  lemma BulkWriteFreshFields(latest: Snapshot, stored: Snapshot)
    requires latest.Valid() && stored.Valid()
    ensures var db := AfterBulkWrite(latest, stored);
      forall k, f :: k in latest.byId && f in latest.byId[k] ==> k in db && f in db[k] && db[k][f] == latest.byId[k][f]
  {
    var db := AfterBulkWrite(latest, stored);
    forall k, f | k in latest.byId && f in latest.byId[k]
      ensures k in db && f in db[k] && db[k][f] == latest.byId[k][f]
    {
      BulkWriteAt(latest, stored, k);
      FreshFieldKept(latest.byId[k], if k in stored.byId then Some(stored.byId[k]) else None, db[k], f);
    }
  }

  /** A record that is the fresh one, the stored one with the fresh one set
      over it, or a stored one whose stripped form is the fresh one, holds
      every fresh field with its fresh value. */
  lemma FreshFieldKept(latest: Listing, stored: Option<Listing>, rec: Listing, f: string)
    requires f in latest
    requires || rec == latest
             || (stored.Some? && rec == stored.value + latest)
             || (stored.Some? && !Differs(stored.value, latest) && rec == stored.value)
    ensures f in rec && rec[f] == latest[f]
  {
    if stored.Some? && !Differs(stored.value, latest) && rec == stored.value {
      assert Strip(stored.value) == latest;
    }
  }

  lemma BulkWriteKeepsDerived(latest: Snapshot, stored: Snapshot)
    requires latest.Valid() && stored.Valid()
    ensures var db := AfterBulkWrite(latest, stored);
      forall k, f :: k in latest.byId && k in stored.byId && f in stored.byId[k] && f !in latest.byId[k]
        ==> k in db && f in db[k] && db[k][f] == stored.byId[k][f]
  {
    var db := AfterBulkWrite(latest, stored);
    forall k, f | k in latest.byId && k in stored.byId && f in stored.byId[k] && f !in latest.byId[k]
      ensures k in db && f in db[k] && db[k][f] == stored.byId[k][f]
    {
      BulkWriteAt(latest, stored, k);
    }
  }
}

=== FILE: promise_queue.dfy ===
/** The bounded task queue of utils/PromiseQueue.ts. A task is an opaque
    value `T` (the thunk the caller enqueues) and `R` is what its promise
    resolves to. Launching a task, and the later resolution or rejection of
    its promise, are separate events: the queue itself is a pure state
    machine, and `Loop` below replays an arbitrary interleaving of the
    promise callbacks against it. */
module PromiseQueue {
  import opened Types

  datatype Queue<T, R> = Queue(
    total: int,
    todo: seq<T>,
    running: seq<T>,
    complete: seq<T>,
    failed: seq<T>,
    count: int,
    results: seq<R>)
  {
    /** Every task ever added is waiting, running or complete (the failure
        branch records nothing, so `failed` stays empty), there is one
        result per completed task, and no more than `count` tasks run. */
    predicate Valid() {
      && |todo| + |running| + |complete| + |failed| == total
      && failed == []
      && |results| == |complete|
      && |running| <= (if count < 0 then 0 else count)
    }
  }

  /** `new PromiseQueue(tasks, concurrentCount)` */
  function Create<T, R>(tasks: seq<T>, concurrentCount: int): (q: Queue<T, R>)
    ensures q.Valid()
    ensures q.todo == tasks && q.running == [] && q.complete == [] && q.results == []
  {
    Queue(|tasks|, tasks, [], [], [], concurrentCount, [])
  }

  /** `runNext()`: another task may start. */
  predicate RunNext<T, R>(q: Queue<T, R>) {
    |q.running| < q.count && |q.todo| > 0
  }

  /** The number of tasks one `run()` launches: the free slots, or the
      waiting tasks if there are fewer. */
  function Slots<T, R>(q: Queue<T, R>): nat {
    var free := if q.count - |q.running| < 0 then 0 else q.count - |q.running|;
    if free < |q.todo| then free else |q.todo|
  }

  /** The `while` loop of `run()`: shift tasks from `todo` to `running` while
      `runNext()` holds, returning the queue and the tasks launched in order. */
  function Fill<T, R>(q: Queue<T, R>): (r: (Queue<T, R>, seq<T>))
    ensures var (q2, started) := r;
      && |started| <= |q.todo|
      && started == q.todo[..|started|]
      && q2 == q.(todo := q.todo[|started|..], running := q.running + started)
      && !RunNext(q2)
      && (RunNext(q) <==> |started| > 0)
      && (|started| > 0 ==> |q2.running| <= q.count)
    decreases |q.todo|
  {
    if RunNext(q) then
      var (q2, started) := Fill(q.(todo := q.todo[1..], running := q.running + [q.todo[0]]));
      assert q.todo[1..][..|started|] == q.todo[1..|started| + 1];
      assert q.todo[1..][|started|..] == q.todo[|started| + 1..];
      (q2, [q.todo[0]] + started)
    else (q, [])
  }

  /** `run()` launches exactly `Slots(q)` tasks, the first ones waiting. */
  lemma {:induction false} FillLaunchesSlots<T, R>(q: Queue<T, R>)
    ensures |Fill(q).1| == Slots(q)
    decreases |q.todo|
  {
    if RunNext(q) {
      FillLaunchesSlots(q.(todo := q.todo[1..], running := q.running + [q.todo[0]]));
    }
  }

  /** What one call of `run()` does: the queue afterwards, the tasks it
      launched, and whether it emitted `complete`. */
  datatype RunOutcome<T, R> = RunOutcome(queue: Queue<T, R>, started: seq<T>, completeEmitted: bool)

  /** `run()` */
  function Run<T, R>(q: Queue<T, R>): (r: RunOutcome<T, R>)
    requires q.Valid()
    ensures r.queue.Valid()
    ensures |r.started| <= |q.todo|
    ensures r.started == q.todo[..|r.started|] && r.queue.todo == q.todo[|r.started|..]
    ensures r.queue.running == q.running + r.started
    ensures r.queue.complete == q.complete && r.queue.results == q.results
    ensures r.queue.total == q.total && r.queue.count == q.count
    ensures !RunNext(r.queue)
    // `complete` fires exactly when nothing waits and nothing runs
    ensures r.completeEmitted <==> r.queue.todo == [] && r.queue.running == []
  {
    var (q2, started) := Fill(q);
    RunOutcome(q2, started, |q2.complete| + |q2.failed| == q2.total)
  }

  /** `add(tasks)`: append to `todo`, grow `total`, then `run()`. */
  function Add<T, R>(q: Queue<T, R>, tasks: seq<T>): (r: RunOutcome<T, R>)
    requires q.Valid()
    ensures r.queue.Valid()
    ensures r.queue.total == q.total + |tasks|
    ensures r.started + r.queue.todo == q.todo + tasks
    ensures r.queue.running == q.running + r.started
    ensures r.queue.complete == q.complete && r.queue.results == q.results
    ensures r.completeEmitted <==> r.queue.todo == [] && r.queue.running == []
  {
    Run(q.(todo := q.todo + tasks, total := q.total + |tasks|))
  }

  /** The fulfilment callback: record the result and move the OLDEST running
      task to `complete` (`running.shift()`), which need not be the task that
      just finished. */
  function Resolve<T, R>(q: Queue<T, R>, result: R): (r: Queue<T, R>)
    requires q.Valid() && |q.running| > 0
    ensures r.Valid()
    ensures r.results == q.results + [result] && |r.complete| == |q.complete| + 1
    ensures |r.running| == |q.running| - 1 && r.todo == q.todo && r.total == q.total
  {
    q.(results := q.results + [result], complete := q.complete + [q.running[0]], running := q.running[1..])
  }

  // --------------------------------------------- the promise callbacks

  /** A callback that a launched task's promise chain runs: the `then`
      branch with the resolved value and the task batches the `progress`
      listener passes to `add`; the `catch` branch, which only logs; and
      the `finally` branch, which calls `run()` again. */
  datatype Event<T, R> = Fulfil(result: R, adds: seq<seq<T>>) | Reject | Finally

  /** The queue and the promise chains in flight: `inFlight` tasks are
      launched and not yet settled, `settling` have settled and await their
      `finally`; `completes` counts `complete` emissions. */
  datatype Loop<T, R> = Loop(q: Queue<T, R>, inFlight: nat, settling: nat, completes: nat)
  {
    /** Each unsettled task still occupies a slot of `running`. */
    predicate Valid() {
      q.Valid() && inFlight <= |q.running|
    }

    /** Entries of `running` whose task was rejected: nothing ever removes
        them. */
    function Zombies(): nat
      requires Valid()
    {
      |q.running| - inFlight
    }
  }

  /** The outcome of launching and emitting from one `RunOutcome`. */
  function Absorb<T, R>(s: Loop<T, R>, o: RunOutcome<T, R>): Loop<T, R> {
    Loop(o.queue, s.inFlight + |o.started|, s.settling, s.completes + (if o.completeEmitted then 1 else 0))
  }

  /** The `add` calls of one `progress` listener run, in order. */
  function AddAll<T, R>(s: Loop<T, R>, adds: seq<seq<T>>): (r: Loop<T, R>)
    requires s.Valid()
    ensures r.Valid() && r.Zombies() == s.Zombies()
    ensures r.settling == s.settling && r.completes >= s.completes
    ensures r.q.complete == s.q.complete && r.q.results == s.q.results
    ensures s.Zombies() > 0 ==> r.completes == s.completes
    // adding a non-empty batch always leaves a task waiting or running
    ensures (forall i :: 0 <= i < |adds| ==> |adds[i]| > 0) ==> r.completes == s.completes
    decreases |adds|
  {
    if adds == [] then s
    else AddAll(Absorb(s, Add(s.q, adds[0])), adds[1..])
  }

  /** One callback against the loop; `None` when the event cannot happen
      (nothing is in flight to settle, or no `finally` is pending). */
  function Step<T, R>(s: Loop<T, R>, e: Event<T, R>): (r: Option<Loop<T, R>>)
    requires s.Valid()
    ensures r.Some? ==> r.value.Valid()
    ensures r.Some? ==> r.value.Zombies() == s.Zombies() + (if e.Reject? then 1 else 0)
    ensures r.Some? ==> r.value.completes >= s.completes
    // with a rejected task parked in `running`, `complete` is never emitted
    ensures r.Some? && s.Zombies() > 0 ==> r.value.completes == s.completes
    ensures r.Some? && !e.Finally? && (e.Fulfil? ==> forall i :: 0 <= i < |e.adds| ==> |e.adds[i]| > 0)
      ==> r.value.completes == s.completes
    ensures r.Some? && r.value.completes > s.completes && e.Finally? ==>
      r.value.q.todo == [] && r.value.q.running == [] && r.value.inFlight == 0
    ensures r.Some? && !e.Fulfil? ==> r.value.q.results == s.q.results
    ensures r.Some? && e.Fulfil? ==> r.value.q.results == s.q.results + [e.result]
  {
    match e
    case Fulfil(result, adds) =>
      if s.inFlight == 0 then None
      else
        var s1 := Loop(Resolve(s.q, result), s.inFlight - 1, s.settling + 1, s.completes);
        Some(AddAll(s1, adds))
    case Reject =>
      if s.inFlight == 0 then None
      else Some(s.(inFlight := s.inFlight - 1, settling := s.settling + 1))
    case Finally =>
      if s.settling == 0 then None
      else Some(Absorb(s.(settling := s.settling - 1), Run(s.q)))
  }

  /** The loop after a sequence of callbacks, `None` if one of them cannot
      happen at its point. */
  function Replay<T, R>(s: Loop<T, R>, es: seq<Event<T, R>>): (r: Option<Loop<T, R>>)
    requires s.Valid()
    ensures r.Some? ==> r.value.Valid() && r.value.completes >= s.completes
    decreases |es|
  {
    if es == [] then Some(s)
    else
      match Step(s, es[0])
      case None => None
      case Some(s1) => Replay(s1, es[1..])
  }

  /** The number of rejections in a callback sequence. */
  function Rejections<T, R>(es: seq<Event<T, R>>): nat {
    if es == [] then 0 else (if es[0].Reject? then 1 else 0) + Rejections(es[1..])
  }

  /** Every rejection leaves exactly one entry behind in `running`. */
  lemma {:induction false} ReplayZombies<T, R>(s: Loop<T, R>, es: seq<Event<T, R>>)
    requires s.Valid() && Replay(s, es).Some?
    ensures Replay(s, es).value.Zombies() == s.Zombies() + Rejections(es)
    decreases |es|
  {
    if es != [] {
      ReplayZombies(Step(s, es[0]).value, es[1..]);
    }
  }

  /** Once a task has been rejected, no later callback emits `complete`. */
  lemma {:induction false} ReplayAfterZombie<T, R>(s: Loop<T, R>, es: seq<Event<T, R>>)
    requires s.Valid() && s.Zombies() > 0 && Replay(s, es).Some?
    ensures Replay(s, es).value.completes == s.completes
    decreases |es|
  {
    if es != [] {
      ReplayAfterZombie(Step(s, es[0]).value, es[1..]);
    }
  }

  lemma {:induction false} ReplayAppend<T, R>(s: Loop<T, R>, a: seq<Event<T, R>>, b: seq<Event<T, R>>)
    requires s.Valid() && Replay(s, a).Some?
    ensures Replay(s, a + b) == Replay(Replay(s, a).value, b)
    decreases |a|
  {
    if a == [] {
      assert a + b == b;
    } else {
      assert (a + b)[0] == a[0] && (a + b)[1..] == a[1..] + b;
      ReplayAppend(Step(s, a[0]).value, a[1..], b);
    }
  }

  /** A rejected task blocks completion for good: whatever callbacks follow
      it, `complete` is emitted no more times than before the rejection. */
  lemma RejectionBlocksCompletion<T, R>(s: Loop<T, R>, before: seq<Event<T, R>>, after: seq<Event<T, R>>)
    requires s.Valid() && Replay(s, before + [Reject] + after).Some?
    ensures Replay(s, before).Some?
    ensures Replay(s, before + [Reject] + after).value.completes == Replay(s, before).value.completes
  {
    var es := before + [Reject] + after;
    assert es == before + ([Reject] + after);
    ReplayPrefix(s, before, [Reject] + after);
    ReplayAppend(s, before, [Reject] + after);
    var m := Replay(s, before).value;
    assert ([Reject] + after)[0] == Reject && ([Reject] + after)[1..] == after;
    var m1 := Step(m, Reject).value;
    ReplayAfterZombie(m1, after);
  }

  lemma {:induction false} ReplayPrefix<T, R>(s: Loop<T, R>, a: seq<Event<T, R>>, b: seq<Event<T, R>>)
    requires s.Valid() && Replay(s, a + b).Some?
    ensures Replay(s, a).Some?
    decreases |a|
  {
    if a != [] {
      assert (a + b)[0] == a[0] && (a + b)[1..] == a[1..] + b;
      ReplayPrefix(Step(s, a[0]).value, a[1..], b);
    }
  }

  /** `complete` reports success of everything: when a `run()` emits it, every
      task ever added has completed and left one result. */
  lemma CompleteMeansAllDone<T, R>(q: Queue<T, R>)
    requires q.Valid() && Run(q).completeEmitted
    ensures |Run(q).queue.complete| == q.total && |Run(q).queue.results| == q.total
  {
  }
}

=== FILE: search_results.dfy ===
/** Reading one page of search results (`fetchSearchResultsPerUrl`,
    utils/listings.ts): one listing per result item, and for the first page
    of a search the URLs of the remaining pages. The HTML parser is not
    modelled: a page arrives as the texts the selectors pick out. */
module SearchResults {
  import opened Types
  import opened Text
  import opened Utils

  const BaseUrl: string := "https://www.funda.nl/zoeken/koop"
  const SearchResultsPerPage: int := 15
  /** The square-metre sign that marks surface features. */
  const SquareMetre: string := "m\U{00B2}"

  /** The search URL for one municipality. */
  function SeedUrl(municipality: string): string {
    BaseUrl + "?selected_area=[\"" + municipality + "\"]"
  }

  // ---------------------------------------------------------- numbers

  /** A `parseInt` result as a listing value; `None` is `NaN`. */
  function NumOf(o: Option<int>): (v: Value)
    ensures v.Num? && (v.n == NaN <==> o.None?)
    ensures o.Some? ==> v.n == Finite(o.value as real)
  {
    match o
    case None => Num(NaN)
    case Some(n) => Num(Finite(n as real))
  }

  /** The text of a price after the euro sign, every `.` and the `k.k.`
      suffix marker have been removed and the rest trimmed. */
  function PriceText(raw: string): (r: string)
    ensures '.' !in r
  {
    var noDots := RemoveAll(Replace(raw, "\U{20AC}", ""), '.');
    NoDotsNoKosten(noDots);
    Trim(Replace(noDots, "k.k.", ""))
  }

  /** Once every `.` is gone the `k.k.` marker cannot match, so removing it
      changes nothing: `parseInt` stops at the space before `kk` instead. */
  lemma NoDotsNoKosten(s: string)
    requires '.' !in s
    ensures Replace(s, "k.k.", "") == s
  {
    forall j | 0 <= j && j + 4 <= |s| ensures !MatchAt(s, "k.k.", j) {
      assert s[j..j + 4][1] == s[j + 1] && s[j + 1] in s;
    }
  }

  /** `priceSale`: always a number, whole or `NaN`. A price shown as
      `€ <digit groups separated by .> k.k.` reads as the number the groups
      write: the euro sign goes, every separator goes, the `k.k.` marker
      loses its dots and `parseInt` stops at the space before it. So
      `€ 350.000 k.k.` is 350000, and a price with no separator reads back
      as its number. */
  function Price(raw: string): (r: Value)
    ensures r.Num? && (r.n.Finite? ==> r.n.r.Floor as real == r.n.r)
    ensures forall ds: seq<string> :: DigitGroups(ds) && raw == "\U{20AC} " + Join(ds, '.') + " k.k." ==>
      r == NumOf(Some(GroupedValue(ds)))
    ensures forall n: nat :: raw == "\U{20AC} " + NatToString(n) + " k.k." ==> r == NumOf(Some(n))
  {
    var r := NumOf(ParseInt(PriceText(raw)));
    assert forall ds: seq<string> | DigitGroups(ds) && raw == "\U{20AC} " + Join(ds, '.') + " k.k." ::
      r == NumOf(Some(GroupedValue(ds)))
    by {
      forall ds: seq<string> | DigitGroups(ds) && raw == "\U{20AC} " + Join(ds, '.') + " k.k."
        ensures r == NumOf(Some(GroupedValue(ds)))
      {
        PriceTextReadsGroups(ds);
      }
    }
    assert forall n: nat | raw == "\U{20AC} " + NatToString(n) + " k.k." :: r == NumOf(Some(n)) by {
      forall n: nat | raw == "\U{20AC} " + NatToString(n) + " k.k." ensures r == NumOf(Some(n)) {
        OneGroup(n);
        PriceTextReadsGroups([NatToString(n)]);
      }
    }
    r
  }

  /** A number written without separators is a single group. */
  lemma {:induction false} OneGroup(n: nat)
    ensures DigitGroups([NatToString(n)])
    ensures Join([NatToString(n)], '.') == NatToString(n)
    ensures GroupedValue([NatToString(n)]) == n
  {
    var d := NatToString(n);
    DigitsValueOfNatToString(n);
    assert [d][..0] == [];
  }

  /** The text `parseInt` sees for a price written in digit groups, and
      what it reads there. */
  lemma {:induction false} PriceTextReadsGroups(ds: seq<string>)
    requires DigitGroups(ds)
    ensures ParseInt(PriceText("\U{20AC} " + Join(ds, '.') + " k.k.")) == Some(GroupedValue(ds))
  {
    var j := Join(ds, '.');
    var d := RemoveAll(j, '.');
    GroupsWithoutSeparators(ds, j);
    EuroRemoved(j);
    DotsRemoved(j);
    NoDotsNoKosten(" " + d + " kk");
    KostenTrimmed(d);
    assert PriceText("\U{20AC} " + j + " k.k.") == d + " kk";
    ParseIntDigitsThen(d, " kk");
  }

  lemma {:induction false} EuroRemoved(d: string)
    ensures Replace("\U{20AC} " + d + " k.k.", "\U{20AC}", "") == " " + d + " k.k."
  {
    var raw := "\U{20AC} " + d + " k.k.";
    assert MatchAt(raw, "\U{20AC}", 0);
    assert raw[1..] == " " + d + " k.k.";
  }

  lemma KostenDotsRemoved()
    ensures RemoveAll(" k.k.", '.') == " kk"
  {
    assert " k.k."[1..] == "k.k.";
    assert "k.k."[1..] == ".k.";
    assert ".k."[1..] == "k.";
    assert "k."[1..] == ".";
    assert "."[1..] == "";
  }

  lemma {:induction false} DotsRemoved(d: string)
    ensures RemoveAll(" " + d + " k.k.", '.') == " " + RemoveAll(d, '.') + " kk"
  {
    RemoveAllAppend(" " + d, " k.k.", '.');
    RemoveAllAppend(" ", d, '.');
    RemoveAllAbsent(" ", '.');
    KostenDotsRemoved();
  }

  lemma {:induction false} KostenTrimmed(d: string)
    requires |d| >= 1 && IsDigits(d)
    ensures Trim(" " + d + " kk") == d + " kk"
  {
    var y := d + " kk";
    assert " " + d + " kk" == " " + y;
    assert y[0] == d[0] && IsDecimalDigit(y[0]);
    assert y[|y| - 1] == 'k';
    TrimLeadingSpace(y);
  }

  /** A thousands separator is read through: `€ 350.000 k.k.` is 350000. */
  lemma {:induction false} PriceWithSeparator(raw: string)
    requires raw == "\U{20AC} 350.000 k.k."
    ensures Price(raw) == Num(Finite(350000 as real))
  {
    var ds := ["350", "000"];
    ThreeHundredFiftyThousand(ds);
    assert raw == "\U{20AC} " + Join(ds, '.') + " k.k.";
  }

  lemma {:induction false} ThreeHundredFiftyThousand(ds: seq<string>)
    requires ds == ["350", "000"]
    ensures DigitGroups(ds) && Join(ds, '.') == "350.000" && GroupedValue(ds) == 350000
  {
    assert DecimalValue("350") == 350 && DecimalValue("000") == 0 by {
      assert "350"[..2] == "35" && "35"[..1] == "3" && "3"[..0] == "";
      assert "000"[..2] == "00" && "00"[..1] == "0" && "0"[..0] == "";
    }
    assert ds[..1] == ["350"] && ds[..1][..0] == [];
    assert GroupedValue(ds[..1]) == 350;
    assert Pow10(3) == 1000;
    assert GroupedValue(ds) == GroupedValue(ds[..1]) * Pow10(3) + DecimalValue("000");
  }

  // ---------------------------------------------------------- features

  /** The surface read from a `m²` feature: the sign and the first `.` removed. */
  function Surface(content: string): Value {
    NumOf(ParseInt(Trim(Replace(Replace(content, SquareMetre, ""), ".", ""))))
  }

  /** The five fields a feature text can set. */
  datatype Kind = Woonoppervlakte | Perceel | Kamers | Energielabel | Unknown

  function FieldName(k: Kind): string {
    match k
    case Woonoppervlakte => "woonoppervlakte"
    case Perceel => "perceel"
    case Kamers => "kamers"
    case Energielabel => "energielabel"
    case Unknown => "unknown"
  }

  lemma FieldNameInjective(a: Kind, b: Kind)
    requires FieldName(a) == FieldName(b)
    ensures a == b
  {
    assert FieldName(a)[0] == FieldName(b)[0] && |FieldName(a)| == |FieldName(b)|;
  }

  /** `determineType(content, index)`: the field a feature text sets and its
      value. A surface is the living area in first position and the plot in
      second; a surface elsewhere falls through to the digit test. */
  function DetermineType(content: string, index: int): (r: (Kind, Value))
    ensures r.0 == Woonoppervlakte <==> Includes(content, SquareMetre) && index == 0
    ensures r.0 == Perceel <==> Includes(content, SquareMetre) && index == 1
    ensures r.0 == Kamers <==>
      !(Includes(content, SquareMetre) && (index == 0 || index == 1)) && HasDigit(content)
    ensures r.0 == Energielabel ==> r.1 == Text(content) && HasUpper(content) && !HasDigit(content)
    ensures r.0 == Unknown ==> r.1 == Text(content) && !HasUpper(content) && !HasDigit(content)
  {
    if Includes(content, SquareMetre) && index == 0 then (Woonoppervlakte, Surface(content))
    else if Includes(content, SquareMetre) && index == 1 then (Perceel, Surface(content))
    else if HasDigit(content) then (Kamers, NumOf(ParseInt(content)))
    else if HasUpper(content) then (Energielabel, Text(content))
    else (Unknown, Text(content))
  }

  /** `<digits> m²` holds the square-metre sign right after the space. */
  lemma SquareMetreAfterDigits(n: nat)
    ensures IndexOf(NatToString(n) + " " + SquareMetre, SquareMetre) == |NatToString(n)| + 1
  {
    var d := NatToString(n);
    var c := d + " " + SquareMetre;
    assert MatchAt(c, SquareMetre, |d| + 1) by {
      assert c[|d| + 1..|d| + 3] == SquareMetre;
    }
    forall j | 0 <= j < |d| + 1 ensures !MatchAt(c, SquareMetre, j) {
      if j < |d| {
        assert c[j] == d[j] && IsDecimalDigit(d[j]);
      }
      assert c[j..j + 2][0] == c[j];
    }
  }

  lemma SquareMetreRemoved(n: nat)
    ensures Replace(NatToString(n) + " " + SquareMetre, SquareMetre, "") == NatToString(n) + " "
  {
    var d := NatToString(n);
    var c := d + " " + SquareMetre;
    SquareMetreAfterDigits(n);
    assert c[..|d| + 1] == d + " " && c[|d| + 3..] == "";
  }

  /** The surface of `<digits> m²` is the number. */
  lemma SurfaceOfDigits(n: nat)
    ensures Surface(NatToString(n) + " " + SquareMetre) == NumOf(Some(n))
  {
    var d := NatToString(n);
    SquareMetreRemoved(n);
    NatToStringPlain(n);
    assert '.' !in d + " ";
    ReplaceAbsent(d + " ", '.', "");
    TrimTrailingSpace(d);
    assert [('.')] == ".";
  }

  /** `<digits> m²` is the living area in first position, the plot in
      second, and anywhere else the room count, read as the same number. */
  lemma SurfaceByPosition(n: nat, index: int)
    ensures var (k, v) := DetermineType(NatToString(n) + " " + SquareMetre, index);
      && v == NumOf(Some(n))
      && k == (if index == 0 then Woonoppervlakte else if index == 1 then Perceel else Kamers)
  {
    var c := NatToString(n) + " " + SquareMetre;
    SquareMetreAfterDigits(n);
    assert Includes(c, SquareMetre);
    if index == 0 || index == 1 {
      SurfaceOfDigits(n);
    } else {
      SurfaceElsewhere(n);
    }
  }

  lemma SurfaceElsewhere(n: nat)
    ensures HasDigit(NatToString(n) + " " + SquareMetre)
    ensures ParseInt(NatToString(n) + " " + SquareMetre) == Some(n)
  {
    var d := NatToString(n);
    var c := d + " " + SquareMetre;
    assert c[0] == d[0] && IsDecimalDigit(d[0]);
    assert c == d + (" " + SquareMetre);
    ParseIntNatThen(n, " " + SquareMetre);
  }

  /** The kind and value feature text `content`, at position `i` of the
      list, contributes once trimmed. */
  function FeatureAt(content: string, i: int): (Kind, Value) {
    DetermineType(Trim(content), i)
  }

  /** Each feature text classified, position by position. */
  function Parsed(items: seq<string>): (r: seq<(Kind, Value)>)
    ensures |r| == |items| && forall i :: 0 <= i < |items| ==> r[i] == FeatureAt(items[i], i)
  {
    seq(|items|, i requires 0 <= i < |items| => FeatureAt(items[i], i))
  }

  /** The position of the last feature of kind `k`, or -1. */
  function LastOfKind(ps: seq<(Kind, Value)>, k: Kind): (r: int)
    ensures -1 <= r < |ps|
    ensures r >= 0 ==> ps[r].0 == k
    ensures forall j :: r < j < |ps| ==> ps[j].0 != k
    decreases |ps|
  {
    if |ps| == 0 then -1
    else if ps[|ps| - 1].0 == k then |ps| - 1
    else LastOfKind(ps[..|ps| - 1], k)
  }

  /** The `reduce` over classified features: each spreads its field over the
      object so far, so a later feature overrides an earlier one of the same
      kind. */
  function Spread(ps: seq<(Kind, Value)>): (r: Listing)
    ensures forall f :: f in r ==> exists k :: FieldName(k) == f
    ensures forall k :: FieldName(k) in r <==> LastOfKind(ps, k) >= 0
    ensures forall k :: FieldName(k) in r ==> r[FieldName(k)] == ps[LastOfKind(ps, k)].1
    decreases |ps|
  {
    if |ps| == 0 then map[]
    else
      var n := |ps| - 1;
      var prev := Spread(ps[..n]);
      var (k, v) := ps[n];
      forall j ensures FieldName(j) == FieldName(k) ==> j == k {
        if FieldName(j) == FieldName(k) { FieldNameInjective(j, k); }
      }
      prev[FieldName(k) := v]
  }

  /** The feature object of a result item. */
  function Features(items: seq<string>): Listing {
    Spread(Parsed(items))
  }

  /** A feature that no later feature of the same kind overrides
      determines its field. */
  lemma SpreadLastWins(ps: seq<(Kind, Value)>, i: int)
    requires 0 <= i < |ps|
    requires forall j :: i < j < |ps| ==> ps[j].0 != ps[i].0
    ensures FieldName(ps[i].0) in Spread(ps) && Spread(ps)[FieldName(ps[i].0)] == ps[i].1
  {
    assert LastOfKind(ps, ps[i].0) == i;
  }

  /** The object has a field for each kind of feature that occurs and for no
      other. */
  lemma SpreadKinds(ps: seq<(Kind, Value)>, k: Kind)
    ensures FieldName(k) in Spread(ps) <==> exists i :: 0 <= i < |ps| && ps[i].0 == k
  {
  }

  const FeatureFields: set<string> := {"woonoppervlakte", "perceel", "kamers", "energielabel", "unknown"}

  lemma FeaturesFields(items: seq<string>)
    ensures Features(items).Keys <= FeatureFields
  {
    forall f | f in Features(items) ensures f in FeatureFields {
      var k :| FieldName(k) == f;
    }
  }

  // ---------------------------------------------------------- listings

  /** The texts the selectors pick out of one `search-result-item`: the
      header, the `href` of the first link (absent when there is none), the
      street and house number, the postal code and city, the price, and the
      items of the second list. */
  datatype ResultItem = ResultItem(
    header: string,
    link: Option<string>,
    streetName: string,
    postalCodeCity: string,
    priceSale: string,
    features: seq<string>)

  const BaseFields: set<string> := {"id", "header", "link", "streetName", "postalCodeCity", "priceSale"}

  /** `{ id, header, link, streetName, postalCodeCity, priceSale, ...features }` */
  function Record(id: Value, header: Value, link: Value, streetName: Value, postalCodeCity: Value,
                  priceSale: Value, features: Listing): (r: Listing)
    requires features.Keys <= FeatureFields
    ensures r.Keys == BaseFields + features.Keys
    ensures Get(r, "id") == id && Get(r, "header") == header && Get(r, "link") == link
    ensures Get(r, "streetName") == streetName && Get(r, "postalCodeCity") == postalCodeCity
    ensures Get(r, "priceSale") == priceSale
    ensures forall f :: f in features ==> r[f] == features[f]
  {
    var base := map[
      "id" := id,
      "header" := header,
      "link" := link,
      "streetName" := streetName,
      "postalCodeCity" := postalCodeCity,
      "priceSale" := priceSale];
    base + features
  }

  /** The listing built from one result item, keyed by the md5 hex digest of
      its link; hashing an absent link throws. */
  function ExtractListing(item: ResultItem, md5: string -> string): (r: Outcome<Listing>)
    ensures r.Throws? <==> item.link.None?
    ensures r.Returned? ==>
      && r.value.Keys == BaseFields + Features(item.features).Keys
      && IdOf(r.value) == Text(md5(item.link.value))
      && Get(r.value, "link") == Text(item.link.value)
      && Get(r.value, "header") == Text(Trim(item.header))
      && Get(r.value, "streetName") == Text(Trim(item.streetName))
      && Get(r.value, "postalCodeCity") == Text(Trim(item.postalCodeCity))
      && Get(r.value, "priceSale") == Price(item.priceSale)
      && forall f :: f in Features(item.features) ==> r.value[f] == Features(item.features)[f]
  {
    match item.link
    case None => Throws
    case Some(link) =>
      FeaturesFields(item.features);
      Returned(Record(Text(md5(link)), Text(Trim(item.header)), Text(link), Text(Trim(item.streetName)),
        Text(Trim(item.postalCodeCity)), Price(item.priceSale), Features(item.features)))
  }

  /** Two result items with the same link give listings with the same id. */
  lemma SameLinkSameId(a: ResultItem, b: ResultItem, md5: string -> string)
    requires a.link.Some? && a.link == b.link
    ensures IdOf(ExtractListing(a, md5).value) == IdOf(ExtractListing(b, md5).value)
  {
  }

  /** The `map` over all result items: it throws as soon as one does. */
  function ExtractAll(items: seq<ResultItem>, md5: string -> string): Outcome<seq<Listing>> {
    TryMap(items, item => ExtractListing(item, md5))
  }

  /** The listings of a page: one per result item, in page order, unless an
      item has no link. */
  lemma ExtractAllItems(items: seq<ResultItem>, md5: string -> string)
    ensures ExtractAll(items, md5).Throws? <==> exists i :: 0 <= i < |items| && items[i].link.None?
    ensures ExtractAll(items, md5).Returned? ==> |ExtractAll(items, md5).value| == |items|
    ensures ExtractAll(items, md5).Returned? ==> forall i :: 0 <= i < |items| ==> ExtractAll(items, md5).value[i] == ExtractListing(items[i], md5).value
  {
    var f := (item: ResultItem) => ExtractListing(item, md5);
    assert forall i :: 0 <= i < |items| ==> (f(items[i]).Throws? <==> items[i].link.None?);
  }

  // ---------------------------------------------------------- pagination

  /** The result count in the page title: its first word without the first
      thousands separator; `None` is `NaN`. A title that starts with the
      count written in digit groups, followed by a space and more words,
      gives the number its first two groups write: `1.234 koopwoningen` is
      1234, but `1.234.567 koopwoningen` is 1234 too, since `parseInt` stops
      at the second separator. A count without separators reads back as its
      number. */
  function ResultCount(h1: string): (r: Option<int>)
    ensures forall ds: seq<string> ::
      DigitGroups(ds) && Join(ds, '.') + " " <= h1 && !IsJsWhitespace(h1[|h1| - 1])
      ==> r == Some(CountValue(ds))
    ensures forall n: nat ::
      |NatToString(n)| + 1 < |h1| && NatToString(n) + " " <= h1 && !IsJsWhitespace(h1[|h1| - 1])
      ==> r == Some(n)
  {
    TitleReadsGroups(h1);
    TitleReadsNumber(h1);
    ParseInt(CountWord(h1))
  }

  /** The count a title written with digit groups shows once its first
      separator is removed: the number its first two groups write. */
  function CountValue(ds: seq<string>): nat
    requires DigitGroups(ds)
  {
    GroupedValue(ds[..Min(2, |ds|)])
  }

  /** The first word of the title without its first `.`, trimmed. */
  function CountWord(h1: string): string {
    Trim(Replace(Split(Trim(h1), ' ')[0], ".", ""))
  }

  lemma {:induction false} TitleReadsGroups(h1: string)
    ensures forall ds: seq<string> ::
      DigitGroups(ds) && Join(ds, '.') + " " <= h1 && !IsJsWhitespace(h1[|h1| - 1])
      ==> ParseInt(CountWord(h1)) == Some(CountValue(ds))
  {
    forall ds: seq<string> | DigitGroups(ds) && Join(ds, '.') + " " <= h1 && !IsJsWhitespace(h1[|h1| - 1])
      ensures ParseInt(CountWord(h1)) == Some(CountValue(ds))
    {
      TitleStartsWithGroups(ds, h1);
    }
  }

  lemma {:induction false} TitleReadsNumber(h1: string)
    ensures forall n: nat ::
      |NatToString(n)| + 1 < |h1| && NatToString(n) + " " <= h1 && !IsJsWhitespace(h1[|h1| - 1])
      ==> ParseInt(CountWord(h1)) == Some(n)
  {
    forall n: nat | |NatToString(n)| + 1 < |h1| && NatToString(n) + " " <= h1 && !IsJsWhitespace(h1[|h1| - 1])
      ensures ParseInt(CountWord(h1)) == Some(n)
    {
      TitleStartsWithNumber(n, h1);
    }
  }

  /** What `parseInt` reads from the first word of a title that starts with
      a count in digit groups. */
  lemma {:induction false} TitleStartsWithGroups(ds: seq<string>, h1: string)
    requires DigitGroups(ds) && Join(ds, '.') + " " <= h1 && !IsJsWhitespace(h1[|h1| - 1])
    ensures ParseInt(CountWord(h1)) == Some(CountValue(ds))
  {
    var j := Join(ds, '.');
    JoinedGroupsChars(ds, j);
    var rest := h1[|j| + 1..];
    assert h1 == j + [' '] + rest;
    assert ' ' !in j by {
      forall k | 0 <= k < |j| ensures j[k] != ' ' {
        assert IsDecimalDigit(j[k]) || j[k] == '.';
      }
    }
    assert Trim(h1) == h1 by {
      assert h1[0] == j[0];
      DigitIsPlain(j[0]);
    }
    SplitAtSeparator(j, rest, ' ');
    FirstSeparatorRemoved(ds, j);
  }

  /** A count without separators is a single group. */
  lemma {:induction false} TitleStartsWithNumber(n: nat, h1: string)
    requires |NatToString(n)| + 1 < |h1| && NatToString(n) + " " <= h1 && !IsJsWhitespace(h1[|h1| - 1])
    ensures ParseInt(CountWord(h1)) == Some(n)
  {
    var ds := [NatToString(n)];
    SingleGroup(ds, n);
    TitleStartsWithGroups(ds, h1);
  }

  lemma {:induction false} SingleGroup(ds: seq<string>, n: nat)
    requires ds == [NatToString(n)]
    ensures DigitGroups(ds) && Join(ds, '.') == NatToString(n)
    ensures CountValue(ds) == n
  {
    OneGroup(n);
    assert ds[..Min(2, |ds|)] == ds;
  }

  /** `replace(".", "")` joins the first two groups and leaves the rest, so
      `parseInt` reads those two groups and stops at the next separator. */
  lemma {:induction false} FirstSeparatorRemoved(ds: seq<string>, j: string)
    requires DigitGroups(ds) && j == Join(ds, '.')
    ensures ParseInt(Trim(Replace(j, ".", ""))) == Some(CountValue(ds))
  {
    if |ds| == 1 {
      OneGroupRead(ds, j);
    } else {
      TwoGroupsRead(ds, j);
    }
  }

  /** A single group is read whole. */
  lemma {:induction false} OneGroupRead(ds: seq<string>, j: string)
    requires DigitGroups(ds) && |ds| == 1 && j == Join(ds, '.')
    ensures ParseInt(Trim(Replace(j, ".", ""))) == Some(CountValue(ds))
  {
    OneGroupText(ds, j);
    assert j + [] == j;
    ParseIntDigitsThen(j, []);
  }

  lemma {:induction false} OneGroupText(ds: seq<string>, j: string)
    requires DigitGroups(ds) && |ds| == 1 && j == Join(ds, '.')
    ensures |j| >= 1 && IsDigits(j) && Trim(Replace(j, ".", "")) == j
    ensures CountValue(ds) == DecimalValue(j)
  {
    assert j == ds[0];
    JoinedGroupsChars(ds, j);
    DigitsHaveNoDot(j);
    ReplaceAbsent(j, '.', "");
    DigitIsPlain(j[0]);
    DigitIsPlain(j[|j| - 1]);
    assert ds[..Min(2, |ds|)] == ds && ds[..0] == [];
    assert GroupedValue(ds) == GroupedValue(ds[..0]) * Pow10(|j|) + DecimalValue(j);
  }

  /** Several groups: the first two are read as one number, and
      `parseInt` stops at the separator after them. */
  lemma {:induction false} TwoGroupsRead(ds: seq<string>, j: string)
    requires DigitGroups(ds) && |ds| >= 2 && j == Join(ds, '.')
    ensures ParseInt(Trim(Replace(j, ".", ""))) == Some(CountValue(ds))
  {
    SeparatorJoinsFirstTwo(ds, j);
    var tail := GroupsAfterSecond(ds);
    assert Trim(Replace(j, ".", "")) == (ds[0] + ds[1]) + tail;
    FirstTwoThen(ds, tail);
  }

  /** What follows the second group: nothing, or a separator and the rest. */
  function GroupsAfterSecond(ds: seq<string>): (r: string)
    requires |ds| >= 2
    ensures r == [] || r[0] == '.'
    ensures Join(ds[1..], '.') == ds[1] + r
  {
    if |ds| == 2 then "" else ['.'] + Join(ds[2..], '.')
  }

  lemma {:induction false} FirstTwoThen(ds: seq<string>, tail: string)
    requires DigitGroups(ds) && |ds| >= 2
    requires tail == [] || tail[0] == '.'
    ensures ParseInt((ds[0] + ds[1]) + tail) == Some(CountValue(ds))
  {
    DecimalValueAppend(ds[0], ds[1]);
    ParseIntDigitsThen(ds[0] + ds[1], tail);
    TwoGroups(ds);
  }

  /** `replace(".", "")` removes the separator after the first group only,
      and what is left has no white space at either end. */
  lemma {:induction false} SeparatorJoinsFirstTwo(ds: seq<string>, j: string)
    requires DigitGroups(ds) && |ds| >= 2 && j == Join(ds, '.')
    ensures Replace(j, ".", "") == ds[0] + Join(ds[1..], '.')
    ensures Trim(ds[0] + Join(ds[1..], '.')) == ds[0] + Join(ds[1..], '.')
    ensures ds[0] + Join(ds[1..], '.') == (ds[0] + ds[1]) + GroupsAfterSecond(ds)
  {
    var t := Join(ds[1..], '.');
    JoinedGroupsChars(ds[1..], t);
    assert j == ds[0] + ['.'] + t;
    FirstDotAfterDigits(ds[0], t);
    assert j[..|ds[0]|] == ds[0] && j[|ds[0]| + 1..] == t;
    var w := ds[0] + t;
    assert w[0] == ds[0][0] && IsDecimalDigit(ds[0][0]);
    DigitIsPlain(w[0]);
    assert w[|w| - 1] == t[|t| - 1];
    DigitIsPlain(w[|w| - 1]);
  }

  lemma {:induction false} FirstDotAfterDigits(d: string, t: string)
    requires IsDigits(d)
    ensures IndexOf(d + ['.'] + t, ".") == |d|
  {
    var s := d + ['.'] + t;
    assert MatchAt(s, ".", |d|) by {
      assert s[|d|..|d| + 1] == ".";
    }
    var i := IndexOf(s, ".");
    forall k | 0 <= k < |d| ensures !MatchAt(s, ".", k) {
      assert s[k..k + 1][0] == d[k] && IsDecimalDigit(d[k]);
    }
  }

  /** The first two groups read as one number. */
  lemma {:induction false} TwoGroups(ds: seq<string>)
    requires DigitGroups(ds) && |ds| >= 2
    ensures DecimalValue(ds[0] + ds[1]) == DecimalValue(ds[0]) * Pow10(|ds[1]|) + DecimalValue(ds[1])
    ensures CountValue(ds) == DecimalValue(ds[0] + ds[1])
  {
    DecimalValueAppend(ds[0], ds[1]);
    var two := ds[..2];
    assert ds[..Min(2, |ds|)] == two;
    assert two[..1] == [ds[0]] && two[..1][..0] == [];
    assert GroupedValue(two[..1]) == DecimalValue(ds[0]);
  }

  /** A count with one separator is read through: `1.234 koopwoningen` is 1234 ... */
  lemma {:induction false} SeparatedCount(h1: string)
    requires h1 == "1.234 koopwoningen"
    ensures ResultCount(h1) == Some(1234)
  {
    var ds := ["1", "234"];
    TwelveThirtyFour(ds);
    assert Join(ds, '.') + " " <= h1 && h1[|h1| - 1] == 'n';
    TitleStartsWithGroups(ds, h1);
  }

  /** ... and only the first separator is removed: `1.234.567 koopwoningen`
      is 1234 as well. */
  lemma {:induction false} SecondSeparatorCutsCount(h1: string)
    requires h1 == "1.234.567 koopwoningen"
    ensures ResultCount(h1) == Some(1234)
  {
    var ds := ["1", "234", "567"];
    ThreeGroupsCount(ds);
    assert Join(ds, '.') + " " <= h1 && h1[|h1| - 1] == 'n';
    TitleStartsWithGroups(ds, h1);
  }

  lemma {:induction false} TwelveThirtyFour(ds: seq<string>)
    requires ds == ["1", "234"]
    ensures DigitGroups(ds) && Join(ds, '.') == "1.234" && GroupedValue(ds) == 1234
    ensures CountValue(ds) == 1234
  {
    assert DecimalValue("1") == 1 by {
      assert "1"[..0] == "";
    }
    assert DecimalValue("234") == 234 by {
      assert "234"[..2] == "23" && "23"[..1] == "2" && "2"[..0] == "";
    }
    assert ds[..1] == ["1"] && ds[..1][..0] == [];
    assert GroupedValue(ds[..1]) == 1;
    assert Pow10(3) == 1000;
    assert GroupedValue(ds) == GroupedValue(ds[..1]) * Pow10(3) + DecimalValue("234");
    assert ds[..Min(2, |ds|)] == ds;
  }

  lemma {:induction false} ThreeGroupsCount(ds: seq<string>)
    requires ds == ["1", "234", "567"]
    ensures DigitGroups(ds) && Join(ds, '.') == "1.234.567" && CountValue(ds) == 1234
  {
    assert DigitGroups(ds);
    assert Join(ds, '.') == "1" + "." + Join(ds[1..], '.');
    assert ds[1..] == ["234", "567"] && ds[1..][1..] == ["567"];
    assert Join(ds[1..], '.') == "234.567";
    var two := ds[..Min(2, |ds|)];
    assert two == ["1", "234"];
    TwelveThirtyFour(two);
  }

  /** `amountOfSearchPages`; `None` is `NaN`. */
  function AmountOfSearchPages(h1: string): (r: Option<int>)
    ensures r.None? <==> ResultCount(h1).None?
    ensures r.Some? ==> r.value == CeilDiv(ResultCount(h1).value, SearchResultsPerPage)
  {
    match ResultCount(h1)
    case None => None
    case Some(c) => Some(CeilDiv(c, SearchResultsPerPage))
  }

  const PageParameter: string := "&search_result="

  /** The URL of page `n` of the search at `url`. */
  function PageUrl(url: string, n: nat): string {
    url + PageParameter + NatToString(n)
  }

  /** How many pages follow the first: none when the count is `NaN`. */
  function ExtraPages(amount: Option<int>): nat {
    match amount
    case None => 0
    case Some(p) => if p < 2 then 0 else p - 1
  }

  /** The loop `for (i = 2; i <= amountOfSearchPages; i++)`: pages 2 to the
      last; `amount` is `amountOfSearchPages`, `None` for `NaN`. */
  function PageUrls(url: string, amount: Option<int>): (r: seq<string>)
    ensures |r| == ExtraPages(amount)
    ensures forall i :: 0 <= i < |r| ==> r[i] == PageUrl(url, i + 2)
    ensures forall n: nat :: PageUrl(url, n) in r <==> amount.Some? && 2 <= n <= amount.value
  {
    var r := seq(ExtraPages(amount), i requires 0 <= i => PageUrl(url, i + 2));
    assert forall n: nat :: PageUrl(url, n) in r <==> amount.Some? && 2 <= n <= amount.value by {
      forall n: nat ensures PageUrl(url, n) in r <==> amount.Some? && 2 <= n <= amount.value {
        if PageUrl(url, n) in r {
          var i :| 0 <= i < |r| && r[i] == PageUrl(url, n);
          PageUrlInjective(url, n, i + 2);
        }
        if amount.Some? && 2 <= n <= amount.value {
          assert r[n - 2] == PageUrl(url, n);
        }
      }
    }
    r
  }

  /** Different page numbers give different URLs. */
  lemma PageUrlInjective(url: string, m: nat, n: nat)
    requires PageUrl(url, m) == PageUrl(url, n)
    ensures m == n
  {
    var k := |url + PageParameter|;
    assert PageUrl(url, m)[k..] == NatToString(m);
    assert PageUrl(url, n)[k..] == NatToString(n);
    assert ParseInt(NatToString(m)) == Some(m);
  }

  /** The first page and the discovered ones together hold every result
      and no page is superfluous: with `c` results there are `ceil(c / 15)`
      pages, so `1 + |urls|` pages of 15 cover `c`, and one fewer would not;
      a count that fits on one page, or is negative, discovers nothing. */
  lemma PagesCoverResults(url: string, c: int)
    ensures var urls := PageUrls(url, Some(CeilDiv(c, SearchResultsPerPage)));
      && (c > SearchResultsPerPage ==>
            (1 + |urls|) * SearchResultsPerPage >= c && |urls| * SearchResultsPerPage < c)
      && (c <= SearchResultsPerPage ==> urls == [])
  {
  }

  /** Each discovered URL names its page: reading the page number back out
      of URL `i` gives `i + 2`, and it is at most the last page. */
  lemma PageNumbersReadBack(url: string, amount: int, i: int)
    requires 0 <= i < |PageUrls(url, Some(amount))|
    ensures var u := PageUrls(url, Some(amount))[i]; var prefix := url + PageParameter;
      && prefix <= u
      && ParseInt(u[|prefix|..]) == Some(i + 2)
      && 2 <= i + 2 <= amount
  {
    var u := PageUrls(url, Some(amount))[i];
    assert u == (url + PageParameter) + NatToString(i + 2);
    assert u[|url + PageParameter|..] == NatToString(i + 2);
  }

  /** A search with 140 results: pages 2 to 10 are discovered. */
  lemma OneHundredFortyResults(url: string)
    ensures var urls := PageUrls(url, AmountOfSearchPages("140 koopwoningen"));
      |urls| == 9 && urls[0] == PageUrl(url, 2) && urls[8] == PageUrl(url, 10)
  {
    var h1 := "140 koopwoningen";
    assert ResultCount(h1) == Some(140) by {
      assert NatToString(140) == "140" by {
        assert NatToString(14) == "14";
      }
      assert |NatToString(140)| + 1 < |h1|;
      assert NatToString(140) + " " <= h1;
      assert !IsJsWhitespace(h1[|h1| - 1]);
    }
    CeilDivUnique(140, SearchResultsPerPage, 10);
    assert AmountOfSearchPages(h1) == Some(10);
    var urls := PageUrls(url, Some(10));
    assert urls[0] == PageUrl(url, 2) && urls[8] == PageUrl(url, 10);
  }

  // ---------------------------------------------------------- one page

  /** What the fetch of a search URL yields: a non-OK HTTP status (which
      throws), or the result items and the text of the `h1`. */
  datatype SearchPage = HttpError | Page(items: seq<ResultItem>, h1: string)

  /** A queued crawl task: `() => fetchSearchResultsPerUrl(url, isFirstPage)`. */
  datatype CrawlTask = Fetch(url: string, isFirstPage: bool)

  /** What a crawl task resolves to. */
  datatype FetchResult = FetchResult(url: string, listings: seq<Listing>, urlsToCheck: seq<string>)

  /** `fetchSearchResultsPerUrl(url, isFirstPage)` against the page the fetch
      returned; `Throws` is a rejected promise. */
  function FetchSearchResults(task: CrawlTask, page: SearchPage, md5: string -> string): (r: Outcome<FetchResult>)
    ensures r.Throws? <==> page.HttpError? || ExtractAll(page.items, md5).Throws?
    ensures r.Returned? ==>
      && r.value.url == task.url
      && r.value.listings == ExtractAll(page.items, md5).value
      && r.value.urlsToCheck == (if task.isFirstPage then PageUrls(task.url, AmountOfSearchPages(page.h1)) else [])
  {
    match page
    case HttpError => Throws
    case Page(items, h1) =>
      match ExtractAll(items, md5)
      case Throws => Throws
      case Returned(listings) =>
        Returned(FetchResult(task.url, listings, if task.isFirstPage then PageUrls(task.url, AmountOfSearchPages(h1)) else []))
  }

  /** Only a first page discovers further pages. */
  lemma LaterPagesDiscoverNothing(url: string, page: SearchPage, md5: string -> string)
    requires FetchSearchResults(Fetch(url, false), page, md5).Returned?
    ensures FetchSearchResults(Fetch(url, false), page, md5).value.urlsToCheck == []
  {
  }
}

=== FILE: snapshots.dfy ===
/** A snapshot of listings keyed by id: the JavaScript `Map<string, Listing>`
    the scraper builds with `getListingsMapById` (utils/mongodb.ts). A JS Map
    iterates in insertion order and `set` on an existing key keeps its
    position, so the model keeps the key order next to the map. */
module Snapshots {
  import opened Types

  datatype Snapshot = Snapshot(order: seq<Value>, byId: map<Value, Listing>) {
    /** The order lists each key once, exactly the keys of the map, and each
        record is stored under its own id. */
    predicate Valid() {
      && Distinct(order)
      && (forall k :: k in byId ==> k in order)
      && (forall k :: k in order ==> k in byId)
      && (forall k :: k in byId ==> IdOf(byId[k]) == k)
    }
  }

  function Empty(): (r: Snapshot)
    ensures r.Valid() && r.byId == map[]
  {
    Snapshot([], map[])
  }

  /** `map.set(listing.id, listing)` */
  function Put(s: Snapshot, l: Listing): (r: Snapshot)
    requires s.Valid()
    ensures r.Valid()
    ensures r.byId == s.byId[IdOf(l) := l]
    ensures s.order <= r.order && |r.order| <= |s.order| + 1
  {
    var k := IdOf(l);
    if k in s.byId then Snapshot(s.order, s.byId[k := l])
    else Snapshot(s.order + [k], s.byId[k := l])
  }

  /** `seq` without the element `k`, in the same order. */
  function Without(order: seq<Value>, k: Value): (r: seq<Value>)
    ensures forall x :: x in r <==> x in order && x != k
    ensures Distinct(order) ==> Distinct(r)
    ensures |r| <= |order|
  {
    if order == [] then []
    else if order[0] == k then Without(order[1..], k)
    else
      var rest := Without(order[1..], k);
      assert Distinct(order) ==> order[0] !in order[1..] && Distinct(order[1..]);
      [order[0]] + rest
  }

  /** `map.delete(id)` */
  function Remove(s: Snapshot, k: Value): (r: Snapshot)
    requires s.Valid()
    ensures r.Valid()
    ensures r.byId == s.byId - {k}
  {
    Snapshot(Without(s.order, k), s.byId - {k})
  }

  /** `[...map.values()]` */
  function Values(s: Snapshot): (r: seq<Listing>)
    requires s.Valid()
    ensures Ids(r) == s.order
    ensures forall i :: 0 <= i < |r| ==> r[i] == s.byId[s.order[i]]
  {
    seq(|s.order|, i requires 0 <= i < |s.order| => s.byId[s.order[i]])
  }

  /** The position of the last listing with id `k`. */
  function LastIndex(ls: seq<Listing>, k: Value): (r: nat)
    requires k in Ids(ls)
    ensures r < |ls| && IdOf(ls[r]) == k
    ensures forall j :: r < j < |ls| ==> IdOf(ls[j]) != k
  {
    if IdOf(ls[|ls| - 1]) == k then |ls| - 1
    else
      assert Ids(ls) == Ids(ls[..|ls| - 1]) + [IdOf(ls[|ls| - 1])] by {
        IdsAppend(ls[..|ls| - 1], [ls[|ls| - 1]]);
        assert ls[..|ls| - 1] + [ls[|ls| - 1]] == ls;
      }
      LastIndex(ls[..|ls| - 1], k)
  }

  lemma LastIndexOfInit(ls: seq<Listing>, k: Value)
    requires |ls| > 0 && k in Ids(ls[..|ls| - 1]) && k != IdOf(ls[|ls| - 1])
    ensures k in Ids(ls) && LastIndex(ls, k) == LastIndex(ls[..|ls| - 1], k)
  {
    var init := ls[..|ls| - 1];
    IdsAppend(init, [ls[|ls| - 1]]);
    assert init + [ls[|ls| - 1]] == ls;
    var b := LastIndex(init, k);
    assert IdOf(ls[b]) == k;
  }

  /** What `PutAll(s, ls)` promises about its result `r`. */
  ghost predicate PutAllSpec(s: Snapshot, ls: seq<Listing>, r: Snapshot) {
    && r.Valid()
    && (forall k :: k in r.byId <==> k in s.byId || k in Ids(ls))
    && (forall k :: k in Ids(ls) ==> r.byId[k] == ls[LastIndex(ls, k)])
    && (forall k :: k in s.byId && k !in Ids(ls) ==> r.byId[k] == s.byId[k])
    && s.order <= r.order
  }

  lemma IdsOfInit(ls: seq<Listing>)
    requires |ls| > 0
    ensures Ids(ls) == Ids(ls[..|ls| - 1]) + [IdOf(ls[|ls| - 1])]
  {
    assert ls == ls[..|ls| - 1] + [ls[|ls| - 1]];
    IdsAppend(ls[..|ls| - 1], [ls[|ls| - 1]]);
  }

  lemma PutAllStepValues(ls: seq<Listing>, p: Snapshot, r: Snapshot)
    requires |ls| > 0
    requires forall k :: k in Ids(ls[..|ls| - 1]) ==> k in p.byId && p.byId[k] == ls[..|ls| - 1][LastIndex(ls[..|ls| - 1], k)]
    requires r.byId == p.byId[IdOf(ls[|ls| - 1]) := ls[|ls| - 1]]
    ensures forall k :: k in Ids(ls) ==> k in r.byId && r.byId[k] == ls[LastIndex(ls, k)]
  {
    IdsOfInit(ls);
    forall k | k in Ids(ls)
      ensures r.byId[k] == ls[LastIndex(ls, k)]
    {
      if k != IdOf(ls[|ls| - 1]) {
        LastIndexOfInit(ls, k);
      } else {
        assert LastIndex(ls, k) == |ls| - 1;
      }
    }
  }

  lemma PutAllStep(s: Snapshot, ls: seq<Listing>, p: Snapshot)
    requires s.Valid() && |ls| > 0
    requires PutAllSpec(s, ls[..|ls| - 1], p)
    ensures PutAllSpec(s, ls, Put(p, ls[|ls| - 1]))
  {
    var r := Put(p, ls[|ls| - 1]);
    IdsOfInit(ls);
    PutAllStepValues(ls, p, r);
    PutAllStepKeys(s.byId, p.byId, r.byId, Ids(ls[..|ls| - 1]), IdOf(ls[|ls| - 1]), ls[|ls| - 1], Ids(ls));
  }

  lemma PutAllStepKeys(s: map<Value, Listing>, p: map<Value, Listing>, r: map<Value, Listing>,
                       init: seq<Value>, x: Value, v: Listing, all: seq<Value>)
    requires forall k :: k in p <==> k in s || k in init
    requires forall k :: k in s && k !in init ==> p[k] == s[k]
    requires r == p[x := v] && all == init + [x]
    ensures forall k :: k in r <==> k in s || k in all
    ensures forall k :: k in s && k !in all ==> r[k] == s[k]
  {
  }

  /** `ls.forEach(l => map.set(l.id, l))`: later listings overwrite earlier
      ones with the same id; ids not in `ls` keep their stored record. */
  function PutAll(s: Snapshot, ls: seq<Listing>): (r: Snapshot)
    requires s.Valid()
    ensures PutAllSpec(s, ls, r)
    decreases |ls|
  {
    if ls == [] then s
    else
      var p := PutAll(s, ls[..|ls| - 1]);
      PutAllStep(s, ls, p);
      Put(p, ls[|ls| - 1])
  }

  /** `getListingsMapById(listings)` (utils/mongodb.ts): the keys are exactly
      the ids of the listings, and for a repeated id the last listing wins. */
  function ById(ls: seq<Listing>): (r: Snapshot)
    ensures r.Valid()
    ensures forall k :: k in r.byId <==> k in Ids(ls)
    ensures forall k :: k in r.byId ==> r.byId[k] == ls[LastIndex(ls, k)]
  {
    PutAll(Empty(), ls)
  }

  /** `ids.forEach(id => map.delete(id))` */
  function RemoveAll(s: Snapshot, ks: seq<Value>): (r: Snapshot)
    requires s.Valid()
    ensures r.Valid()
    ensures forall k :: k in r.byId <==> k in s.byId && k !in ks
    ensures forall k :: k in r.byId ==> r.byId[k] == s.byId[k]
    decreases |ks|
  {
    if ks == [] then s else RemoveAll(Remove(s, ks[0]), ks[1..])
  }
}

=== FILE: text.dfy ===
/** The JavaScript string built-ins the scraper relies on: `split(" ")`,
    `join(" ")`, `trim`, `indexOf`, `replace`, `replaceAll`, `parseInt`, and
    decimal rendering of integers in template strings. */
module Text {
  import opened Types

  predicate IsDecimalDigit(c: char) {
    '0' <= c <= '9'
  }

  predicate IsUpperAscii(c: char) {
    'A' <= c <= 'Z'
  }

  /** `/\d+/.test(s)`: some ASCII digit occurs. */
  predicate HasDigit(s: string) {
    exists i :: 0 <= i < |s| && IsDecimalDigit(s[i])
  }

  /** `/[A-Z]/.test(s)`: some ASCII capital occurs. */
  predicate HasUpper(s: string) {
    exists i :: 0 <= i < |s| && IsUpperAscii(s[i])
  }

  /** The WhiteSpace and LineTerminator code points of ECMAScript, which
      `trim` strips and `parseInt` skips. */
  predicate IsJsWhitespace(c: char) {
    || c == '\t' || c == '\n' || c == '\U{000B}' || c == '\U{000C}' || c == '\r'
    || c == ' ' || c == '\U{00A0}' || c == '\U{1680}'
    || ('\U{2000}' <= c <= '\U{200A}')
    || c == '\U{2028}' || c == '\U{2029}' || c == '\U{202F}' || c == '\U{205F}'
    || c == '\U{3000}' || c == '\U{FEFF}'
  }

  // ---------------------------------------------------------------- trim

  function TrimStart(s: string): (r: string)
    ensures |r| <= |s| && r == s[|s| - |r|..]
    ensures forall i :: 0 <= i < |s| - |r| ==> IsJsWhitespace(s[i])
    ensures |r| > 0 ==> !IsJsWhitespace(r[0])
  {
    if |s| > 0 && IsJsWhitespace(s[0]) then TrimStart(s[1..]) else s
  }

  function TrimEnd(s: string): (r: string)
    ensures |r| <= |s| && r == s[..|r|]
    ensures forall i :: |r| <= i < |s| ==> IsJsWhitespace(s[i])
    ensures |r| > 0 ==> !IsJsWhitespace(r[|r| - 1])
  {
    if |s| > 0 && IsJsWhitespace(s[|s| - 1]) then TrimEnd(s[..|s| - 1]) else s
  }

  /** `s.trim()` */
  function Trim(s: string): (r: string)
    ensures |r| > 0 ==> !IsJsWhitespace(r[0]) && !IsJsWhitespace(r[|r| - 1])
    ensures (|s| == 0 || (!IsJsWhitespace(s[0]) && !IsJsWhitespace(s[|s| - 1]))) ==> r == s
  {
    TrimEnd(TrimStart(s))
  }

  /** Trimming drops one leading space before text that has no white space
      at either end. */
  lemma TrimLeadingSpace(y: string)
    requires |y| > 0 && !IsJsWhitespace(y[0]) && !IsJsWhitespace(y[|y| - 1])
    ensures Trim(" " + y) == y
  {
    assert (" " + y)[1..] == y;
    assert TrimStart(" " + y) == y;
  }

  /** Trimming drops one trailing space after text that has no white space
      at either end. */
  lemma TrimTrailingSpace(y: string)
    requires |y| > 0 && !IsJsWhitespace(y[0]) && !IsJsWhitespace(y[|y| - 1])
    ensures Trim(y + " ") == y
  {
    assert (y + " ")[..|y|] == y;
    assert TrimStart(y + " ") == y + " ";
  }

  // ---------------------------------------------------------- split / join

  /** `parts.join(sep)` for a one-character separator. */
  function Join(parts: seq<string>, sep: char): string {
    if |parts| == 0 then ""
    else if |parts| == 1 then parts[0]
    else parts[0] + [sep] + Join(parts[1..], sep)
  }

  /** `s.split(sep)` for a one-character separator: the maximal separator-free
      pieces, so `"".split(" ")` is `[""]` and a trailing separator yields a
      trailing empty piece. */
  function Split(s: string, sep: char): (r: seq<string>)
    ensures |r| >= 1
    ensures forall i :: 0 <= i < |r| ==> sep !in r[i]
    ensures Join(r, sep) == s
  {
    if |s| == 0 then [""]
    else
      var rest := Split(s[1..], sep);
      if s[0] == sep then
        assert Join([""] + rest, sep) == [sep] + Join(rest, sep);
        [""] + rest
      else
        var r := [[s[0]] + rest[0]] + rest[1..];
        JoinConsChar(s[0], rest, sep);
        r
  }

  /** `${parts[i]}` inside a template literal: `"undefined"` past the end. */
  function Interpolated(parts: seq<string>, i: nat): string {
    if i < |parts| then parts[i] else "undefined"
  }

  lemma JoinConsChar(c: char, parts: seq<string>, sep: char)
    requires |parts| >= 1
    ensures Join([[c] + parts[0]] + parts[1..], sep) == [c] + Join(parts, sep)
  {
    var r := [[c] + parts[0]] + parts[1..];
    if |parts| > 1 {
      assert r[1..] == parts[1..];
    }
  }

  /** Joining two non-empty lists puts exactly one separator between them. */
  lemma {:induction false} JoinAppend(xs: seq<string>, ys: seq<string>, sep: char)
    requires |xs| >= 1 && |ys| >= 1
    ensures Join(xs + ys, sep) == Join(xs, sep) + [sep] + Join(ys, sep)
  {
    if |xs| == 1 {
      assert (xs + ys)[1..] == ys;
    } else {
      assert (xs + ys)[1..] == xs[1..] + ys;
      JoinAppend(xs[1..], ys, sep);
    }
  }

  lemma {:induction false} SplitNoSeparator(a: string, sep: char)
    requires sep !in a
    ensures Split(a, sep) == [a]
  {
    if |a| > 0 {
      SplitNoSeparator(a[1..], sep);
      assert [a[0]] + a[1..] == a;
    }
  }

  lemma {:induction false} SplitAtSeparator(a: string, b: string, sep: char)
    requires sep !in a
    ensures Split(a + [sep] + b, sep) == [a] + Split(b, sep)
  {
    var s := a + [sep] + b;
    if |a| == 0 {
      assert s[1..] == b;
    } else {
      assert s[1..] == a[1..] + [sep] + b;
      SplitAtSeparator(a[1..], b, sep);
      assert [a[0]] + a[1..] == a;
    }
  }

  /** Splitting a join of separator-free pieces gives the pieces back. */
  lemma {:induction false} SplitJoin(parts: seq<string>, sep: char)
    requires |parts| >= 1
    requires forall i :: 0 <= i < |parts| ==> sep !in parts[i]
    ensures Split(Join(parts, sep), sep) == parts
  {
    if |parts| == 1 {
      SplitNoSeparator(parts[0], sep);
    } else {
      SplitJoin(parts[1..], sep);
      SplitAtSeparator(parts[0], Join(parts[1..], sep), sep);
      assert [parts[0]] + parts[1..] == parts;
    }
  }

  // ------------------------------------------------------- search / replace

  /** `pat` occurs in `s` at position `i`. */
  predicate MatchAt(s: string, pat: string, i: int) {
    0 <= i && i + |pat| <= |s| && s[i..i + |pat|] == pat
  }

  function IndexFrom(s: string, pat: string, from: nat): (r: int)
    requires from <= |s|
    ensures r == -1 || (from <= r && MatchAt(s, pat, r))
    ensures forall j :: from <= j < (if r == -1 then |s| + 1 else r) ==> !MatchAt(s, pat, j)
    decreases |s| - from
  {
    if MatchAt(s, pat, from) then from
    else if from == |s| then -1
    else IndexFrom(s, pat, from + 1)
  }

  /** `s.indexOf(pat)`: the first position where `pat` occurs, or -1. */
  function IndexOf(s: string, pat: string): (r: int)
    ensures r == -1 || MatchAt(s, pat, r)
    ensures forall j :: 0 <= j < (if r == -1 then |s| + 1 else r) ==> !MatchAt(s, pat, j)
  {
    IndexFrom(s, pat, 0)
  }

  /** `s.includes(pat)` */
  predicate Includes(s: string, pat: string) {
    IndexOf(s, pat) >= 0
  }

  /** `s.replace(pat, rep)` with a string pattern: only the first occurrence. */
  function Replace(s: string, pat: string, rep: string): (r: string)
    ensures IndexOf(s, pat) == -1 ==> r == s
    ensures IndexOf(s, pat) >= 0 ==>
      var i := IndexOf(s, pat); r == s[..i] + rep + s[i + |pat|..]
  {
    var i := IndexOf(s, pat);
    if i < 0 then s else s[..i] + rep + s[i + |pat|..]
  }

  /** Replacing a one-character pattern that does not occur changes nothing. */
  lemma ReplaceAbsent(s: string, c: char, rep: string)
    requires c !in s
    ensures Replace(s, [c], rep) == s
  {
    forall j | 0 <= j && j + 1 <= |s| ensures !MatchAt(s, [c], j) {
      assert s[j..j + 1][0] == s[j];
    }
  }

  /** `s.replaceAll(c, "")` for a one-character pattern. */
  function RemoveAll(s: string, c: char): (r: string)
    ensures c !in r
    ensures |r| <= |s|
  {
    if |s| == 0 then ""
    else (if s[0] == c then "" else [s[0]]) + RemoveAll(s[1..], c)
  }

  // ---------------------------------------------------------------- length

  /** A character outside the Basic Multilingual Plane, which UTF-16
      writes as a surrogate pair. */
  predicate IsAstral(c: char) {
    c as int >= 0x1_0000
  }

  /** JavaScript's `s.length`: the number of UTF-16 code units, so an
      astral character counts twice. It equals the number of characters
      exactly when none is astral. */
  function JsLength(s: string): (r: nat)
    ensures |s| <= r <= 2 * |s|
    ensures r == |s| <==> forall i :: 0 <= i < |s| ==> !IsAstral(s[i])
  {
    if |s| == 0 then 0
    else
      var r := (if IsAstral(s[0]) then 2 else 1) + JsLength(s[1..]);
      assert forall i :: 1 <= i < |s| ==> s[i] == s[1..][i - 1];
      r
  }

  /** Two mathematical digits outside the Basic Multilingual Plane have a
      JavaScript length of four. */
  lemma AstralCountsTwice()
    ensures |"\U{1D7CF}\U{1D7D0}"| == 2 && JsLength("\U{1D7CF}\U{1D7D0}") == 4
  {
    assert "\U{1D7CF}\U{1D7D0}"[1..] == "\U{1D7D0}";
    assert "\U{1D7D0}"[1..] == "";
  }

  // ------------------------------------------------------ numbers <-> text

  function DigitChar(d: nat): char
    requires d < 10
  {
    "0123456789"[d]
  }

  /** `${n}` for a non-negative integer. */
  function NatToString(n: nat): (r: string)
    ensures |r| >= 1
    ensures forall i :: 0 <= i < |r| ==> IsDecimalDigit(r[i])
  {
    if n < 10 then [DigitChar(n)] else NatToString(n / 10) + [DigitChar(n % 10)]
  }

  /** A decimal rendering holds no `.`, no space and no white space at
      either end. */
  lemma NatToStringPlain(n: nat)
    ensures var d := NatToString(n);
      '.' !in d && ' ' !in d && !IsJsWhitespace(d[0]) && !IsJsWhitespace(d[|d| - 1])
  {
    var d := NatToString(n);
    forall i | 0 <= i < |d| ensures d[i] != '.' && d[i] != ' ' { assert IsDecimalDigit(d[i]); }
    assert IsDecimalDigit(d[0]) && IsDecimalDigit(d[|d| - 1]);
  }

  /** The digit value of `c` in `radix` (10 or 16), if `c` is such a digit. */
  function DigitIn(c: char, radix: nat): Option<nat> {
    if IsDecimalDigit(c) then Some(c as int - '0' as int)
    else if radix == 16 && 'a' <= c <= 'f' then Some(c as int - 'a' as int + 10)
    else if radix == 16 && 'A' <= c <= 'F' then Some(c as int - 'A' as int + 10)
    else None
  }

  /** The longest prefix of `s` made of digits of `radix`. */
  function DigitPrefix(s: string, radix: nat): (r: string)
    ensures |r| <= |s| && r == s[..|r|]
    ensures forall i :: 0 <= i < |r| ==> DigitIn(r[i], radix).Some?
    ensures |r| < |s| ==> DigitIn(s[|r|], radix).None?
  {
    if |s| > 0 && DigitIn(s[0], radix).Some? then
      var rest := DigitPrefix(s[1..], radix);
      assert s[..|rest| + 1] == [s[0]] + rest;
      [s[0]] + rest
    else ""
  }

  /** The value of a digit string read most-significant first. */
  function DigitsValue(d: string, radix: nat): nat
    requires forall i :: 0 <= i < |d| ==> DigitIn(d[i], radix).Some?
  {
    if |d| == 0 then 0
    else DigitsValue(d[..|d| - 1], radix) * radix + DigitIn(d[|d| - 1], radix).value
  }

  /** The unsigned part of `parseInt`: a `0x`/`0X` prefix selects base 16,
      and the longest run of digits that follows is the value; `None` when
      there is no digit. */
  function Magnitude(u: string): Option<nat> {
    var hex := |u| >= 2 && u[0] == '0' && (u[1] == 'x' || u[1] == 'X');
    var radix := if hex then 16 else 10;
    var d := DigitPrefix(if hex then u[2..] else u, radix);
    if |d| == 0 then None else Some(DigitsValue(d, radix))
  }

  /** `parseInt` after leading white space: an optional sign, then the
      magnitude. */
  function Signed(t: string): Option<int> {
    var negative := |t| > 0 && t[0] == '-';
    var u := if |t| > 0 && (t[0] == '-' || t[0] == '+') then t[1..] else t;
    match Magnitude(u)
    case None => None
    case Some(m) =>
      var v: int := m;
      if negative then Some(-v) else Some(v)
  }

  /** `parseInt(s)` without a radix: leading white space is skipped, an optional
      sign is read, a `0x`/`0X` prefix selects base 16, and the longest run of
      digits that follows is the value. `None` stands for `NaN`. The decimal
      rendering of a number reads back as that number, and a negative result
      needs a minus sign as the first character after the white space. */
  function ParseInt(s: string): (r: Option<int>)
    ensures forall n: nat :: s == NatToString(n) ==> r == Some(n)
    ensures r.Some? && r.value < 0 ==> |TrimStart(s)| > 0 && TrimStart(s)[0] == '-'
  {
    var r := Signed(TrimStart(s));
    assert forall n: nat | s == NatToString(n) :: r == Some(n) by {
      forall n: nat | s == NatToString(n) ensures r == Some(n) {
        assert NatToString(n) + [] == NatToString(n);
        SignedNatThen(n, []);
      }
    }
    r
  }

  /** Reading back the decimal rendering of a number gives the number. */
  lemma {:induction false} DigitsValueOfNatToString(n: nat)
    ensures forall i :: 0 <= i < |NatToString(n)| ==> DigitIn(NatToString(n)[i], 10).Some?
    ensures DigitsValue(NatToString(n), 10) == n
  {
    var s := NatToString(n);
    if n >= 10 {
      DigitsValueOfNatToString(n / 10);
      assert s[..|s| - 1] == NatToString(n / 10);
    }
  }

  /** The digit prefix stops where the digits do. */
  lemma {:induction false} DigitPrefixOfDigits(d: string, rest: string, radix: nat)
    requires forall i :: 0 <= i < |d| ==> DigitIn(d[i], radix).Some?
    requires rest == [] || DigitIn(rest[0], radix).None?
    ensures DigitPrefix(d + rest, radix) == d
  {
    if |d| > 0 {
      DigitPrefixOfDigits(d[1..], rest, radix);
      assert (d + rest)[1..] == d[1..] + rest;
    }
  }

  /** A string of decimal digits only. */
  predicate IsDigits(d: string) {
    forall i :: 0 <= i < |d| ==> IsDecimalDigit(d[i])
  }

  /** The value of a string of decimal digits, leading zeros allowed. */
  function DecimalValue(d: string): nat
    requires IsDigits(d)
  {
    DigitsValue(d, 10)
  }

  /** `parseInt` reads a leading run of decimal digits as its value when
      what follows is not a digit, nor the `x` of a `0x` prefix after a
      lone `0`. */
  lemma {:induction false} MagnitudeOfDigitsThen(d: string, rest: string)
    requires |d| >= 1 && IsDigits(d)
    requires rest == [] || (!IsDecimalDigit(rest[0]) && (d == "0" ==> rest[0] != 'x' && rest[0] != 'X'))
    ensures Magnitude(d + rest) == Some(DecimalValue(d))
  {
    var u := d + rest;
    assert !(|u| >= 2 && u[0] == '0' && (u[1] == 'x' || u[1] == 'X')) by {
      if |u| >= 2 && u[0] == '0' {
        if |d| == 1 {
          assert d == "0" && u[1] == rest[0];
        } else {
          assert u[1] == d[1] && IsDecimalDigit(d[1]);
        }
      }
    }
    assert rest == [] || DigitIn(rest[0], 10).None?;
    DigitPrefixOfDigits(d, rest, 10);
  }

  /** The same reading, after the (absent) leading white space is skipped. */
  lemma {:induction false} SignedDigitsThen(d: string, rest: string)
    requires |d| >= 1 && IsDigits(d)
    requires rest == [] || (!IsDecimalDigit(rest[0]) && (d == "0" ==> rest[0] != 'x' && rest[0] != 'X'))
    ensures Signed(TrimStart(d + rest)) == Some(DecimalValue(d))
  {
    var s := d + rest;
    assert s[0] == d[0];
    DigitIsPlain(s[0]);
    assert TrimStart(s) == s;
    assert Signed(s) == Magnitude(s);
    MagnitudeOfDigitsThen(d, rest);
  }

  lemma {:induction false} ParseIntDigitsThen(d: string, rest: string)
    requires |d| >= 1 && IsDigits(d)
    requires rest == [] || (!IsDecimalDigit(rest[0]) && (d == "0" ==> rest[0] != 'x' && rest[0] != 'X'))
    ensures ParseInt(d + rest) == Some(DecimalValue(d))
  {
    SignedDigitsThen(d, rest);
  }

  /** `parseInt` reads a decimal rendering back when what follows is not a
      digit (nor, after `0`, the `x` of a `0x` prefix). */
  lemma {:induction false} ParseIntNatThen(n: nat, rest: string)
    requires rest == [] || (!IsDecimalDigit(rest[0]) && (n == 0 ==> rest[0] != 'x' && rest[0] != 'X'))
    ensures ParseInt(NatToString(n) + rest) == Some(n)
  {
    SignedNatThen(n, rest);
  }

  lemma {:induction false} SignedNatThen(n: nat, rest: string)
    requires rest == [] || (!IsDecimalDigit(rest[0]) && (n == 0 ==> rest[0] != 'x' && rest[0] != 'X'))
    ensures Signed(TrimStart(NatToString(n) + rest)) == Some(n)
  {
    var d := NatToString(n);
    DigitsValueOfNatToString(n);
    if d == "0" {
      assert DigitsValue(d, 10) == 0;
    }
    SignedDigitsThen(d, rest);
  }

  // ------------------------------------------------- thousands separators

  function Pow10(k: nat): (r: nat)
    ensures r >= 1
  {
    if k == 0 then 1 else 10 * Pow10(k - 1)
  }

  /** The digit groups of a number written with separators, as in
      `350.000`: at least one group, and no group empty. */
  predicate DigitGroups(ds: seq<string>) {
    |ds| >= 1 && forall i :: 0 <= i < |ds| ==> |ds[i]| >= 1 && IsDigits(ds[i])
  }

  /** The number the groups write: each group shifts what comes before it
      left by its own width. */
  function GroupedValue(ds: seq<string>): nat
    requires forall i :: 0 <= i < |ds| ==> IsDigits(ds[i])
  {
    if |ds| == 0 then 0
    else GroupedValue(ds[..|ds| - 1]) * Pow10(|ds[|ds| - 1]|) + DecimalValue(ds[|ds| - 1])
  }

  /** Writing digits after others shifts the value of the first ones. */
  lemma {:induction false} DecimalValueAppend(a: string, b: string)
    requires IsDigits(a) && IsDigits(b)
    ensures IsDigits(a + b)
    ensures DecimalValue(a + b) == DecimalValue(a) * Pow10(|b|) + DecimalValue(b)
    decreases |b|
  {
    if |b| == 0 {
      assert a + b == a;
    } else {
      var b' := b[..|b| - 1];
      DecimalValueAppend(a, b');
      assert (a + b)[..|a + b| - 1] == a + b';
      var x := DecimalValue(a);
      calc {
        DecimalValue(a + b);
        DecimalValue(a + b') * 10 + DigitIn(b[|b| - 1], 10).value;
        (x * Pow10(|b'|) + DecimalValue(b')) * 10 + DigitIn(b[|b| - 1], 10).value;
        x * (Pow10(|b'|) * 10) + (DecimalValue(b') * 10 + DigitIn(b[|b| - 1], 10).value);
      }
    }
  }

  /** Every character of grouped digits joined by `.` is a digit or the
      separator, and the text starts and ends with a digit. */
  lemma {:induction false} JoinedGroupsChars(ds: seq<string>, j: string)
    requires DigitGroups(ds) && j == Join(ds, '.')
    ensures |j| >= 1 && IsDecimalDigit(j[0]) && IsDecimalDigit(j[|j| - 1])
    ensures forall k :: 0 <= k < |j| ==> IsDecimalDigit(j[k]) || j[k] == '.'
    decreases |ds|
  {
    if |ds| > 1 {
      var t := Join(ds[1..], '.');
      JoinedGroupsChars(ds[1..], t);
      assert j == ds[0] + ['.'] + t;
      forall k | 0 <= k < |j| ensures IsDecimalDigit(j[k]) || j[k] == '.' {
        if k > |ds[0]| { assert j[k] == t[k - |ds[0]| - 1]; }
      }
      assert j[|j| - 1] == t[|t| - 1];
    }
  }

  /** Removing every separator leaves the digits of the number the groups
      write. */
  lemma {:induction false} GroupsWithoutSeparators(ds: seq<string>, j: string)
    requires DigitGroups(ds) && j == Join(ds, '.')
    ensures |RemoveAll(j, '.')| >= 1 && IsDigits(RemoveAll(j, '.'))
    ensures DecimalValue(RemoveAll(j, '.')) == GroupedValue(ds)
    decreases |ds|
  {
    var last := ds[|ds| - 1];
    DigitsHaveNoDot(last);
    if |ds| == 1 {
      RemoveAllAbsent(last, '.');
      assert ds[..0] == [];
    } else {
      var init := ds[..|ds| - 1];
      var ji := Join(init, '.');
      assert ds == init + [last];
      JoinAppend(init, [last], '.');
      GroupsWithoutSeparators(init, ji);
      RemoveSeparatorBefore(ji, last);
      DecimalValueAppend(RemoveAll(ji, '.'), last);
    }
  }

  lemma {:induction false} DigitsHaveNoDot(d: string)
    requires IsDigits(d)
    ensures '.' !in d
  {
    forall k | 0 <= k < |d| ensures d[k] != '.' { assert IsDecimalDigit(d[k]); }
  }

  lemma {:induction false} RemoveSeparatorBefore(a: string, b: string)
    requires '.' !in b
    ensures RemoveAll(a + ['.'] + b, '.') == RemoveAll(a, '.') + b
  {
    var a' := a + ['.'];
    assert a + ['.'] + b == a' + b;
    RemoveAllAppend(a', b, '.');
    RemoveAllAppend(a, ['.'], '.');
    RemoveOnlyDot();
    RemoveAllAbsent(b, '.');
    assert RemoveAll(a, '.') + [] == RemoveAll(a, '.');
  }

  lemma {:induction false} RemoveOnlyDot()
    ensures RemoveAll(['.'], '.') == []
  {
    assert ['.'][1..] == [];
  }

  /** A digit is neither white space nor a sign. */
  lemma DigitIsPlain(c: char)
    requires IsDecimalDigit(c)
    ensures !IsJsWhitespace(c) && c != '-' && c != '+'
  {
  }

  /** Removing a character distributes over concatenation. */
  lemma {:induction false} RemoveAllAppend(a: string, b: string, c: char)
    ensures RemoveAll(a + b, c) == RemoveAll(a, c) + RemoveAll(b, c)
  {
    if |a| > 0 {
      RemoveAllAppend(a[1..], b, c);
      assert (a + b)[1..] == a[1..] + b;
    } else {
      assert a + b == b;
    }
  }

  lemma {:induction false} RemoveAllAbsent(a: string, c: char)
    requires c !in a
    ensures RemoveAll(a, c) == a
  {
    if |a| > 0 {
      RemoveAllAbsent(a[1..], c);
      assert [a[0]] + a[1..] == a;
    }
  }
}

=== FILE: types.dfy ===
/** The record shapes of the scraper (types/types.ts): a listing is a JavaScript
    object, modelled as a map from field name to a JSON-like value, so that
    `delete`, spread and `Object.keys` have direct counterparts. */
module Types {

  /** A value that may be absent. */
  datatype Option<+T> = None | Some(value: T)

  /** The outcome of a JavaScript call that either returns or throws. */
  datatype Outcome<+T> = Returned(value: T) | Throws

  /** A JavaScript number. Floating-point values are kept opaque: only
      equality is observed, and `NaN` equals itself under lodash `isEqual`. */
  datatype Number = Finite(r: real) | NaN

  /** The values a listing field can hold. `Point` is the
      `{ latitude, longitude }` object of `coordinates`. */
  datatype Value =
    | Undefined
    | Null
    | Text(s: string)
    | Num(n: Number)
    | Point(latitude: Number, longitude: Number)

  /** A listing record: field name to value. */
  type Listing = map<string, Value>

  /** Reading `listing[key]`: `undefined` for a key the object does not have. */
  function Get(l: Listing, key: string): (v: Value)
    ensures key !in l ==> v == Undefined
    ensures key in l ==> v == l[key]
  {
    if key in l then l[key] else Undefined
  }

  /** `listing.id` */
  function IdOf(l: Listing): Value {
    Get(l, "id")
  }

  /** JavaScript falsiness, as `!listing.coordinates` tests it. */
  predicate Falsy(v: Value) {
    match v
    case Undefined => true
    case Null => true
    case Text(s) => s == ""
    case Num(n) => n == NaN || n == Finite(0.0)
    case Point(_, _) => false
  }

  /** The ids of a list of listings, position by position. */
  function Ids(ls: seq<Listing>): (r: seq<Value>)
    ensures |r| == |ls|
    ensures forall i :: 0 <= i < |ls| ==> r[i] == IdOf(ls[i])
  {
    seq(|ls|, i requires 0 <= i < |ls| => IdOf(ls[i]))
  }

  lemma IdsAppend(a: seq<Listing>, b: seq<Listing>)
    ensures Ids(a + b) == Ids(a) + Ids(b)
  {
    assert forall i :: 0 <= i < |a + b| ==> Ids(a + b)[i] == (Ids(a) + Ids(b))[i];
  }

  /** `xs.indexOf(x)`: the first position holding `x`, or -1. */
  function PositionOf<T(==)>(xs: seq<T>, x: T): (r: int)
    ensures r == -1 <==> x !in xs
    ensures r != -1 ==> 0 <= r < |xs| && xs[r] == x && forall j :: 0 <= j < r ==> xs[j] != x
    decreases |xs|
  {
    if xs == [] then -1
    else if xs[0] == x then 0
    else
      var r := PositionOf(xs[1..], x);
      if r == -1 then -1 else r + 1
  }

  /** No element occurs twice. */
  predicate Distinct<T(==)>(s: seq<T>) {
    forall i, j :: 0 <= i < j < |s| ==> s[i] != s[j]
  }

  /** The fields derived by enrichment (plus MongoDB's internal `_id`), which
      the reconciliation never compares. */
  const DerivedFields: set<string> := {"_id", "coordinates", "elevation"}

  /** The stored record with the derived fields deleted (a spread copy). */
  function Strip(l: Listing): (r: Listing)
    ensures r.Keys == l.Keys - DerivedFields
    ensures forall k :: k in r ==> r[k] == l[k]
  {
    l - DerivedFields
  }

  /** `{ ...listing, [key]: v }` */
  function With(l: Listing, key: string, v: Value): (r: Listing)
    ensures r.Keys == l.Keys + {key}
    ensures Get(r, key) == v
    ensures forall k :: k != key ==> Get(r, k) == Get(l, k)
  {
    l[key := v]
  }

  /** `xs.map(f)` where `f` may throw: the first throw propagates. */
  function TryMap<A, B>(xs: seq<A>, f: A -> Outcome<B>): (r: Outcome<seq<B>>)
    ensures r.Throws? <==> exists i :: 0 <= i < |xs| && f(xs[i]).Throws?
    ensures r.Returned? ==> |r.value| == |xs|
    ensures r.Returned? ==> forall i :: 0 <= i < |xs| ==> r.value[i] == f(xs[i]).value
    decreases |xs|
  {
    if xs == [] then Returned([])
    else
      var first := f(xs[0]);
      var rest := TryMap(xs[1..], f);
      assert forall i :: 1 <= i < |xs| ==> xs[i] == xs[1..][i - 1];
      if first.Throws? || rest.Throws? then Throws
      else Returned([first.value] + rest.value)
  }

  /** Regrouping a concatenation; stated once so that proofs about long
      concatenations need not rediscover it. */
  lemma AppendAssoc<X>(a: seq<X>, b: seq<X>, c: seq<X>)
    ensures a + b + c == a + (b + c)
  {
  }
}

=== FILE: update.dfy ===
/** The update jobs of index.ts. `runUpdate` reconciles a fresh crawl with
    the saved listings: new listings are enriched and added, updated ones
    replace the saved record (enriched again only when their address
    changed), and listings that disappeared are removed.
    `addMissingCoordinatesToSavedListings` enriches the saved listings that
    have no coordinates. Files, the crawl and the enrichment requests are
    parameters. */
module Update {
  import opened Types
  import opened Snapshots
  import opened Mongo
  import opened GeoJson

  /** Enriching listings: `getListingDetails` followed by
      `getElevationForListingsWithCoordinates`. `Throws` stands for a
      rejected promise. */
  type Enrich = seq<Listing> -> Outcome<seq<Listing>>

  /** An enrichment that hands back one listing per listing, with the same
      id, in the same order (what `getListingDetails` does, and what the
      elevation step does when every answer fits its chunk). */
  ghost predicate KeepsIds(enrich: Enrich) {
    forall ls :: enrich(ls).Returned? ==> Ids(enrich(ls).value) == Ids(ls)
  }

  lemma IdsCover(ls: seq<Listing>)
    ensures forall l :: l in ls ==> IdOf(l) in Ids(ls)
    ensures forall k :: k in Ids(ls) ==> exists l :: l in ls && IdOf(l) == k
  {
    forall l | l in ls ensures IdOf(l) in Ids(ls) {
      var i :| 0 <= i < |ls| && ls[i] == l;
      assert Ids(ls)[i] == IdOf(l);
    }
    forall k | k in Ids(ls) ensures exists l :: l in ls && IdOf(l) == k {
      var i :| 0 <= i < |ls| && Ids(ls)[i] == k;
      assert ls[i] in ls;
    }
  }

  // ------------------------------------------------------ changed fields

  /** `changedFields`: the keys of the latest listing whose value is not
      deep-equal to the saved one's. Keys only the saved record has are not
      looked at. */
  function ChangedFields(latest: Listing, saved: Listing): (r: set<string>)
    ensures forall k :: k in r ==> k in latest
  {
    set k | k in latest && Get(latest, k) != Get(saved, k)
  }

  /** A listing counts as updated while no field of it changed only when
      the saved record has a field the latest one lacks, outside the derived
      fields; when the latest one carries a derived field; or when it holds
      `undefined` under a key the saved record lacks (deep equality counts
      keys). */
  lemma UpdateWithoutChangedFields(saved: Listing, latest: Listing)
    requires Differs(saved, latest) && ChangedFields(latest, saved) == {}
    ensures exists k ::
      || (k in Strip(saved) && k !in latest)
      || (k in latest && k in DerivedFields)
      || (k in latest && k !in saved && latest[k] == Undefined)
  {
    if !exists k ::
      || (k in Strip(saved) && k !in latest)
      || (k in latest && k in DerivedFields)
      || (k in latest && k !in saved && latest[k] == Undefined)
    {
      forall k | k in latest ensures k in Strip(saved) && Strip(saved)[k] == latest[k] {
        assert k !in ChangedFields(latest, saved);
      }
    }
  }

  /** Whether an updated listing needs new coordinates: its postal code
      line or its street is among the changed fields, that is, present and
      different from the saved one. */
  function NeedsGeocoding(latest: Listing, saved: Listing): (r: bool)
    ensures r <==>
      ("postalCodeCity" in latest && Get(latest, "postalCodeCity") != Get(saved, "postalCodeCity"))
      || ("streetName" in latest && Get(latest, "streetName") != Get(saved, "streetName"))
  {
    var changed := ChangedFields(latest, saved);
    "postalCodeCity" in changed || "streetName" in changed
  }

  /** `toUpdateWithCoordinates`: the updated listings, in order, whose
      address changed against the saved record of the same id. With
      distinct ids, the selected listings keep the order they had in
      `toUpdate`. */
  function Selection(toUpdate: seq<Listing>, saved: map<Value, Listing>): (r: seq<Listing>)
    requires forall l :: l in toUpdate ==> IdOf(l) in saved
    ensures forall l :: l in r <==> l in toUpdate && NeedsGeocoding(l, saved[IdOf(l)])
    ensures |r| <= |toUpdate|
    ensures Distinct(Ids(toUpdate)) ==> forall i, j :: 0 <= i < j < |r| ==>
      PositionOf(Ids(toUpdate), Ids(r)[i]) < PositionOf(Ids(toUpdate), Ids(r)[j])
    decreases |toUpdate|
  {
    if toUpdate == [] then []
    else
      var rest := Selection(toUpdate[1..], saved);
      assert forall l :: l in toUpdate <==> l == toUpdate[0] || l in toUpdate[1..];
      var keep := NeedsGeocoding(toUpdate[0], saved[IdOf(toUpdate[0])]);
      var r := if keep then [toUpdate[0]] + rest else rest;
      SelectionStep(toUpdate, rest, r, keep);
      r
  }

  /** One step of `Selection`: keeping or dropping the head keeps the
      selected listings in their order in `toUpdate`. */
  lemma {:induction false} SelectionStep(toUpdate: seq<Listing>, rest: seq<Listing>, r: seq<Listing>, keep: bool)
    requires |toUpdate| > 0
    requires forall l :: l in rest ==> l in toUpdate[1..]
    requires Distinct(Ids(toUpdate[1..])) ==> forall i, j :: 0 <= i < j < |rest| ==>
      PositionOf(Ids(toUpdate[1..]), Ids(rest)[i]) < PositionOf(Ids(toUpdate[1..]), Ids(rest)[j])
    requires r == if keep then [toUpdate[0]] + rest else rest
    ensures Distinct(Ids(toUpdate)) ==> forall i, j :: 0 <= i < j < |r| ==>
      PositionOf(Ids(toUpdate), Ids(r)[i]) < PositionOf(Ids(toUpdate), Ids(r)[j])
  {
    if Distinct(Ids(toUpdate)) {
      var ids := Ids(toUpdate);
      assert Ids(toUpdate[1..]) == ids[1..];
      assert Ids(r) == if keep then [ids[0]] + Ids(rest) else Ids(rest);
      forall x | x in Ids(rest) ensures x in ids[1..] {
        var m :| 0 <= m < |rest| && Ids(rest)[m] == x;
        assert rest[m] in toUpdate[1..];
      }
      assert Distinct(ids[1..]) by {
        forall i, j | 0 <= i < j < |ids[1..]| ensures ids[1..][i] != ids[1..][j] {
          assert ids[1..][i] == ids[i + 1] && ids[1..][j] == ids[j + 1];
        }
      }
      TailOrder(ids, Ids(rest));
      if keep {
        ConsOrder(ids, Ids(rest));
      }
    }
  }

  /** The order step of `Selection`, on ids: with distinct ids, ids from
      the tail in tail order are in order in the whole list too... */
  lemma {:induction false} TailOrder(ids: seq<Value>, rest: seq<Value>)
    requires |ids| > 0 && Distinct(ids)
    requires forall x :: x in rest ==> x in ids[1..]
    requires forall i, j :: 0 <= i < j < |rest| ==> PositionOf(ids[1..], rest[i]) < PositionOf(ids[1..], rest[j])
    ensures forall i, j :: 0 <= i < j < |rest| ==> PositionOf(ids, rest[i]) < PositionOf(ids, rest[j])
  {
    forall i, j | 0 <= i < j < |rest| ensures PositionOf(ids, rest[i]) < PositionOf(ids, rest[j]) {
      assert rest[i] in rest && rest[j] in rest;
      TailPosition(ids, rest[i]);
      TailPosition(ids, rest[j]);
    }
  }

  /** ... and so they stay when the head is put in front of them. */
  lemma {:induction false} ConsOrder(ids: seq<Value>, rest: seq<Value>)
    requires |ids| > 0 && Distinct(ids)
    requires forall x :: x in rest ==> x in ids[1..]
    requires forall i, j :: 0 <= i < j < |rest| ==> PositionOf(ids, rest[i]) < PositionOf(ids, rest[j])
    ensures var r := [ids[0]] + rest;
      forall i, j :: 0 <= i < j < |r| ==> PositionOf(ids, r[i]) < PositionOf(ids, r[j])
  {
    var r := [ids[0]] + rest;
    forall i, j | 0 <= i < j < |r| ensures PositionOf(ids, r[i]) < PositionOf(ids, r[j]) {
      assert r[j] == rest[j - 1] && rest[j - 1] in rest;
      if i == 0 {
        HeadFirst(ids, rest[j - 1]);
      } else {
        assert r[i] == rest[i - 1];
      }
    }
  }

  /** With distinct ids, an id past the head sits one place further in the
      whole list than in its tail. */
  lemma TailPosition(ids: seq<Value>, x: Value)
    requires |ids| > 0 && Distinct(ids) && x in ids[1..]
    ensures PositionOf(ids, x) == PositionOf(ids[1..], x) + 1
  {
    var m :| 0 <= m < |ids[1..]| && ids[1..][m] == x;
    assert ids[m + 1] == x && ids[0] != ids[m + 1];
  }

  lemma HeadFirst(ids: seq<Value>, x: Value)
    requires |ids| > 0 && Distinct(ids) && x in ids[1..]
    ensures PositionOf(ids, ids[0]) < PositionOf(ids, x)
  {
    TailPosition(ids, x);
  }

  // ---------------------------------------------------------- merge back

  /** `toUpdate[toUpdate.findIndex(l => l.id === listing.id)] = listing`:
      the first listing with the same id is replaced. With no such listing
      the index is -1 and the assignment adds a property the array's
      iteration never visits, so nothing changes. */
  function MergeOne(toUpdate: seq<Listing>, listing: Listing): (r: seq<Listing>)
    ensures Ids(r) == Ids(toUpdate)
    ensures IdOf(listing) !in Ids(toUpdate) ==> r == toUpdate
  {
    var index := PositionOf(Ids(toUpdate), IdOf(listing));
    if index == -1 then toUpdate
    else
      var r := toUpdate[index := listing];
      assert forall i :: 0 <= i < |r| ==> Ids(r)[i] == Ids(toUpdate)[i];
      r
  }

  /** What merging `relocated` back into `toUpdate` gives at each position:
      the first listing with an id that was relocated is replaced by the
      last relocated listing with that id; every other listing stays. */
  ghost predicate MergeSpec(toUpdate: seq<Listing>, relocated: seq<Listing>, r: seq<Listing>) {
    && Ids(r) == Ids(toUpdate)
    && forall i :: 0 <= i < |toUpdate| ==>
      r[i] == (if IdOf(toUpdate[i]) in Ids(relocated) && PositionOf(Ids(toUpdate), IdOf(toUpdate[i])) == i
               then relocated[LastIndex(relocated, IdOf(toUpdate[i]))] else toUpdate[i])
  }

  lemma MergeStep(toUpdate: seq<Listing>, relocated: seq<Listing>, p: seq<Listing>)
    requires |relocated| > 0 && MergeSpec(toUpdate, relocated[..|relocated| - 1], p)
    ensures MergeSpec(toUpdate, relocated, MergeOne(p, relocated[|relocated| - 1]))
  {
    var init := relocated[..|relocated| - 1];
    var l := relocated[|relocated| - 1];
    var r := MergeOne(p, l);
    IdsOfInit(relocated);
    var index := PositionOf(Ids(toUpdate), IdOf(l));
    forall i | 0 <= i < |toUpdate|
      ensures r[i] == (if IdOf(toUpdate[i]) in Ids(relocated) && PositionOf(Ids(toUpdate), IdOf(toUpdate[i])) == i
                       then relocated[LastIndex(relocated, IdOf(toUpdate[i]))] else toUpdate[i])
    {
      var k := IdOf(toUpdate[i]);
      assert Ids(toUpdate)[i] == k;
      if k == IdOf(l) {
        assert LastIndex(relocated, k) == |relocated| - 1;
      } else {
        assert index != i;
        if k in Ids(init) {
          LastIndexOfInit(relocated, k);
        }
      }
    }
  }

  /** `relocated.forEach(...)` over `toUpdate`. */
  function MergeBack(toUpdate: seq<Listing>, relocated: seq<Listing>): (r: seq<Listing>)
    ensures MergeSpec(toUpdate, relocated, r)
    decreases |relocated|
  {
    if relocated == [] then toUpdate
    else
      var p := MergeBack(toUpdate, relocated[..|relocated| - 1]);
      MergeStep(toUpdate, relocated, p);
      MergeOne(p, relocated[|relocated| - 1])
  }

  /** With distinct ids, an updated listing that was relocated is replaced
      by its relocated version, and one that was not stays as it is. */
  lemma MergeBackDistinct(toUpdate: seq<Listing>, relocated: seq<Listing>, i: nat)
    requires Distinct(Ids(toUpdate)) && i < |toUpdate|
    ensures IdOf(toUpdate[i]) in Ids(relocated) ==>
      MergeBack(toUpdate, relocated)[i] == relocated[LastIndex(relocated, IdOf(toUpdate[i]))]
    ensures IdOf(toUpdate[i]) !in Ids(relocated) ==> MergeBack(toUpdate, relocated)[i] == toUpdate[i]
  {
    var k := IdOf(toUpdate[i]);
    assert Ids(toUpdate)[i] == k;
    var at := PositionOf(Ids(toUpdate), k);
    assert at == i;
  }

  // ------------------------------------------------------------ runUpdate

  /** The saved snapshot after `runUpdate`'s steps: set the enriched
      inserts, set the updated listings (the address changes enriched and
      merged back), delete the listings that disappeared. */
  function UpdatedSnapshot(saved: Snapshot, latest: Snapshot, enrich: Enrich): (r: Outcome<Snapshot>)
    requires saved.Valid() && latest.Valid()
    ensures r.Returned? ==> r.value.Valid()
    ensures r.Returned? <==>
      && enrich(GetChanges(latest, saved).toInsert).Returned?
      && enrich(ToRelocate(saved, latest, enrich(GetChanges(latest, saved).toInsert).value)).Returned?
  {
    var c := GetChanges(latest, saved);
    match enrich(c.toInsert)
    case Throws => Throws
    case Returned(inserted) =>
      var withInserts := PutAll(saved, inserted);
      match enrich(ToRelocate(saved, latest, inserted))
      case Throws => Throws
      case Returned(relocated) =>
        var withUpdates := PutAll(withInserts, MergeBack(c.toUpdate, relocated));
        Returned(RemoveAll(withUpdates, Ids(c.toDelete)))
  }

  /** The listings `runUpdate` enriches a second time: the updates whose
      address changed against the records once the inserts are set. */
  function ToRelocate(saved: Snapshot, latest: Snapshot, inserted: seq<Listing>): (r: seq<Listing>)
    requires saved.Valid() && latest.Valid()
    ensures forall l :: l in r ==> l in GetChanges(latest, saved).toUpdate
  {
    var c := GetChanges(latest, saved);
    IdsCover(c.toUpdate);
    Selection(c.toUpdate, PutAll(saved, inserted).byId)
  }

  /** With an enrichment that keeps ids the update returns iff enriching
      the inserts returns and enriching the updates whose address changed
      against the saved records returns. */
  lemma UpdateOutcome(saved: Snapshot, latest: Snapshot, enrich: Enrich)
    requires saved.Valid() && latest.Valid() && KeepsIds(enrich)
    ensures UpdatedSnapshot(saved, latest, enrich).Returned? <==>
      enrich(GetChanges(latest, saved).toInsert).Returned? && enrich(AddressChanged(saved, latest)).Returned?
  {
    var c := GetChanges(latest, saved);
    if enrich(c.toInsert).Returned? {
      var inserted := enrich(c.toInsert).value;
      SelectionAgainstSaved(saved, latest, enrich, inserted, PutAll(saved, inserted));
      assert ToRelocate(saved, latest, inserted) == AddressChanged(saved, latest);
    }
  }

  /** A new listing is saved as the enrichment returned it: the last
      enriched listing with its id. */
  lemma InsertedRecord(saved: Snapshot, latest: Snapshot, enrich: Enrich, k: Value)
    requires saved.Valid() && latest.Valid() && KeepsIds(enrich)
    requires UpdatedSnapshot(saved, latest, enrich).Returned?
    requires k in Ids(GetChanges(latest, saved).toInsert)
    ensures enrich(GetChanges(latest, saved).toInsert).Returned?
    ensures k in UpdatedSnapshot(saved, latest, enrich).value.byId
    ensures var inserted := enrich(GetChanges(latest, saved).toInsert).value;
      && k in Ids(inserted)
      && UpdatedSnapshot(saved, latest, enrich).value.byId[k] == inserted[LastIndex(inserted, k)]
  {
    var r := UpdatedSnapshot(saved, latest, enrich).value;
    var inserted, withInserts, selection, relocated, merged, withUpdates := UnfoldSteps(saved, latest, enrich);
    var c := GetChanges(latest, saved);
    ChangesPartition(latest, saved, k);
    assert Ids(inserted) == Ids(c.toInsert);
    assert Ids(merged) == Ids(c.toUpdate);
    assert k !in Ids(c.toDelete);
  }

  /** The steps of `UpdatedSnapshot` when both enrichments return. */
  ghost predicate Steps(saved: Snapshot, latest: Snapshot, enrich: Enrich,
                        inserted: seq<Listing>, withInserts: Snapshot, selection: seq<Listing>,
                        relocated: seq<Listing>, merged: seq<Listing>, withUpdates: Snapshot, r: Snapshot)
    requires saved.Valid() && latest.Valid()
  {
    var c := GetChanges(latest, saved);
    && enrich(c.toInsert) == Returned(inserted)
    && withInserts == PutAll(saved, inserted)
    && selection == ToRelocate(saved, latest, inserted)
    && enrich(selection) == Returned(relocated)
    && merged == MergeBack(c.toUpdate, relocated)
    && withUpdates == PutAll(withInserts, merged)
    && r == RemoveAll(withUpdates, Ids(c.toDelete))
  }

  lemma UnfoldSteps(saved: Snapshot, latest: Snapshot, enrich: Enrich)
    returns (inserted: seq<Listing>, withInserts: Snapshot, selection: seq<Listing>,
             relocated: seq<Listing>, merged: seq<Listing>, withUpdates: Snapshot)
    requires saved.Valid() && latest.Valid() && UpdatedSnapshot(saved, latest, enrich).Returned?
    ensures Steps(saved, latest, enrich, inserted, withInserts, selection, relocated, merged, withUpdates,
                  UpdatedSnapshot(saved, latest, enrich).value)
  {
    var c := GetChanges(latest, saved);
    inserted := enrich(c.toInsert).value;
    withInserts := PutAll(saved, inserted);
    selection := ToRelocate(saved, latest, inserted);
    relocated := enrich(selection).value;
    merged := MergeBack(c.toUpdate, relocated);
    withUpdates := PutAll(withInserts, merged);
    assert Steps(saved, latest, enrich, inserted, withInserts, selection, relocated, merged, withUpdates,
                 UpdatedSnapshot(saved, latest, enrich).value);
  }

  /** With an enrichment that keeps ids, the saved snapshot ends up with
      exactly the ids of the latest crawl. */
  lemma UpdateKeepsLatestIds(saved: Snapshot, latest: Snapshot, enrich: Enrich)
    requires saved.Valid() && latest.Valid() && KeepsIds(enrich)
    requires UpdatedSnapshot(saved, latest, enrich).Returned?
    ensures forall k :: k in UpdatedSnapshot(saved, latest, enrich).value.byId <==> k in latest.byId
  {
    var r := UpdatedSnapshot(saved, latest, enrich).value;
    var inserted, withInserts, selection, relocated, merged, withUpdates := UnfoldSteps(saved, latest, enrich);
    var c := GetChanges(latest, saved);
    assert Ids(inserted) == Ids(c.toInsert);
    assert Ids(merged) == Ids(c.toUpdate);
    forall k ensures k in r.byId <==> k in latest.byId {
      ChangesPartition(latest, saved, k);
    }
  }

  /** A listing whose crawled record did not change keeps its saved record,
      derived fields included. */
  lemma UnchangedKeepsSaved(saved: Snapshot, latest: Snapshot, enrich: Enrich, k: Value)
    requires saved.Valid() && latest.Valid() && KeepsIds(enrich)
    requires UpdatedSnapshot(saved, latest, enrich).Returned?
    requires Unchanged(latest, saved, k)
    ensures k in UpdatedSnapshot(saved, latest, enrich).value.byId
    ensures UpdatedSnapshot(saved, latest, enrich).value.byId[k] == saved.byId[k]
  {
    var r := UpdatedSnapshot(saved, latest, enrich).value;
    var inserted, withInserts, selection, relocated, merged, withUpdates := UnfoldSteps(saved, latest, enrich);
    var c := GetChanges(latest, saved);
    ChangesPartition(latest, saved, k);
    assert Ids(inserted) == Ids(c.toInsert);
    assert Ids(merged) == Ids(c.toUpdate);
  }

  /** The saved record of an updated listing as `changedFields` sees it: the
      inserts never touch a saved id. */
  lemma SavedRecordOfUpdate(saved: Snapshot, latest: Snapshot, inserted: seq<Listing>, k: Value)
    requires saved.Valid() && latest.Valid()
    requires Ids(inserted) == Ids(GetChanges(latest, saved).toInsert)
    requires k in saved.byId
    ensures k in PutAll(saved, inserted).byId && PutAll(saved, inserted).byId[k] == saved.byId[k]
  {
    ChangesPartition(latest, saved, k);
  }

  /** An updated listing whose address did not change is saved as crawled:
      the saved record, with its coordinates and elevation, is replaced by
      the crawled one without them. */
  lemma UpdateWithoutAddressChange(saved: Snapshot, latest: Snapshot, enrich: Enrich, k: Value)
    requires saved.Valid() && latest.Valid() && KeepsIds(enrich)
    requires UpdatedSnapshot(saved, latest, enrich).Returned?
    requires k in Ids(GetChanges(latest, saved).toUpdate)
    requires !NeedsGeocoding(latest.byId[k], saved.byId[k])
    ensures k in UpdatedSnapshot(saved, latest, enrich).value.byId
    ensures UpdatedSnapshot(saved, latest, enrich).value.byId[k] == latest.byId[k]
  {
    var r := UpdatedSnapshot(saved, latest, enrich).value;
    var inserted, withInserts, selection, relocated, merged, withUpdates := UnfoldSteps(saved, latest, enrich);
    var c := GetChanges(latest, saved);
    ChangesPartition(latest, saved, k);
    SavedRecordOfUpdate(saved, latest, inserted, k);
    IdsCover(selection);
    assert k !in Ids(selection);
    assert Ids(relocated) == Ids(selection);
    var j := LastIndex(merged, k);
    assert Ids(merged)[j] == k;
    MergeBackDistinct(c.toUpdate, relocated, j);
    assert c.toUpdate[j] in c.toUpdate;
  }

  /** A field outside the derived ones whose value differs makes the
      records differ. */
  lemma DiffersOn(saved: Listing, latest: Listing, f: string)
    requires f in latest && f !in DerivedFields && Get(latest, f) != Get(saved, f)
    ensures Differs(saved, latest)
  {
    assert Get(Strip(saved), f) != Get(latest, f);
  }

  lemma PriceSaleDiffers(saved: Listing, latest: Listing)
    requires "priceSale" in latest && Get(latest, "priceSale") != Get(saved, "priceSale")
    ensures Differs(saved, latest)
  {
    assert "priceSale" !in DerivedFields;
    DiffersOn(saved, latest, "priceSale");
  }

  /** Hence a price-only update loses the saved location of a listing. */
  lemma PriceOnlyUpdateDropsCoordinates(saved: Snapshot, latest: Snapshot, enrich: Enrich, k: Value)
    requires saved.Valid() && latest.Valid() && KeepsIds(enrich)
    requires UpdatedSnapshot(saved, latest, enrich).Returned?
    requires k in saved.byId && k in latest.byId
    requires Get(saved.byId[k], "coordinates").Point? && "coordinates" !in latest.byId[k]
    requires "priceSale" in latest.byId[k] && Get(latest.byId[k], "priceSale") != Get(saved.byId[k], "priceSale")
    requires forall f :: f in latest.byId[k] && f != "priceSale" ==> Get(latest.byId[k], f) == Get(saved.byId[k], f)
    ensures k in UpdatedSnapshot(saved, latest, enrich).value.byId
    ensures Get(UpdatedSnapshot(saved, latest, enrich).value.byId[k], "coordinates") == Undefined
  {
    var s, l := saved.byId[k], latest.byId[k];
    PriceSaleDiffers(s, l);
    SameAddress(l, s);
    assert k in Ids(GetChanges(latest, saved).toUpdate);
    UpdateWithoutAddressChange(saved, latest, enrich, k);
  }

  /** A listing that agrees with the saved record on every field but the
      price keeps its address. */
  lemma SameAddress(latest: Listing, saved: Listing)
    requires forall f :: f in latest && f != "priceSale" ==> Get(latest, f) == Get(saved, f)
    ensures !NeedsGeocoding(latest, saved)
  {
  }

  /** The updated listings whose address changed against the saved
      records, in update order. */
  function AddressChanged(saved: Snapshot, latest: Snapshot): (r: seq<Listing>)
    requires saved.Valid() && latest.Valid()
    ensures forall l :: l in r ==> l in GetChanges(latest, saved).toUpdate
    ensures forall l :: l in r ==> IdOf(l) in saved.byId && NeedsGeocoding(l, saved.byId[IdOf(l)])
  {
    var c := GetChanges(latest, saved);
    IdsCover(c.toUpdate);
    Selection(c.toUpdate, saved.byId)
  }

  /** The inserts never touch a saved id, so the updates are selected
      against the saved records. */
  lemma SelectionAgainstSaved(saved: Snapshot, latest: Snapshot, enrich: Enrich, inserted: seq<Listing>, withInserts: Snapshot)
    requires saved.Valid() && latest.Valid()
    requires Ids(inserted) == Ids(GetChanges(latest, saved).toInsert)
    requires withInserts == PutAll(saved, inserted)
    ensures forall l :: l in GetChanges(latest, saved).toUpdate ==> IdOf(l) in withInserts.byId
    ensures forall l :: l in GetChanges(latest, saved).toUpdate ==> IdOf(l) in saved.byId
    ensures Selection(GetChanges(latest, saved).toUpdate, withInserts.byId) == AddressChanged(saved, latest)
  {
    var c := GetChanges(latest, saved);
    IdsCover(c.toUpdate);
    forall k | k in saved.byId ensures withInserts.byId[k] == saved.byId[k] {
      SavedRecordOfUpdate(saved, latest, inserted, k);
    }
    SelectionSameRecords(c.toUpdate, withInserts.byId, saved.byId);
  }

  lemma {:induction false} SelectionSameRecords(toUpdate: seq<Listing>, m1: map<Value, Listing>, m2: map<Value, Listing>)
    requires forall l :: l in toUpdate ==> IdOf(l) in m1 && IdOf(l) in m2 && m1[IdOf(l)] == m2[IdOf(l)]
    ensures Selection(toUpdate, m1) == Selection(toUpdate, m2)
    decreases |toUpdate|
  {
    if toUpdate != [] {
      assert forall l :: l in toUpdate[1..] ==> l in toUpdate;
      SelectionSameRecords(toUpdate[1..], m1, m2);
    }
  }

  /** An updated listing whose address changed is saved in its relocated
      version: the last listing with its id that the enrichment returned. */
  lemma UpdateWithAddressChange(saved: Snapshot, latest: Snapshot, enrich: Enrich, k: Value)
    requires saved.Valid() && latest.Valid() && KeepsIds(enrich)
    requires UpdatedSnapshot(saved, latest, enrich).Returned?
    requires k in Ids(GetChanges(latest, saved).toUpdate)
    requires NeedsGeocoding(latest.byId[k], saved.byId[k])
    ensures enrich(AddressChanged(saved, latest)).Returned?
    ensures k in UpdatedSnapshot(saved, latest, enrich).value.byId
    ensures var enriched := enrich(AddressChanged(saved, latest)).value;
      && k in Ids(enriched)
      && UpdatedSnapshot(saved, latest, enrich).value.byId[k] == enriched[LastIndex(enriched, k)]
  {
    var r := UpdatedSnapshot(saved, latest, enrich).value;
    var inserted, withInserts, selection, relocated, merged, withUpdates := UnfoldSteps(saved, latest, enrich);
    var c := GetChanges(latest, saved);
    SelectionAgainstSaved(saved, latest, enrich, inserted, withInserts);
    IdsCover(c.toUpdate);
    var l :| l in c.toUpdate && IdOf(l) == k;
    assert l == latest.byId[k] && l in selection;
    RelocatedSaved(c.toUpdate, relocated, selection, latest, k);
    assert k in latest.byId && k !in Ids(c.toDelete);
    FinalRecord(withInserts, merged, withUpdates, Ids(c.toDelete), r, k);
  }

  /** A merged listing survives the deletes when its id is not deleted. */
  lemma FinalRecord(withInserts: Snapshot, merged: seq<Listing>, withUpdates: Snapshot, deleted: seq<Value>, r: Snapshot, k: Value)
    requires withInserts.Valid() && withUpdates == PutAll(withInserts, merged)
    requires r == RemoveAll(withUpdates, deleted)
    requires k in Ids(merged) && k !in deleted
    ensures k in r.byId && r.byId[k] == merged[LastIndex(merged, k)]
  {
  }

  /** The step of `UpdateWithAddressChange` inside the merged list. */
  lemma RelocatedSaved(toUpdate: seq<Listing>, relocated: seq<Listing>, selection: seq<Listing>, latest: Snapshot, k: Value)
    requires latest.Valid() && Distinct(Ids(toUpdate))
    requires forall l :: l in toUpdate ==> IdOf(l) in latest.byId && latest.byId[IdOf(l)] == l
    requires k in Ids(toUpdate) && latest.byId[k] in selection
    requires Ids(relocated) == Ids(selection)
    ensures k in Ids(MergeBack(toUpdate, relocated)) && k in Ids(relocated)
    ensures MergeBack(toUpdate, relocated)[LastIndex(MergeBack(toUpdate, relocated), k)]
      == relocated[LastIndex(relocated, k)]
  {
    var merged := MergeBack(toUpdate, relocated);
    IdsCover(selection);
    IdsCover(toUpdate);
    assert k in Ids(relocated);
    var j := LastIndex(merged, k);
    assert Ids(merged)[j] == k;
    MergeBackDistinct(toUpdate, relocated, j);
  }

  /** Without a saved file every crawled listing is enriched and saved, and
      nothing else is. */
  lemma FirstUpdate(latest: Snapshot, enrich: Enrich)
    requires latest.Valid()
    ensures UpdatedSnapshot(Empty(), latest, enrich).Returned? <==>
      enrich(Values(latest)).Returned? && enrich([]).Returned?
    ensures UpdatedSnapshot(Empty(), latest, enrich).Returned? ==>
      UpdatedSnapshot(Empty(), latest, enrich).value == ById(enrich(Values(latest)).value)
  {
    ChangesFromEmpty(latest);
  }

  /** What `runUpdate` writes: the listings file and the feature
      collection. */
  datatype Written = Written(listings: seq<Listing>, features: FeatureCollection)

  /** `runUpdate()`: `savedFile` is the parsed listings file when it
      exists, `crawled` what the crawl returned. The file written holds the
      records of the updated map, one per id. */
  function RunUpdate(savedFile: Option<seq<Listing>>, crawled: seq<Listing>, enrich: Enrich): (r: Outcome<Written>)
    ensures r.Returned? ==> Distinct(Ids(r.value.listings))
    ensures r.Returned? ==> r.value.features == MapListingsToFeatureCollection(r.value.listings)
    ensures r.Returned? <==>
      UpdatedSnapshot(ById(if savedFile.Some? then savedFile.value else []), ById(crawled), enrich).Returned?
    ensures r.Returned? ==>
      ById(r.value.listings).byId ==
      UpdatedSnapshot(ById(if savedFile.Some? then savedFile.value else []), ById(crawled), enrich).value.byId
  {
    var saved := ById(if savedFile.Some? then savedFile.value else []);
    match UpdatedSnapshot(saved, ById(crawled), enrich)
    case Throws => Throws
    case Returned(s) =>
      var listings := Values(s);
      ValuesById(s);
      Returned(Written(listings, MapListingsToFeatureCollection(listings)))
  }

  /** The listings file written holds each crawled id once. */
  lemma RunUpdateWritesCrawledIds(savedFile: Option<seq<Listing>>, crawled: seq<Listing>, enrich: Enrich)
    requires KeepsIds(enrich) && RunUpdate(savedFile, crawled, enrich).Returned?
    ensures forall k :: k in Ids(RunUpdate(savedFile, crawled, enrich).value.listings) <==> k in Ids(crawled)
  {
    var saved := ById(if savedFile.Some? then savedFile.value else []);
    UpdateKeepsLatestIds(saved, ById(crawled), enrich);
  }

  // ------------------------------------------ addMissingCoordinates

  /** `listings.filter(listing => !listing.coordinates)` */
  function WithoutCoordinates(ls: seq<Listing>): (r: seq<Listing>)
    ensures forall l :: l in r <==> l in ls && Falsy(Get(l, "coordinates"))
  {
    if ls == [] then []
    else
      var rest := WithoutCoordinates(ls[1..]);
      assert forall l :: l in ls <==> l == ls[0] || l in ls[1..];
      if Falsy(Get(ls[0], "coordinates")) then [ls[0]] + rest else rest
  }

  /** `addMissingCoordinatesToSavedListings()`: the listings file rewritten
      with the enriched listings set over their saved records. */
  function AddMissingCoordinates(file: seq<Listing>, enrich: Enrich): (r: Outcome<seq<Listing>>)
    ensures r.Throws? <==> enrich(WithoutCoordinates(file)).Throws?
    ensures r.Returned? ==> Distinct(Ids(r.value))
    ensures r.Returned? ==> forall k :: k in Ids(r.value) <==>
      k in Ids(file) || k in Ids(enrich(WithoutCoordinates(file)).value)
  {
    match enrich(WithoutCoordinates(file))
    case Throws => Throws
    case Returned(enriched) => Returned(Values(PutAll(ById(file), enriched)))
  }

  /** With an enrichment that keeps ids, the file keeps its ids, a listing
      whose id has coordinates everywhere keeps its saved record, and the
      others take their enriched version. */
  lemma AddMissingCoordinatesKeepsOthers(file: seq<Listing>, enrich: Enrich, k: Value)
    requires KeepsIds(enrich) && AddMissingCoordinates(file, enrich).Returned?
    requires k in Ids(file)
    ensures var r := ById(AddMissingCoordinates(file, enrich).value);
      && (forall j :: j in Ids(AddMissingCoordinates(file, enrich).value) <==> j in Ids(file))
      && (k !in Ids(WithoutCoordinates(file)) ==> r.byId[k] == file[LastIndex(file, k)])
      && (k in Ids(WithoutCoordinates(file)) ==>
           var enriched := enrich(WithoutCoordinates(file)).value;
           r.byId[k] == enriched[LastIndex(enriched, k)])
  {
    var missing := WithoutCoordinates(file);
    var enriched := enrich(missing).value;
    var s := PutAll(ById(file), enriched);
    var out := Values(s);
    IdsCover(missing);
    IdsCover(file);
    assert Ids(enriched) == Ids(missing);
    forall j | j in Ids(missing) ensures j in Ids(file) { }
    ValuesById(s);
  }

  /** Reading back the values of a snapshot gives the snapshot. */
  lemma ValuesById(s: Snapshot)
    requires s.Valid()
    ensures ById(Values(s)).byId == s.byId
  {
    var vs := Values(s);
    forall k | k in s.byId ensures ById(vs).byId[k] == s.byId[k] {
      var i := LastIndex(vs, k);
      assert Ids(vs)[i] == k && s.order[i] == k;
    }
  }
}

=== FILE: utils.dfy ===
/** The helpers of utils/utils.ts: chunking, the address check, URL-friendly
    names and the split of a page range over worker nodes. */
module Utils {
  import opened Types
  import opened Text

  /** `Math.ceil(n / d)` for a positive divisor. */
  function CeilDiv(n: int, d: int): (r: int)
    requires d > 0
    ensures r * d >= n && (r - 1) * d < n
  {
    -((-n) / d)
  }

  function Min(a: int, b: int): int {
    if a < b then a else b
  }

  // ---------------------------------------------------------------- chunks

  /** The concatenation of a list of lists, `xss.flat()`. */
  function Flatten<T>(xss: seq<seq<T>>): seq<T>
    decreases |xss|
  {
    if xss == [] then [] else xss[0] + Flatten(xss[1..])
  }

  lemma {:induction false} FlattenAppend<T>(a: seq<seq<T>>, b: seq<seq<T>>)
    ensures Flatten(a + b) == Flatten(a) + Flatten(b)
    decreases |a|
  {
    if a == [] {
      assert a + b == b;
    } else {
      assert (a + b)[1..] == a[1..] + b;
      FlattenAppend(a[1..], b);
    }
  }

  /** The sum of the lengths of a list of lists. */
  function TotalLength<T>(xss: seq<seq<T>>): nat
    decreases |xss|
  {
    if xss == [] then 0 else |xss[0]| + TotalLength(xss[1..])
  }

  lemma {:induction false} FlattenLength<T>(xss: seq<seq<T>>)
    ensures |Flatten(xss)| == TotalLength(xss)
    decreases |xss|
  {
    if xss != [] {
      FlattenLength(xss[1..]);
    }
  }

  /** Element j of list i sits after every element of the lists before i. */
  lemma {:induction false} FlattenAt<T>(xss: seq<seq<T>>, i: int, j: int)
    requires 0 <= i < |xss| && 0 <= j < |xss[i]|
    ensures TotalLength(xss[..i]) + j < |Flatten(xss)|
    ensures Flatten(xss)[TotalLength(xss[..i]) + j] == xss[i][j]
    decreases i
  {
    FlattenLength(xss);
    if i == 0 {
      assert xss[..0] == [];
    } else {
      FlattenAt(xss[1..], i - 1, j);
      assert xss[..i][1..] == xss[1..][..i - 1];
      assert TotalLength(xss[..i]) == |xss[0]| + TotalLength(xss[1..][..i - 1]);
    }
  }

  /** An element is in the concatenation iff it is in one of the lists. */
  lemma {:induction false} FlattenContains<T>(xss: seq<seq<T>>, x: T)
    ensures x in Flatten(xss) <==> exists i :: 0 <= i < |xss| && x in xss[i]
    decreases |xss|
  {
    if xss != [] {
      FlattenContains(xss[1..], x);
      if x in Flatten(xss[1..]) {
        var i :| 0 <= i < |xss[1..]| && x in xss[1..][i];
        assert xss[i + 1] == xss[1..][i];
      }
      if exists i :: 0 <= i < |xss| && x in xss[i] {
        var i :| 0 <= i < |xss| && x in xss[i];
        if i > 0 { assert xss[1..][i - 1] == xss[i]; }
      }
    }
  }

  /** Consecutive pieces of `size` elements, the last one possibly shorter:
      what both the `for` loop of `getChunks` and the `splice` loop of the
      elevation lookup produce. */
  function Chunks<T>(xs: seq<T>, size: int): (r: seq<seq<T>>)
    requires size > 0
    ensures Flatten(r) == xs
    ensures forall i :: 0 <= i < |r| ==> 0 < |r[i]| <= size
    ensures forall i :: 0 <= i < |r| - 1 ==> |r[i]| == size
    ensures |r| == CeilDiv(|xs|, size)
    decreases |xs|
  {
    if |xs| == 0 then []
    else if |xs| <= size then
      CeilDivOne(|xs|, size);
      assert Flatten([xs]) == xs + Flatten<T>([]);
      [xs]
    else
      var rest := Chunks(xs[size..], size);
      ConsChunk(xs[..size], rest, size);
      assert xs[..size] + xs[size..] == xs;
      CeilDivStep(|xs|, size);
      [xs[..size]] + rest
  }

  lemma MulMono(a: int, b: int, d: int)
    requires a <= b && d > 0
    ensures a * d <= b * d
  {
    assert b * d - a * d == (b - a) * d;
  }

  /** The ceiling is the only integer with its two bounds. */
  lemma CeilDivUnique(n: int, d: int, r: int)
    requires d > 0 && r * d >= n && (r - 1) * d < n
    ensures CeilDiv(n, d) == r
  {
    var c := CeilDiv(n, d);
    if c < r {
      MulMono(c, r - 1, d);
    } else if c > r {
      MulMono(r, c - 1, d);
    }
  }

  lemma CeilDivOne(n: int, d: int)
    requires 0 < n <= d
    ensures CeilDiv(n, d) == 1
  {
    CeilDivUnique(n, d, 1);
  }

  lemma CeilDivStep(n: int, d: int)
    requires d > 0
    ensures CeilDiv(n, d) == CeilDiv(n - d, d) + 1
  {
    var r := CeilDiv(n - d, d);
    assert (r + 1) * d == r * d + d;
    assert r * d == (r - 1) * d + d;
    CeilDivUnique(n, d, r + 1);
  }

  /** Putting a full piece in front of chunks keeps the chunk properties. */
  lemma ConsChunk<T>(c: seq<T>, rest: seq<seq<T>>, size: int)
    requires |c| == size > 0
    requires forall i :: 0 <= i < |rest| ==> 0 < |rest[i]| <= size
    requires forall i :: 0 <= i < |rest| - 1 ==> |rest[i]| == size
    ensures Flatten([c] + rest) == c + Flatten(rest)
    ensures forall i :: 0 <= i < |[c] + rest| ==> 0 < |([c] + rest)[i]| <= size
    ensures forall i :: 0 <= i < |[c] + rest| - 1 ==> |([c] + rest)[i]| == size
  {
    assert ([c] + rest)[1..] == rest;
    assert forall i :: 1 <= i < |[c] + rest| ==> ([c] + rest)[i] == rest[i - 1];
  }

  /** One turn of the `getChunks` loop: the piece `array.slice(i, i + size)`
      and then the pieces of what follows it. */
  lemma ChunksStep<T>(xs: seq<T>, i: int, size: int)
    requires size > 0 && 0 <= i < |xs|
    ensures var end := Min(i + size, |xs|);
      Chunks(xs[i..], size) == [xs[i..end]] + Chunks(xs[end..], size)
  {
    var end := Min(i + size, |xs|);
    if |xs[i..]| <= size {
      assert xs[end..] == [];
      assert xs[i..end] == xs[i..];
    } else {
      assert xs[i..][..size] == xs[i..end];
      assert xs[i..][size..] == xs[end..];
    }
  }

  /** `getChunks(array, size)`, with its loop. On a non-empty array a size
      that is not positive never ends the loop (on an empty one it ends at
      once). Nothing in the modelled files calls `getChunks`; the elevation
      lookup cuts the same pieces, of the positive size 256, with `splice`.
      So the model takes a positive size. */
  method GetChunks<T>(items: seq<T>, size: int) returns (chunks: seq<seq<T>>)
    requires size > 0
    ensures chunks == Chunks(items, size)
  {
    chunks := [];
    var i := 0;
    while i < |items|
      invariant 0 <= i
      invariant chunks + Chunks(items[Min(i, |items|)..], size) == Chunks(items, size)
      decreases |items| - i
    {
      var end := Min(i + size, |items|);
      ChunksStep(items, i, size);
      AppendAssoc(chunks, [items[i..end]], Chunks(items[end..], size));
      assert Min(i, |items|) == i;
      chunks := chunks + [items[i..end]];
      i := i + size;
      assert Min(i, |items|) == end;
    }
    assert items[|items|..] == [];
    assert chunks + [] == chunks;
  }

  // ------------------------------------------------------- address check

  /** `isValidAddress(listing)`: a non-empty street name and a postal code
      whose first part has length four and second part length two, followed
      by a place. Lengths are JavaScript lengths, in UTF-16 code units.
      `Throws` where the source throws: the postal code line is not a string,
      or its first part has length four and there is no second part. */
  function IsValidAddress(l: Listing): (r: Outcome<bool>)
    ensures Get(l, "streetName") == Text("") ==> r == Returned(false)
    ensures r.Throws? <==>
      && Get(l, "streetName") != Text("")
      && (!Get(l, "postalCodeCity").Text?
          || (var split := Split(Get(l, "postalCodeCity").s, ' ');
              JsLength(split[0]) == 4 && |split| < 2))
    ensures r == Returned(true) <==>
      && Get(l, "streetName") != Text("")
      && Get(l, "postalCodeCity").Text?
      && (var split := Split(Get(l, "postalCodeCity").s, ' ');
          && |split| >= 3 && JsLength(split[0]) == 4 && JsLength(split[1]) == 2
          && Join(split[2..], ' ') != "")
  {
    if Get(l, "streetName") == Text("") then Returned(false)
    else if !Get(l, "postalCodeCity").Text? then Throws
    else
      var split := Split(Get(l, "postalCodeCity").s, ' ');
      if JsLength(split[0]) != 4 then Returned(false)
      else if |split| < 2 then Throws
      else if JsLength(split[1]) != 2 || |split| < 3 then Returned(false)
      else if Join(split[2..], ' ') == "" then Returned(false)
      else Returned(true)
  }

  /** With three parts or more, the place is empty exactly when there are
      three parts and the third is empty (a trailing space). */
  lemma {:induction false} PlaceEmpty(split: seq<string>)
    requires |split| >= 3
    ensures Join(split[2..], ' ') == "" <==> |split| == 3 && split[2] == ""
  {
    if |split| > 3 {
      var rest := split[2..];
      assert |rest| > 1;
      assert |Join(rest, ' ')| > 0 by {
        assert Join(rest, ' ') == rest[0] + [' '] + Join(rest[1..], ' ');
      }
    } else {
      assert split[2..] == [split[2]];
    }
  }

  /** A Dutch address line: a street name and "1234 AB Place" (the place
      may itself contain spaces) passes the check. */
  lemma ValidDutchAddress(l: Listing, digits: string, letters: string, place: string)
    requires Get(l, "streetName").Text? && Get(l, "streetName").s != ""
    requires JsLength(digits) == 4 && JsLength(letters) == 2 && place != ""
    requires ' ' !in digits && ' ' !in letters
    requires Get(l, "postalCodeCity") == Text(digits + " " + letters + " " + place)
    ensures IsValidAddress(l) == Returned(true)
  {
    SplitAtSeparator(letters, place, ' ');
    assert digits + " " + letters + " " + place == digits + [' '] + (letters + [' '] + place);
    SplitAtSeparator(digits, letters + [' '] + place, ' ');
    var split := Split(digits + " " + letters + " " + place, ' ');
    assert split == [digits, letters] + Split(place, ' ');
    assert split[2..] == Split(place, ' ');
  }

  /** `.length` counts UTF-16 code units: a postal code of two digits from
      outside the Basic Multilingual Plane has length four and passes. */
  lemma AstralPostcodeValid(l: Listing)
    requires Get(l, "streetName") == Text("Dorpsstraat 1")
    requires Get(l, "postalCodeCity") == Text("\U{1D7CF}\U{1D7D0} AB Plaats")
    ensures IsValidAddress(l) == Returned(true)
  {
    var digits := "\U{1D7CF}\U{1D7D0}";
    AstralCountsTwice();
    assert JsLength("AB") == 2 by {
      assert "AB"[1..] == "B" && "B"[1..] == "";
    }
    assert "\U{1D7CF}\U{1D7D0} AB Plaats" == digits + " " + "AB" + " " + "Plaats";
    ValidDutchAddress(l, digits, "AB", "Plaats");
  }

  // ---------------------------------------------------- url-friendly names

  /** The characters `createUrlFriendlyString` drops from ASCII text: the
      apostrophe, and the two ASCII characters with the Unicode `Diacritic`
      property, circumflex accent and grave accent. */
  predicate Dropped(c: char) {
    c == '\'' || c == '^' || c == '`'
  }

  predicate IsAscii(s: string) {
    forall i :: 0 <= i < |s| ==> s[i] < '\U{0080}'
  }

  /** `toLowerCase()` on ASCII text. */
  function Lower(s: string): (r: string)
    ensures |r| == |s|
    decreases |s|
  {
    if s == [] then []
    else [if IsUpperAscii(s[0]) then (s[0] as int + 32) as char else s[0]] + Lower(s[1..])
  }

  /** `replaceAll(from, to)` for single characters. */
  function ReplaceChar(s: string, from: char, to: char): (r: string)
    ensures |r| == |s|
    decreases |s|
  {
    if s == [] then [] else [if s[0] == from then to else s[0]] + ReplaceChar(s[1..], from, to)
  }

  /** The stages of `createUrlFriendlyString` as written: lower case,
      spaces to dashes, apostrophes removed, then (NFD changes no ASCII
      character) the diacritic marks removed. */
  function Staged(s: string): string {
    RemoveAll(RemoveAll(RemoveAll(ReplaceChar(Lower(s), ' ', '-'), '\''), '^'), '`')
  }

  /** `createUrlFriendlyString(string)` on ASCII text: it maps each
      character on its own, as `FriendlyChar` says. */
  function UrlFriendly(s: string): (r: string)
    requires IsAscii(s)
    ensures r == PerChar(s)
  {
    StagedPerChar(s);
    Staged(s)
  }

  /** What one input character becomes. */
  function FriendlyChar(c: char): string {
    if Dropped(c) then ""
    else if c == ' ' then "-"
    else if IsUpperAscii(c) then [(c as int + 32) as char]
    else [c]
  }

  /** The reference reading: each character is mapped on its own. */
  function PerChar(s: string): string
    decreases |s|
  {
    if s == [] then [] else FriendlyChar(s[0]) + PerChar(s[1..])
  }

  lemma {:induction false} RemoveAllCons(c: char, s: string, x: char)
    ensures RemoveAll([c] + s, x) == (if c == x then [] else [c]) + RemoveAll(s, x)
  {
    assert ([c] + s)[1..] == s;
  }

  /** The staged definition maps each character on its own. */
  lemma {:induction false} StagedPerChar(s: string)
    requires IsAscii(s)
    ensures Staged(s) == PerChar(s)
    decreases |s|
  {
    if s != [] {
      var c := s[0];
      var t := s[1..];
      assert IsAscii(t) by {
        forall i | 0 <= i < |t| ensures t[i] < '\U{0080}' { assert t[i] == s[i + 1]; }
      }
      StagedPerChar(t);
      var l := if IsUpperAscii(c) then (c as int + 32) as char else c;
      assert Lower(s) == [l] + Lower(t);
      var d := if l == ' ' then '-' else l;
      assert ([l] + Lower(t))[1..] == Lower(t);
      assert ReplaceChar(Lower(s), ' ', '-') == [d] + ReplaceChar(Lower(t), ' ', '-');
      var a := ReplaceChar(Lower(t), ' ', '-');
      RemoveAllCons(d, a, '\'');
      var d1: string := if d == '\'' then [] else [d];
      var a1 := RemoveAll(a, '\'');
      if d1 == [] {
        assert d1 + a1 == a1;
        assert RemoveAll(RemoveAll(d1 + a1, '^'), '`') == RemoveAll(RemoveAll(a1, '^'), '`');
      } else {
        RemoveAllCons(d, a1, '^');
        var d2: string := if d == '^' then [] else [d];
        var a2 := RemoveAll(a1, '^');
        if d2 == [] {
          assert d2 + a2 == a2;
        } else {
          RemoveAllCons(d, a2, '`');
        }
      }
      assert FriendlyChar(c) == (if Dropped(d) then [] else [d]);
    }
  }

  lemma {:induction false} PerCharAppend(a: string, b: string)
    ensures PerChar(a + b) == PerChar(a) + PerChar(b)
    decreases |a|
  {
    if a == [] {
      assert a + b == b;
    } else {
      assert (a + b)[1..] == a[1..] + b;
      PerCharAppend(a[1..], b);
    }
  }

  lemma {:induction false} PerCharClean(s: string)
    ensures forall i :: 0 <= i < |PerChar(s)| ==>
      !IsUpperAscii(PerChar(s)[i]) && PerChar(s)[i] != ' ' && !Dropped(PerChar(s)[i])
    decreases |s|
  {
    if s != [] {
      PerCharClean(s[1..]);
      var h := FriendlyChar(s[0]);
      forall i | 0 <= i < |h + PerChar(s[1..])|
        ensures !IsUpperAscii((h + PerChar(s[1..]))[i]) && (h + PerChar(s[1..]))[i] != ' ' && !Dropped((h + PerChar(s[1..]))[i])
      {
        if i >= |h| { assert (h + PerChar(s[1..]))[i] == PerChar(s[1..])[i - |h|]; }
      }
    }
  }

  /** The result holds no capital, no space, no apostrophe and no ASCII
      diacritic, and a space added at the end becomes a dash. (That every
      space becomes a dash wherever it stands is the contract of
      `UrlFriendly` read through `FriendlyChar(' ') == "-"`.) */
  lemma UrlFriendlyClean(s: string)
    requires IsAscii(s)
    ensures forall i :: 0 <= i < |UrlFriendly(s)| ==>
      !IsUpperAscii(UrlFriendly(s)[i]) && UrlFriendly(s)[i] != ' ' && !Dropped(UrlFriendly(s)[i])
    ensures UrlFriendly(s + " ") == UrlFriendly(s) + "-"
  {
    PerCharClean(s);
    assert IsAscii(s + " ") by {
      forall i | 0 <= i < |s + " "| ensures (s + " ")[i] < '\U{0080}' {
        if i < |s| { assert (s + " ")[i] == s[i]; }
      }
    }
    PerCharAppend(s, " ");
    assert PerChar(" ") == "-" + PerChar([]);
  }

  /** Applying the function to its own output changes nothing. */
  lemma {:induction false} UrlFriendlyIdempotent(s: string)
    requires IsAscii(s)
    ensures IsAscii(UrlFriendly(s)) && UrlFriendly(UrlFriendly(s)) == UrlFriendly(s)
  {
    var r := UrlFriendly(s);
    AsciiPerChar(s);
    PerCharClean(s);
    PerCharFixed(r);
  }

  lemma {:induction false} AsciiPerChar(s: string)
    requires IsAscii(s)
    ensures IsAscii(PerChar(s))
    decreases |s|
  {
    if s != [] {
      var t := s[1..];
      assert IsAscii(t) by {
        forall i | 0 <= i < |t| ensures t[i] < '\U{0080}' { assert t[i] == s[i + 1]; }
      }
      AsciiPerChar(t);
      var h := FriendlyChar(s[0]);
      forall i | 0 <= i < |h + PerChar(t)| ensures (h + PerChar(t))[i] < '\U{0080}' {
        if i >= |h| { assert (h + PerChar(t))[i] == PerChar(t)[i - |h|]; }
      }
    }
  }

  /** Text that holds no capital, space or dropped character is its own
      URL-friendly form. */
  lemma {:induction false} PerCharFixed(s: string)
    requires forall i :: 0 <= i < |s| ==> !IsUpperAscii(s[i]) && s[i] != ' ' && !Dropped(s[i])
    ensures PerChar(s) == s
    decreases |s|
  {
    if s != [] {
      PerCharFixed(s[1..]);
      assert [s[0]] + s[1..] == s;
    }
  }

  // ---------------------------------------------------------- node arrays

  /** The integers `start..end`, empty when `end < start`. */
  function Range(start: int, end: int): (r: seq<int>)
    ensures |r| == (if end < start then 0 else end - start + 1)
    ensures forall k :: 0 <= k < |r| ==> r[k] == start + k
  {
    if end < start then [] else seq(end - start + 1, k => start + k)
  }

  lemma RangeSplit(start: int, mid: int, end: int)
    requires start - 1 <= mid <= end
    ensures Range(start, mid) + Range(mid + 1, end) == Range(start, end)
  {
    assert forall k :: 0 <= k < |Range(start, end)| ==>
      (Range(start, mid) + Range(mid + 1, end))[k] == Range(start, end)[k];
  }

  /** The pages node `i` handles: `i * perNode + 1` to
      `min((i + 1) * perNode, allIndexes)`. */
  function NodeArray(allIndexes: int, perNode: int, i: int): seq<int> {
    Range(i * perNode + 1, Min((i + 1) * perNode, allIndexes))
  }

  /** `getNodeArrays(allIndexes, numberOfNodes)`: one array per node of
      consecutive page numbers. No node means no arrays. */
  function NodeArrays(allIndexes: int, numberOfNodes: int): (r: seq<seq<int>>)
    ensures |r| == (if numberOfNodes < 0 then 0 else numberOfNodes)
    ensures numberOfNodes > 0 ==>
      forall i :: 0 <= i < |r| ==> r[i] == NodeArray(allIndexes, CeilDiv(allIndexes, numberOfNodes), i)
  {
    if numberOfNodes <= 0 then []
    else
      var perNode := CeilDiv(allIndexes, numberOfNodes);
      seq(numberOfNodes, i => NodeArray(allIndexes, perNode, i))
  }

  /** No node gets more than its share of `ceil(allIndexes / numberOfNodes)`
      pages. */
  lemma NodeArraysBounded(allIndexes: int, numberOfNodes: int)
    requires numberOfNodes > 0
    ensures forall i :: 0 <= i < numberOfNodes ==>
      |NodeArrays(allIndexes, numberOfNodes)[i]| <= (if allIndexes < 0 then 0 else CeilDiv(allIndexes, numberOfNodes))
  {
    var p := CeilDiv(allIndexes, numberOfNodes);
    CeilDivSign(allIndexes, numberOfNodes);
    forall i | 0 <= i < numberOfNodes
      ensures |NodeArray(allIndexes, p, i)| <= (if allIndexes < 0 then 0 else p)
    {
      NodeArrayLength(allIndexes, p, i);
    }
  }

  lemma CeilDivSign(n: int, d: int)
    requires d > 0
    ensures n < 0 ==> CeilDiv(n, d) <= 0
    ensures n >= 0 ==> CeilDiv(n, d) >= 0
  {
    var r := CeilDiv(n, d);
    if n < 0 && r > 0 {
      MulMono(0, r - 1, d);
    }
    if n >= 0 && r < 0 {
      MulMono(r, -1, d);
    }
  }

  lemma NodeArrayLength(allIndexes: int, p: int, i: int)
    requires i >= 0
    requires allIndexes < 0 ==> p <= 0
    requires allIndexes >= 0 ==> p >= 0
    ensures |NodeArray(allIndexes, p, i)| <= (if allIndexes < 0 then 0 else p)
  {
    var a := i * p;
    assert (i + 1) * p == a + p;
    if p <= 0 {
      assert a <= 0 by { NonPositiveProduct(i, p); }
    }
  }

  lemma NonPositiveProduct(i: int, p: int)
    requires i >= 0 && p <= 0
    ensures i * p <= 0
  {
  }

  /** The first `j` node arrays. */
  function FirstNodes(allIndexes: int, p: int, j: nat): seq<seq<int>> {
    seq(j, i => NodeArray(allIndexes, p, i))
  }

  lemma FirstNodesSnoc(allIndexes: int, p: int, j: nat)
    requires j > 0
    ensures FirstNodes(allIndexes, p, j) == FirstNodes(allIndexes, p, j - 1) + [NodeArray(allIndexes, p, j - 1)]
  {
  }

  /** Appending node `j - 1` extends the covered range. */
  lemma NodeStep(allIndexes: int, p: int, a: int)
    requires allIndexes >= 0 && p >= 0 && a >= 0
    ensures Range(1, Min(a, allIndexes)) + Range(a + 1, Min(a + p, allIndexes)) == Range(1, Min(a + p, allIndexes))
  {
    var m := Min(a, allIndexes);
    if a >= allIndexes {
      assert Range(a + 1, Min(a + p, allIndexes)) == [];
      assert Range(1, m) + [] == Range(1, m);
    } else {
      RangeSplit(1, m, Min(a + p, allIndexes));
    }
  }

  /** The first `j` nodes together cover pages `1..min(j * perNode,
      allIndexes)`, in order. */
  lemma {:induction false} NodeArraysPrefix(allIndexes: int, p: int, j: nat)
    requires allIndexes >= 0 && p >= 0
    ensures Flatten(FirstNodes(allIndexes, p, j)) == Range(1, Min(j * p, allIndexes))
  {
    if j == 0 {
      assert FirstNodes(allIndexes, p, j) == [];
    } else {
      NodeArraysPrefix(allIndexes, p, j - 1);
      FirstNodesSnoc(allIndexes, p, j);
      LastNode(allIndexes, p, j);
      PrefixStep(allIndexes, p, (j - 1) * p, FirstNodes(allIndexes, p, j - 1), NodeArray(allIndexes, p, j - 1));
    }
  }

  /** Appending the array of the pages after the first `a` extends the
      covered range by `p` pages. */
  lemma PrefixStep(allIndexes: int, p: int, a: int, prev: seq<seq<int>>, last: seq<int>)
    requires allIndexes >= 0 && p >= 0 && a >= 0
    requires Flatten(prev) == Range(1, Min(a, allIndexes))
    requires last == Range(a + 1, Min(a + p, allIndexes))
    ensures Flatten(prev + [last]) == Range(1, Min(a + p, allIndexes))
  {
    FlattenAppend(prev, [last]);
    assert Flatten([last]) == last + Flatten<int>([]);
    NodeStep(allIndexes, p, a);
  }

  /** Node `j - 1` starts after the first `(j - 1) * p` pages. */
  lemma LastNode(allIndexes: int, p: int, j: nat)
    requires p >= 0 && j > 0
    ensures var a := (j - 1) * p;
      && a >= 0 && j * p == a + p
      && NodeArray(allIndexes, p, j - 1) == Range(a + 1, Min(a + p, allIndexes))
  {
    var a := (j - 1) * p;
    assert j * p == a + p;
  }

  /** With at least one node and no negative count, the arrays together are
      exactly the pages `1..allIndexes`, in order. */
  lemma NodeArraysCover(allIndexes: int, numberOfNodes: int)
    requires allIndexes >= 0 && numberOfNodes > 0
    ensures Flatten(NodeArrays(allIndexes, numberOfNodes)) == Range(1, allIndexes)
  {
    var p := CeilDiv(allIndexes, numberOfNodes);
    CeilDivSign(allIndexes, numberOfNodes);
    NodeArraysPrefix(allIndexes, p, numberOfNodes);
    assert NodeArrays(allIndexes, numberOfNodes) == FirstNodes(allIndexes, p, numberOfNodes);
  }
}
